=== FILE: README.md ===
# Session handling and utilities of the Spectrity web front end, in Dafny

This project models the logic core of the Spectrity web front end, a
Next.js/React application that talks to an Instagram-insights backend. The
model covers four parts.

- **The token-refresh interceptors.** There are two alternative drafts, and
  each becomes its own module:
  - the bearer deployment (`client.ts` over `tokenStorage.ts`): a 401 starts
    one refresh, later 401s wait in a queue, and each request carries a
    `_retry` mark;
  - the cookie deployment (`client.cookie.ts` over `tokenStorage.cookie.ts`):
    every 401 awaits one shared refresh promise.

  JavaScript runs on one thread, so each interceptor is a sequential state
  machine. Every piece of code between two `await`s is one atomic step, and
  the events are: a request is sent, a response arrives, the refresh POST
  settles.
- **The authentication API wrappers** (`auth.ts`, `auth.cookie.ts`):
  - which fields are read from a response, with camelCase and snake_case
    spellings;
  - which calls clear the stored tokens, and whether before or after their
    request succeeds;
  - how a session is restored on start-up.
- **The pure utilities:**
  - redaction of log payloads;
  - the password and return-path validators, and error-message selection;
  - the OAuth `state` parameter: hex encoding, ten-minute expiry, consumed
    when validated;
  - the Instagram link classifier and normaliser;
  - the query-string filter of the posts listing;
  - the snake_case to camelCase record transforms;
  - the error normalisation of the post-scraping and feed calls.
- **The decisions inside UI components:**
  - the posts filter record and its badge count;
  - the posts page's handlers and its page-number buttons;
  - the essence feed's relative timestamps and card conversion;
  - the route guards;
  - the authentication context's cross-tab reaction, sign-in gate and
    sign-out ordering.

The outside world becomes parameters of the model:
- every HTTP outcome (`Result<…, Failure>`);
- the clock (`now`);
- the random bytes;
- the URL parser (`string -> Option<UrlParts>`);
- percent-encoding (`string -> string`);
- the locale's date rendering.

Both deployments exist side by side in the source. Each is modelled on its
own, and the two are never composed.

Files:
- `common.dfy`: option and result types, string helpers, decimal and hex
  digits.
- `js_value.dfy`: JavaScript values, truthiness, `String(v)` and `parseInt`.
- `http.dfy`: replies, failures, the refresh call and the redirect rule.
- One file per source file for the rest.

Four behaviours of the code stand out, and the model keeps each of them:
- **The retry mark.** The bearer code marks only the request that starts a
  refresh. Queued requests are replayed unmarked, so a queued request can
  cause a second refresh (`BearerClient.QueuedRequestCanRefreshTwice`).
- **The refresh body.** The bearer code needs both tokens in the refresh
  response. A body with only an `accessToken` fails the refresh
  (`BearerClient.RefreshFieldFallback`).
- **Sign-out everywhere.** `logoutAll` and `changePassword` clear the stored
  tokens only after their request succeeds, in both deployments. `logout`
  clears them whatever its request did (`AuthApi.ClearOnlyAfterSuccess`,
  `CookieAuthApi.ClearOnlyAfterSuccess`, `AuthApi.LogoutAlwaysClears`).
- **The cookie deployment's failures.** They differ from the bearer
  deployment's in two ways:
  - a second 401 on a replayed request redirects to the session-expired
    page from any page, the sign-in pages included
    (`CookieClient.RetriedUnauthorizedRedirects`);
  - a failed refresh clears no client-side token.

## Model

| member | source | states |
|---|---|---|
| BearerClient.Initial | src/api/client.ts:47-48 | No refresh runs, the queue is empty, and the invariant holds at module load |
| BearerClient.Step | src/api/client.ts:24-168 | One atomic step of the interceptors. Requests are never forgotten, and only a send adds one. The path never changes. Refresh calls are only ever appended. The location changes only to /login?session=expired |
| BearerClient.Authorize | src/api/client.ts:24-30 | The request interceptor sets Authorization to "Bearer " + token exactly when the store yields a token, and leaves the header as it was otherwise |
| BearerClient.ParseRefresh | src/api/client.ts:116-129 | The refresh body gives a token pair only when both tokens are present: access from `accessToken`, else `access_token`; refresh from `refreshToken`, else `refresh_token` |
| BearerClient.StepPreservesInv | src/api/client.ts:47-168 | Every step keeps the invariant. `isRefreshing` holds exactly while one marked request awaits the refresh POST. The queue lists the queued requests without repetition, and it is empty when no refresh runs |
| BearerClient.RunPreservesInv | src/api/client.ts:47-168 | The invariant holds after any sequence of events |
| BearerClient.AtMostOneRefreshOutstanding | src/api/client.ts:79-93 | In a reachable state, no two requests await a refresh POST |
| BearerClient.RefreshCallsOnlyFromIdle | src/api/client.ts:79-111 | A refresh POST is issued only by a 401 on an unmarked in-flight request while no refresh runs, and at most one per step |
| BearerClient.SendAttachesBearer | src/api/client.ts:24-30 | Sending a new request attaches "Bearer <token>" exactly when the store yields a token |
| BearerClient.NonUnauthorizedPassesThrough | src/api/client.ts:68-71 | A non-401 response settles its request unchanged. The refresh flag, the queue, the tokens and the location are untouched |
| BearerClient.RetriedUnauthorizedIsTerminal | src/api/client.ts:74-76 | A 401 on a marked request is rejected with that 401. No refresh, no redirect, no token change |
| BearerClient.UnauthorizedWhileRefreshingQueues | src/api/client.ts:79-89 | While a refresh runs, a 401 appends exactly that request to the queue, unmarked, and starts nothing |
| BearerClient.UnauthorizedWhileIdleStartsRefresh | src/api/client.ts:92-111 | With no refresh running, a 401 marks the request and raises `isRefreshing`. It then POSTs the stored refresh token without an Authorization header |
| BearerClient.MissingRefreshTokenFailsWithoutCall | src/api/client.ts:96-101 | With no stored refresh token the refresh fails before any network call. It then follows the failure path |
| BearerClient.RefreshFieldFallback | src/api/client.ts:116-129 | camelCase wins over snake_case, and the two spellings give the same pair. A body with only an access token fails |
| BearerClient.RefreshSuccessDrainsQueue | src/api/client.ts:50-59 | On success both tokens are stored. Every queued request and the starter are re-sent with the new Bearer token, and the queue is empty |
| BearerClient.RefreshFailureDrainsQueue | src/api/client.ts:141-166 | On failure every queued request and the starter are rejected with the same error. The tokens are cleared and `isRefreshing` drops |
| BearerClient.RefreshFailureRedirect | src/api/client.ts:150-160 | After a failed refresh the browser goes to /login?session=expired, except from /login, /register and /forgot-password |
| Http.LocationAfterRefreshFailure | src/api/client.ts:150-160 | The location is either unchanged or /login?session=expired, and it changes only in a browser away from the auth pages |
| BearerClient.BurstWhileRefreshingQueues | src/api/client.ts:79-89 | During a refresh, a burst of 401s queues every request in order and issues no refresh call |
| BearerClient.ConcurrentBurstIssuesOneRefresh | src/api/client.ts:79-111 | n >= 1 simultaneous 401s while idle issue exactly one refresh POST. The first request awaits it and the others are queued |
| BearerClient.QueuedRequestCanRefreshTwice | src/api/client.ts:79-93 | A concrete trace in which a queued request, replayed unmarked, gets a second 401 and starts a second refresh |
| CookieClient.Initial | src/api/client.cookie.ts:75-76 | No refresh runs and no promise is outstanding at module load |
| CookieClient.Step | src/api/client.cookie.ts:75-168 | One atomic step of the interceptors. Requests are never forgotten, and only a send adds one. The path never changes. Refresh calls are only ever appended. The location changes only to /login?session=expired |
| CookieClient.StepPreservesInv | src/api/client.cookie.ts:75-168 | The two flags move together, and the promise is the last POST issued. Every waiter waits on it and carries the mark |
| CookieClient.RunPreservesInv | src/api/client.cookie.ts:75-168 | The invariant holds after any sequence of events |
| CookieClient.NonUnauthorizedPassesThrough | src/api/client.cookie.ts:86-88 | A non-401 response settles its request and changes nothing else |
| CookieClient.UnauthorizedJoinsOrStartsRefresh | src/api/client.cookie.ts:102-121 | Every request entering recovery is marked before any await. During a refresh a 401 joins the outstanding promise without a new POST; otherwise it starts one POST and waits on it |
| CookieClient.RetriedUnauthorizedRedirects | src/api/client.cookie.ts:91-100 | A 401 on a marked request is rejected. In a browser it goes to /login?session=expired from any page |
| CookieClient.WaitersShareOutcome | src/api/client.cookie.ts:106-114 | When the promise settles, all waiters are re-sent, or all are rejected with the same error. Other requests are untouched |
| CookieClient.RefreshCallsOnlyFromIdle | src/api/client.cookie.ts:106-121 | A refresh POST comes only from a 401 on an unmarked request while no promise is outstanding |
| CookieClient.RetryMarkIsPermanent | src/api/client.cookie.ts:103 | Once marked, a request stays marked through every later step |
| CookieClient.BurstJoinsPromise | src/api/client.cookie.ts:106-114 | While a promise is outstanding, a burst of 401s makes every request wait on it and issues no POST |
| CookieClient.WaitingSurvives401s | src/api/client.cookie.ts:106-114 | 401s for other requests leave a waiting request waiting |
| CookieClient.ConcurrentBurstIssuesOneRefresh | src/api/client.cookie.ts:106-168 | n >= 1 simultaneous 401s while idle cause exactly one POST, and all of them wait on its promise |
| CookieClient.CheckAuthStatus | src/api/client.cookie.ts:175-182 | Undecided while the status request is pending. Afterwards true exactly when it succeeded |
| TokenStorage.GetAccessToken | src/utils/tokenStorage.ts:35-56 | A returned token is non-empty, and storage is never written. The store changes only by caching the returned token in memory |
| TokenStorage.SetAccessToken | src/utils/tokenStorage.ts:60-65 | Memory and "at" hold the token, and outside development getAccessToken then returns it when it is non-empty |
| TokenStorage.GetRefreshToken | src/utils/tokenStorage.ts:70-79 | The dev token in development. Otherwise "rt" from storage, and nothing without a window |
| TokenStorage.SetRefreshToken | src/utils/tokenStorage.ts:84-87 | "rt" holds the token, which getRefreshToken then returns outside development. Without a window nothing changes |
| TokenStorage.SetTokens | src/utils/tokenStorage.ts:92-98 | Memory, "at" and "rt" hold the pair, and the getters return it outside development |
| TokenStorage.ClearTokens | src/utils/tokenStorage.ts:103-110 | "at", "rt" and "user" are removed, every other entry kept, memory emptied. Outside development no token is readable and hasTokens fails |
| TokenStorage.HasTokens | src/utils/tokenStorage.ts:115-122 | Holds exactly when getRefreshToken yields a non-empty token |
| TokenStorage.GetAccessTokenFallback | src/utils/tokenStorage.ts:43-52 | Memory wins. Storage is read only when memory is empty, and what it yields is cached |
| TokenStorage.GetAccessTokenStable | src/utils/tokenStorage.ts:43-52 | A second read returns the same token and changes nothing |
| TokenStorage.SetTokensRoundTrip | src/utils/tokenStorage.ts:92-98 | After setTokens(a, r) the getters return a and r, "at" and "rt" hold them, and no other key changes |
| TokenStorage.SetAccessTokenFrame | src/utils/tokenStorage.ts:60-65 | setAccessToken touches memory and "at" only |
| TokenStorage.ClearTokensProperties | src/utils/tokenStorage.ts:103-110 | clearTokens removes exactly "at", "rt" and "user" and empties memory. No token remains, and clearing twice is clearing once |
| TokenStorage.HasTokensIffRefreshToken | src/utils/tokenStorage.ts:115-122 | Outside development, hasTokens holds exactly when a non-empty "rt" is stored |
| TokenStorage.NoWindowBehaviour | src/utils/tokenStorage.ts:77-87 | Without a window there is no refresh token and no session, and setRefreshToken does nothing |
| TokenStorage.DevTokensOverride | src/utils/tokenStorage.ts:27-75 | With both dev tokens set in development, the getters return them and hasTokens holds |
| CookieTokenStorage.SetAccessToken | src/utils/tokenStorage.cookie.ts:40-51 | The token is cached. A truthy lifetime sets expiry = now + 1000 * seconds; otherwise the previous expiry stays |
| CookieTokenStorage.GetAccessToken | src/utils/tokenStorage.cookie.ts:54-66 | Past a truthy expiry the cache and expiry are dropped and nothing is returned; otherwise the cached token is returned |
| CookieTokenStorage.HasAccessToken | src/utils/tokenStorage.cookie.ts:54-71 | A session exactly while a non-empty token is cached and unexpired. The read drops an expired cache and its expiry, and otherwise changes nothing |
| CookieTokenStorage.HasAccessTokenClearsStaleExpiry | src/utils/tokenStorage.cookie.ts:40-71 | After a session check past the expiry, a token set without a lifetime is readable; without the check it inherits the stale expiry and is dropped |
| CookieTokenStorage.GetRefreshToken | src/utils/tokenStorage.cookie.ts:77-80 | Always null: the refresh token is in an HttpOnly cookie |
| CookieTokenStorage.SetTokens | src/utils/tokenStorage.cookie.ts:113-119 | The access token is cached, storage is untouched, and a positive lifetime gives a session at once. No refresh token is readable afterwards |
| CookieTokenStorage.ClearTokens | src/utils/tokenStorage.cookie.ts:95-104 | Cache and expiry dropped, "rt", "at" and "user" removed and every other entry kept. No session at any instant |
| CookieTokenStorage.ExpiryBoundary | src/utils/tokenStorage.cookie.ts:56-62 | A token with lifetime s is returned up to and including now + 1000 s, and dropped strictly after |
| CookieTokenStorage.ExpiredStaysEmpty | src/utils/tokenStorage.cookie.ts:56-62 | Once dropped, every later read is empty |
| CookieTokenStorage.ZeroLifetimeKeepsPreviousExpiry | src/utils/tokenStorage.cookie.ts:40-45 | A lifetime of 0 or none sets no expiry: with no earlier expiry the token is readable at every later instant |
| CookieTokenStorage.InheritedExpiryDropsNewToken | src/utils/tokenStorage.cookie.ts:40-62 | A token set without a lifetime after a stale expiry is dropped at once |
| CookieTokenStorage.SetTokensIgnoresRefresh | src/utils/tokenStorage.cookie.ts:113-119 | The refresh argument changes nothing, and getRefreshToken is always null |
| CookieTokenStorage.HasSessionIffCachedToken | src/utils/tokenStorage.cookie.ts:54-88 | hasAccessToken, and so hasSession and hasTokens, holds exactly while a non-empty unexpired token is cached |
| CookieTokenStorage.ClearTokensProperties | src/utils/tokenStorage.cookie.ts:95-104 | No session at any instant after clearTokens, and clearing twice is clearing once |
| CookieTokenStorage.ClearLegacyTokens | src/utils/tokenStorage.cookie.ts:137-147 | Exactly the six listed keys holding a non-empty value are removed. Every other entry stays |
| AuthApi.Login | src/api/auth.ts:56-85 | A failed login leaves the store unchanged. A missing data field gives "Invalid response from server" |
| AuthApi.LoginSucceedsIffComplete | src/api/auth.ts:68-97 | login succeeds exactly when both tokens (either spelling) and a user are present. The stored tokens are then read back |
| AuthApi.LoginFieldFallback | src/api/auth.ts:68-69 | camelCase wins over snake_case, and either spelling alone suffices |
| AuthApi.GetCurrentUser | src/api/auth.ts:113-119 | Yields the transformed user exactly when the response has data |
| AuthApi.RefreshTokenMapping | src/api/auth.ts:232-246 | Each field with its snake_case fallback. Only a missing data field is an error |
| AuthApi.RefreshToken | src/api/auth.ts:232-246 | Fails exactly when the request fails or the response has no data |
| AuthApi.Logout | src/api/auth.ts:124-131 | The request's outcome is passed on |
| AuthApi.LogoutAll | src/api/auth.ts:136-139 | The outcome is passed on. On failure the store is untouched; on success no token remains outside development |
| AuthApi.ChangePassword | src/api/auth.ts:192-205 | The outcome is passed on. On failure the store is untouched; on success no token remains outside development |
| AuthApi.InitializeAuth | src/api/auth.ts:255-279 | "/v1/auth/me" is requested exactly when a refresh token is stored. A user is restored exactly when one is stored and the request yields a user |
| AuthApi.LogoutAlwaysClears | src/api/auth.ts:124-131 | After logout no token remains, whether or not the request succeeded |
| AuthApi.ClearOnlyAfterSuccess | src/api/auth.ts:136-202 | logoutAll and changePassword clear the tokens exactly when their request succeeds |
| AuthApi.InitializeAuthOutcomes | src/api/auth.ts:253-279 | With no refresh token, no request and no user. Otherwise the user exactly when the request yields one |
| CookieAuthApi.Login | src/api/auth.cookie.ts:51-80 | Errors propagate, and any user returned may log in |
| CookieAuthApi.LoginSucceedsIff | src/api/auth.cookie.ts:57-74 | Succeeds exactly when a user comes back that may log in |
| CookieAuthApi.VerificationGate | src/api/auth.cookie.ts:67-71 | An unverified Google account passes. An unverified password account is refused |
| CookieAuthApi.Logout | src/api/auth.cookie.ts:117-129 | Never rejects |
| CookieAuthApi.LogoutAll | src/api/auth.cookie.ts:135-140 | The outcome is passed on. On failure the store is untouched; on success no session at any instant |
| CookieAuthApi.ChangePassword | src/api/auth.cookie.ts:195-210 | The outcome is passed on. On failure the store is untouched; on success no session at any instant |
| CookieAuthApi.InitializeAuth | src/api/auth.cookie.ts:253-267 | A user exactly when the request returns one, and then that user transformed |
| CookieAuthApi.LogoutAlwaysClears | src/api/auth.cookie.ts:117-129 | No session afterwards at any instant, whatever the request did |
| CookieAuthApi.ClearOnlyAfterSuccess | src/api/auth.cookie.ts:135-207 | logoutAll and changePassword clear the store exactly when their request succeeds |
| CookieAuthApi.InitializeAuthOutcomes | src/api/auth.cookie.ts:253-267 | The user exactly when the request returns one, nothing on any error |
| SecureLogger.RedactValue | src/utils/secureLogger.ts:64-70 | A truthy value becomes the marker, anything else null |
| SecureLogger.Sanitize | src/utils/secureLogger.ts:46-84 | Past depth 5 the marker string. null, undefined and primitives unchanged. Arrays element-wise with length kept |
| SecureLogger.SanitizeIsClean | src/utils/secureLogger.ts:60-78 | After sanitising, no sensitive key at any depth holds anything but the marker or null |
| SecureLogger.SensitiveKeyExamples | src/utils/secureLogger.ts:20-41 | Any key with "Token" inside it, whatever comes before or after (so camelCase refreshToken), is sensitive: matching lower-cases the key and looks for a listed fragment anywhere in it |
| SecureLogger.EmailIsNotSensitive | src/utils/secureLogger.ts:20-41 | An example: "email" contains none of the listed fragments, so an e-mail field is kept |
| SecureLogger.SanitizeObjectEntry | src/utils/secureLogger.ts:63-78 | Each entry keeps key and position. Sensitive values are redacted, primitives kept, nested values sanitised one level deeper |
| SecureLogger.RefreshTokenIsRedacted | src/utils/secureLogger.ts:64-70 | A refresh token beside an e-mail address: the token is replaced, the address kept |
| SecureLogger.SanitizeHeight | src/utils/secureLogger.ts:48 | The output nests at most 6 - depth levels, whatever the input |
| SecureLogger.SanitizeIdempotent | src/utils/secureLogger.ts:46-84 | Sanitising twice is sanitising once |
| SecureLogger.SafeErrorShowsOnlySafeKeys | src/utils/secureLogger.ts:131-142 | The logged error shows message, code, status, statusText and name as the error has them, and nothing else |
| SecureLogger.SafeError | src/utils/secureLogger.ts:131-142 | An object with exactly the five safe keys, in order |
| SecureLogger.CheckToken | src/utils/secureLogger.ts:158-173 | Nothing for a missing or empty token. Otherwise its length, a prefix of at most four characters, and JWT exactly when it starts with "eyJ" |
| SecureLogger.CheckTokenRevealsFourChars | src/utils/secureLogger.ts:161-166 | Tokens with the same status agree on their first four characters only |
| Validators.PasswordAcceptedIff | src/utils/validators.ts:8-22 | Accepted exactly when length >= 8 and it has an uppercase letter, a digit and a listed special character |
| Validators.ValidatePassword | src/utils/validators.ts:8-22 | A refusal is one of the four requirement messages |
| Validators.PasswordFirstFailure | src/utils/validators.ts:9-20 | Each message names a failing requirement, and every earlier one holds |
| Validators.PasswordExamples | src/utils/validators.ts:18-20 | A letters-and-digits password is refused for lack of a special character, and adding one makes it acceptable |
| Validators.IsValidReturnUrl | src/utils/validators.ts:27-41 | Accepted paths are non-empty and start with "/" |
| Validators.ReturnUrlIff | src/utils/validators.ts:28-40 | Accepted exactly when the path starts with "/" and not "//". The scheme tests never decide |
| Validators.ErrorMessageChain | src/utils/validators.ts:46-76 | Axios errors: response message, else the nested error message, else the error's message, else the fallback. Error, string and other kinds as listed |
| Validators.GetErrorMessage | src/utils/validators.ts:46-76 | An axios error always gets a non-empty message |
| OAuthState.ByteHex | src/utils/oauthState.ts:23-24 | Two hex digits per byte, zero-padded, whose value is the byte |
| OAuthState.HexEncode | src/utils/oauthState.ts:23-25 | Two hex digits per byte |
| OAuthState.GenerateOAuthState | src/utils/oauthState.ts:19-26 | 64 lower-case hex digits from 32 random bytes |
| OAuthState.HexRoundTrip | src/utils/oauthState.ts:23-25 | Decoding the state gives back the bytes |
| OAuthState.GenerateOAuthStateInjective | src/utils/oauthState.ts:19-26 | Different random bytes give different states |
| OAuthState.StoreOAuthState | src/utils/oauthState.ts:31-37 | The slot holds the given state with the current instant as its timestamp |
| OAuthState.ValidateAndConsume | src/utils/oauthState.ts:44-90 | The slot is empty afterwards, whatever the verdict. Only a readable JSON value in the slot can be accepted |
| OAuthState.ValidateIff | src/utils/oauthState.ts:53-83 | Accepted exactly when the slot holds a readable JSON value whose timestamp is at most 600000 ms old or not a number, and whose state is the received one if one was received |
| OAuthState.TimestamplessEntryNeverExpires | src/utils/oauthState.ts:58-83 | A slot value without a numeric timestamp never expires: `{}` is accepted at any instant when no state is received |
| OAuthState.StoreThenValidate | src/utils/oauthState.ts:31-83 | Storing then validating within ten minutes succeeds. Exactly ten minutes succeeds; one more millisecond fails |
| OAuthState.ConsumeOnce | src/utils/oauthState.ts:44-90 | A replayed validation always fails |
| OAuthState.MismatchRefused | src/utils/oauthState.ts:75-80 | A different received state is refused however fresh |
| OAuthState.ClearOAuthState | src/utils/oauthState.ts:94-96 | The slot is empty |
| InstagramLinks.PrepareUrl | src/utils/instagramLinks.ts:33-41 | White space removed; "https://" prefixed unless the text starts with "http" |
| InstagramLinks.FindFrom | src/utils/instagramLinks.ts:65-98 | The first position from which the pattern matches, with its capture |
| InstagramLinks.SearchIsLeftmost | src/utils/instagramLinks.ts:65-98 | A search result is a match and no earlier position matches, like `String.match` |
| InstagramLinks.SearchCaptureClasses | src/utils/instagramLinks.ts:64-98 | Ids come from [A-Za-z0-9_-], story user names from [A-Za-z0-9._] |
| InstagramLinks.ProfileName | src/utils/instagramLinks.ts:110 | The name of a one-segment path with an optional trailing slash, from [A-Za-z0-9._] |
| InstagramLinks.ClassifyPath | src/utils/instagramLinks.ts:64-119 | The classification is well formed: an id for post, reel, tv, story and profile, a user name for story and profile |
| InstagramLinks.ParseInstagramUrl | src/utils/instagramLinks.ts:31-137 | isValid exactly when the type is not unknown. An invalid result has id "" and no user name |
| InstagramLinks.ClassifyPrecedence | src/utils/instagramLinks.ts:64-119 | Post, then reel(s), then tv, then story, then profile. Each kind exactly when no earlier kind matches |
| InstagramLinks.InvalidIsUnknown | src/utils/instagramLinks.ts:49-136 | A failed parse and a non-Instagram host both give unknown with id "" |
| InstagramLinks.HostCheckAcceptsLookalikes | src/utils/instagramLinks.ts:49-51 | The host test is a substring test, so any host containing "instagram.com" passes |
| InstagramLinks.StoryOfUserPReadsAsPost | src/utils/instagramLinks.ts:65-98 | A story of the user "p" is read as a post |
| InstagramLinks.CanonicalPathReclassifies | src/utils/instagramLinks.ts:171-185 | Each canonical path classifies back to its kind, id and user name |
| InstagramLinks.NormalizeInstagramUrl | src/utils/instagramLinks.ts:163-185 | An invalid input is returned unchanged |
| InstagramLinks.NormalizeIdempotent | src/utils/instagramLinks.ts:163-185 | Normalising twice is normalising once, for every URL that parses as valid |
| InstagramLinks.StoryNeverShadowed | src/utils/instagramLinks.ts:65-98 | A path read as a story never has p, reel, reels or tv as its user name, since an earlier pattern would have matched |
| InstagramLinks.IsInstagramUrl | src/utils/instagramLinks.ts:142-150 | A link only when the parser accepts the text. Every text without white space that starts with "http" and parses as valid passes |
| InstagramLinks.IsInstagramUrlVsParse | src/utils/instagramLinks.ts:31-150 | For such a text, a valid parse is exactly a passing host test on a path of a known kind |
| InstagramLinks.ExtractInstagramId | src/utils/instagramLinks.ts:155-158 | The id of a valid parse, otherwise nothing |
| InstagramLinks.ValidateInstagramUrls | src/utils/instagramLinks.ts:205-207 | Only valid parses, at most one per input |
| InstagramLinks.ValidateAppend | src/utils/instagramLinks.ts:205-207 | The filter distributes over concatenation, so it keeps the valid parses in input order |
| InstagramLinks.ContentTypeLabel | src/utils/instagramLinks.ts:190-200 | A label starting with "Instagram " for every type |
| InstagramLinks.LabelsDistinct | src/utils/instagramLinks.ts:190-200 | Different types get different labels |
| InstagramLinks.ValidateSingle | src/utils/instagramLinks.ts:205-207 | One input gives its parse when valid, and nothing otherwise |
| InstagramLinks.ParseCanonical | src/utils/instagramLinks.ts:163-185 | A canonical URL parses back to the kind, id and user name it was built from |
| InstagramLinks.PrepareKeepsCleanUrl | src/utils/instagramLinks.ts:33-41 | A URL without white space that starts with "http" is used as given |
| PostsQuery.QueryParams | src/api/posts.ts:120-127 | At most one parameter per entry |
| PostsQuery.PostsUrl | src/api/posts.ts:118-131 | Every URL is "/v1/posts?" followed by the query string |
| PostsQuery.QueryParamsMembership | src/api/posts.ts:123-127 | A parameter comes from a set entry with its String value, and every set entry yields one |
| PostsQuery.QueryParamsAppend | src/api/posts.ts:123-127 | Filtering distributes over concatenation, so entry order is preserved |
| PostsQuery.FalsyValuesAreSent | src/api/posts.ts:124 | 0 and "false" are sent |
| PostsQuery.EmptyQueryUrl | src/api/posts.ts:118-131 | A query with nothing set requests "/v1/posts?" |
| ApiTransform.TransformUserRoundTrip | src/utils/apiTransform.ts:50-64 | Each field reaches its camelCase counterpart, and the user with the dropped fields gives the backend record back |
| ApiTransform.TransformUserDropsExactlyExtras | src/utils/apiTransform.ts:11-64 | Records differing only in backend-only fields give the same user; others give different users |
| ApiTransform.TransformSessionBijective | src/utils/apiTransform.ts:69-81 | The nine session fields map one-to-one |
| ApiTransform.TransformUser | src/utils/apiTransform.ts:50-64 | The user together with the backend-only fields gives the backend record back |
| ApiTransform.TransformSession | src/utils/apiTransform.ts:69-81 | The session maps back to the backend record it came from |
| ApiTransform.TransformUsers | src/utils/apiTransform.ts:86-88 | Length kept, element i transformed |
| ApiTransform.TransformSessions | src/utils/apiTransform.ts:93-95 | Length kept, element i transformed |
| PostsApi.NormalizeError | src/api/posts.api.ts:85-106 | Without a body, NETWORK_ERROR with status 0. With one, the HTTP status and a non-empty code |
| PostsApi.NormalizeErrorChain | src/api/posts.api.ts:85-106 | Code: the backend's, else API_ERROR. Message: the first of error.message and message, else the default |
| PostsApi.BodilessResponseIsNetworkError | src/api/posts.api.ts:85-106 | A response without a body loses its status |
| PostsApi.ScrapeInstagramPost | src/api/posts.api.ts:75-107 | The backend body exactly on success |
| PostsApi.GetEssenceFeed | src/api/posts.api.ts:116-152 | The backend body exactly on success, and an empty post list on failure |
| PostsApi.FailuresResolve | src/api/posts.api.ts:84-151 | Both calls resolve on failure with the same code and status |
| PostsApi.EssenceFeedUrlCarriesParams | src/api/posts.api.ts:116-123 | Two calls request the same URL exactly when they ask for the same page and limit, with 1 and 10 for absent ones |
| PostsApi.FeedDefaults | src/api/posts.api.ts:116-123 | The defaults are page 1 and limit 10, newest first |
| PostsApi.EssenceFeedUrl | src/api/posts.api.ts:116-123 | The feed URL starts with its path and the page parameter |
| PostsFilters.WithKey | src/components/posts/PostsFilters.tsx:19-22 | The key reads the new value, and every other key reads as before |
| PostsFilters.WithKeyKeys | src/components/posts/PostsFilters.tsx:19-22 | The keys afterwards are the old keys plus the written one |
| PostsFilters.WithKeyPlacement | src/components/posts/PostsFilters.tsx:19-22 | An existing key keeps its place, and a new key goes last |
| PostsFilters.WithKeyDistinct | src/components/posts/PostsFilters.tsx:19-22 | Distinct keys stay distinct |
| PostsFilters.UpdateFilter | src/components/posts/PostsFilters.tsx:18-23 | "" is stored as undefined, anything else as given. Other keys are unchanged |
| PostsFilters.ActiveFilterCount | src/components/posts/PostsFilters.tsx:25-27 | At most one per entry |
| PostsFilters.CountAfterWithKey | src/components/posts/PostsFilters.tsx:18-27 | Setting a key moves the count by exactly that entry's old and new contribution, and never for page or limit |
| PostsFilters.NumericInput | src/components/posts/PostsFilters.tsx:212-257 | Undefined exactly for empty text, otherwise a number or NaN as parseInt gives |
| JsValues.ParseInt | src/components/posts/PostsFilters.tsx:212 | A number or NaN. NaN for empty text and for text starting with anything but white space, a sign or a digit. A leading digit gives a number >= 0 |
| PostsFilters.NumericInputRoundTrip | src/components/posts/PostsFilters.tsx:212-257 | A typed number is stored as that number, and an emptied input clears the filter |
| PostsFilters.ClearedFilterNotSent | src/components/posts/PostsFilters.tsx:18-23 | A cleared filter is not sent with the request |
| PostsFeed.HandleFiltersChange | src/components/posts/PostsFeed.tsx:55-60 | Page 1, every other key as in the new filters |
| PostsFeed.HandlePageChange | src/components/posts/PostsFeed.tsx:71-75 | The new page, every other key unchanged |
| PostsFeed.HandlersKeepRecordShape | src/components/posts/PostsFeed.tsx:55-75 | Both handlers keep keys distinct and leave the badge count unchanged. A page change adds no key but page |
| PostsFeed.PageChangeOverwrites | src/components/posts/PostsFeed.tsx:71-75 | Two page changes equal the last one, and returning to the current page gives the record back |
| PostsFeed.ResetRestoresInitial | src/components/posts/PostsFeed.tsx:62-69 | Reset gives the initial record, which requests page 1 of 10 newest first and counts two active filters |
| PostsFeed.WindowFrom | src/components/posts/PostsFeed.tsx:167-172 | Each button position yields at most one page number, within [1, total] |
| PostsFeed.PageWindowAsWritten | src/components/posts/PostsFeed.tsx:154-172 | No buttons for one page. Otherwise at most min(5, total), each within [1, total] |
| PostsFeed.PageWindowAsWrittenMiddle | src/components/posts/PostsFeed.tsx:168-172 | Away from both ends: the current page and two on either side |
| PostsFeed.PageWindowAsWrittenRepeats | src/components/posts/PostsFeed.tsx:168-172 | Page 2 of 2 shows 1 1, without the current page. Page 1 of 10 shows 1 2 1 2 3 |
| PostsFeed.PageWindowIntendedProperties | src/components/posts/PostsFeed.tsx:167-172 | The corrected window: min(5, total) consecutive pages within [1, total], containing the current page, agreeing with the code away from the ends |
| PostsFeed.PageWindowIntended | src/components/posts/PostsFeed.tsx:167-172 | The corrected window: no buttons for one page, otherwise min(5, total) of them |
| PostsFeed.HandleResetFilters | src/components/posts/PostsFeed.tsx:62-69 | The reset record has distinct keys and asks for page 1 |
| EssenceFeed.FormatTimestamp | src/app/spectrity/essence/page.tsx:14-27 | Unparsable: the date text. Under a minute, including the future: "Just now". A week or more: the date text |
| EssenceFeed.FormatTimestampBuckets | src/app/spectrity/essence/page.tsx:17-26 | "n m ago" covers [n, n+1) minutes for n in 1..59, "n h ago" [n, n+1) hours for 1..23, "n d ago" [n, n+1) days for 1..6 |
| EssenceFeed.FormatTimestampBoundaries | src/app/spectrity/essence/page.tsx:22-26 | The labels at and just below each unit boundary |
| EssenceFeed.TransformPost | src/app/spectrity/essence/page.tsx:30-46 | Likes: -1 becomes 0, every other count is kept. The image is the first media url or "". Never liked or saved |
| EssenceFeed.TransformPostKeeps | src/app/spectrity/essence/page.tsx:30-46 | Id, author, caption, comments, summaries and short code are kept. The avatar is derived from the author alone. A hidden and a zero like count look the same |
| RouteGuards.ProtectedRoute | src/components/ProtectedRoute.tsx:18-64 | Spinner exactly while loading, with no redirect. Content exactly when not loading and there is no redirect |
| RouteGuards.ProtectedRouteDecides | src/components/ProtectedRoute.tsx:20-63 | Content exactly for a user who is verified or need not be. Visitors go to /login?returnUrl=<encoded path>. Unverified users go to /verify-email-pending. The prop defaults to true |
| RouteGuards.GuestRoute | src/components/ProtectedRoute.tsx:74-106 | Spinner exactly while loading. Content exactly when not loading and there is no redirect |
| RouteGuards.GuestRouteDecides | src/components/ProtectedRoute.tsx:78-105 | Content exactly for a visitor. A signed-in user goes to /spectrity/essence |
| RouteGuards.GuardsComplementary | src/components/ProtectedRoute.tsx:18-106 | With verification waived, every settled state shows content in exactly one guard, and each guard redirects exactly when the other shows content |
| AuthContext.HandleStorageChange | src/context/AuthContext.tsx:67-86 | Keys other than "rt" are ignored. Signing out redirects exactly when not on /login |
| AuthContext.ApplyReaction | src/context/AuthContext.tsx:67-86 | Signing out drops the user, and ignoring keeps it. Re-initialising takes the restored user, and keeps the current one when none was restored |
| AuthContext.StorageReactionIff | src/context/AuthContext.tsx:69-79 | Sign out exactly when "rt" goes from set to unset. Re-initialise exactly when it goes from unset to set |
| AuthContext.OtherTabSessionChanges | src/context/AuthContext.tsx:67-86 | Another tab's clearTokens signs this tab out. Another tab's setTokens, where no session was, restores it here |
| AuthContext.OtherTabSessionFollows | src/context/AuthContext.tsx:67-86 | After another tab's sign-out this tab has no user. After another tab's sign-in it ends with the user the backend returns, or keeps its own when none comes back |
| AuthContext.UnnoticedChanges | src/context/AuthContext.tsx:69-79 | A rotated refresh token and a whole-storage clear are both ignored |
| AuthContext.Login | src/context/AuthContext.tsx:99-115 | The user changes only on success. The store is whatever the API call left |
| AuthContext.LoginGate | src/context/AuthContext.tsx:104-114 | Succeeds exactly for API users who may log in. Refuses unverified password accounts with the verification message, keeping the user |
| AuthContext.UnverifiedLoginLeavesTokens | src/context/AuthContext.tsx:104-112 | A refused unverified login still leaves tokens stored, with no user |
| AuthContext.LogoutOrdering | src/context/AuthContext.tsx:149-160 | The user is dropped only after the call succeeds. A failed logout has cleared the tokens but keeps the user. A failed logoutAll changes nothing |
| AuthContext.Logout | src/context/AuthContext.tsx:149-152 | The outcome is passed on. The user is dropped on success and kept on failure. The store is what the API call left |
| AuthContext.LogoutAll | src/context/AuthContext.tsx:157-160 | The outcome is passed on. The user is dropped on success and kept on failure. The store is what the API call left |
| AuthContext.RefreshUser | src/context/AuthContext.tsx:173-181 | The user the backend returns replaces the current one. A failed call, or an answer without a user, keeps it |
| AuthContext.RefreshUserOutcomes | src/context/AuthContext.tsx:173-181 | The user changes only to the transformed backend user, a repeat changes nothing more, and a signed-in user is never dropped |

## Left out

- Network transport, axios configuration, timeouts and the `withCredentials` flag. Every HTTP outcome is a parameter.
- Console output and the `secureLog` level switches (`auth`, `success`, `info`, `warning`, `storage`, `logger`). They decide only whether something is printed. The printed values are modelled where they are computed (`Sanitize`, `SafeError`, `CheckToken`).
- The URL parser (`new URL`), percent-encoding (`encodeURIComponent`, `URLSearchParams`), `Date` parsing and the locale's date format. They are function parameters.
- The crypto random source. `GenerateOAuthState` takes the 32 bytes.
- JSON parsing of the stored OAuth slot. The slot is summarised by what the validator reads from it: whether parsing or reading a property throws (`Unreadable`), the "state" property when it is a string, and the "timestamp" property's numeric value unless that is `NaN`. A timestamp that converts to a fraction is outside the model, as are fractional numbers generally.
- `tokenStorage.encrypted.ts`, which is not part of this model.
- `extractInstagramUrlsFromText`: it scans free text with a global regular expression, whose repeated matching state is not modelled.
- React rendering, the loading flags, `window.scrollTo`, the previous and next page buttons, and the posts fetch effect.
- `register`, `loginWithGoogle`, `updateUser` and the start-up `initAuth` effect of the authentication context. They set the user from a call's result without deciding anything. `initializeAuth` itself is modelled in `AuthApi` and `CookieAuthApi`.
- Fractional numbers. `JsValue` numbers are integers, plus `NaN`, because the modelled code never makes a fraction.
- SecureLogger.Sanitize: strings are sequences of Unicode code points, and keys are lower-cased for ASCII letters only. JavaScript's `toLowerCase` maps other letters too: a key "to\u212Aen" (with the Kelvin sign) lower-cases to "token" and is redacted by the code but kept by the model.
- SecureLogger.SanitizeIsClean: the same ASCII-only lower-casing as `SecureLogger.Sanitize`, so it speaks of keys whose fragments are spelt with ASCII letters.
- SecureLogger.SanitizeObjectEntry: the same ASCII-only lower-casing as `SecureLogger.Sanitize`.
- SecureLogger.CheckToken: length and the four-character prefix count code points. JavaScript counts UTF-16 code units, so "a😀😀" has length 5 there and 3 here, and its four-unit prefix there ends inside a surrogate pair. Dafny characters are Unicode scalar values and cannot hold half a pair.
- SecureLogger.CheckTokenRevealsFourChars: the same code-point counting as `SecureLogger.CheckToken`.
- Validators.ValidatePassword: the length is counted in code points, not UTF-16 code units. "Aa1!😀😀" has 6 code points and 8 code units, so the code accepts it and the model refuses it for length.
- Validators.PasswordAcceptedIff: the same code-point length as `Validators.ValidatePassword`.
- Validators.PasswordFirstFailure: the same code-point length as `Validators.ValidatePassword`.
- EssenceFeed.FormatTimestamp: the elapsed time is an integer number of milliseconds, as `getTime` differences are. An unparsable timestamp is `None` and shows the locale's text for an invalid date.

## Findings

| source | as written | input that shows it | evidently intended | confidence | as-written member | corrected member |
|---|---|---|---|---|---|---|
| src/components/posts/PostsFeed.tsx:167-172 | Button i shows currentPage - 2 + i, and i + 1 when that is below 1. Near the first page the numbers repeat and the current page can be missing | currentPage 2, totalPages 2 shows "1 1"; currentPage 1, totalPages 10 shows "1 2 1 2 3" | The comment says the current page with two on either side: min(5, total) consecutive pages around the current page, slid inwards at the ends. This also changes the top end: page 10 of 10 shows 8 9 10 as written and 6 7 8 9 10 corrected | high (not executed) | PostsFeed.PageWindowAsWrittenRepeats | PostsFeed.PageWindowIntendedProperties |

=== FILE: api_transform.dfy ===
/** The backend speaks snake_case records; the front end uses camelCase
    ones. A user record loses its backend-only fields on the way; a
    session record maps one-to-one. */
module ApiTransform {
  import opened Common

  datatype Role = USER | ADMIN
  datatype Provider = LOCAL | GOOGLE

  /** The backend-only fields of a user record, which the front end drops. */
  datatype BackendUserExtras = BackendUserExtras(
    google_id: Option<string>,
    last_login_ip: Option<string>,
    last_login_provider: Option<Provider>,
    password_changed_at: Option<string>,
    failed_login_attempts: Option<int>,
    lockout_until: Option<string>,
    updated_at: string)

  datatype BackendUser = BackendUser(
    id: string,
    email: string,
    first_name: Option<string>,
    last_name: Option<string>,
    role: Role,
    provider: Provider,
    avatar_url: Option<string>,
    is_email_verified: bool,
    is_active: bool,
    last_login_at: Option<string>,
    created_at: string,
    extras: BackendUserExtras)

  datatype User = User(
    id: string,
    email: string,
    firstName: Option<string>,
    lastName: Option<string>,
    role: Role,
    provider: Provider,
    isEmailVerified: bool,
    isActive: bool,
    avatarUrl: Option<string>,
    createdAt: string,
    lastLoginAt: Option<string>)

  datatype BackendSession = BackendSession(
    id: string,
    user_id: string,
    ip_address: Option<string>,
    user_agent: Option<string>,
    device_info: Option<string>,
    login_provider: Provider,
    created_at: string,
    expires_at: string,
    last_activity_at: string)

  datatype Session = Session(
    id: string,
    userId: string,
    ipAddress: Option<string>,
    userAgent: Option<string>,
    deviceInfo: Option<string>,
    loginProvider: Provider,
    createdAt: string,
    expiresAt: string,
    lastActivityAt: string)

  /** `transformUser` */
  function TransformUser(b: BackendUser): (u: User)
    ensures ToBackendUser(u, b.extras) == b
  {
    User(b.id, b.email, b.first_name, b.last_name, b.role, b.provider,
         b.is_email_verified, b.is_active, b.avatar_url, b.created_at, b.last_login_at)
  }

  /** The backend record a front-end user came from, given the fields the
      front end does not keep: the reference for what `TransformUser`
      copies where. */
  function ToBackendUser(u: User, extras: BackendUserExtras): (b: BackendUser)
    ensures b.extras == extras
  {
    BackendUser(u.id, u.email, u.firstName, u.lastName, u.role, u.provider, u.avatarUrl,
                u.isEmailVerified, u.isActive, u.lastLoginAt, u.createdAt, extras)
  }

  /** `transformSession` */
  function TransformSession(b: BackendSession): (s: Session)
    ensures ToBackendSession(s) == b
  {
    Session(b.id, b.user_id, b.ip_address, b.user_agent, b.device_info, b.login_provider,
            b.created_at, b.expires_at, b.last_activity_at)
  }

  /** The backend record a front-end session came from. */
  function ToBackendSession(s: Session): BackendSession {
    BackendSession(s.id, s.userId, s.ipAddress, s.userAgent, s.deviceInfo, s.loginProvider,
                   s.createdAt, s.expiresAt, s.lastActivityAt)
  }

  /** `transformUsers`: element-wise, order kept. */
  function TransformUsers(bs: seq<BackendUser>): (us: seq<User>)
    ensures |us| == |bs|
    ensures forall i :: 0 <= i < |bs| ==> us[i] == TransformUser(bs[i])
  {
    if bs == [] then [] else [TransformUser(bs[0])] + TransformUsers(bs[1..])
  }

  /** `transformSessions`: element-wise, order kept. */
  function TransformSessions(bs: seq<BackendSession>): (ss: seq<Session>)
    ensures |ss| == |bs|
    ensures forall i :: 0 <= i < |bs| ==> ss[i] == TransformSession(bs[i])
  {
    if bs == [] then [] else [TransformSession(bs[0])] + TransformSessions(bs[1..])
  }

  // ---------------------------------------------------------------------
  // Properties

  /** Each snake_case field reaches its camelCase counterpart unchanged,
      whatever the backend-only fields hold; and the user together with
      the dropped fields gives back the backend record. */
  lemma TransformUserRoundTrip(u: User, b: BackendUser, extras: BackendUserExtras)
    ensures TransformUser(ToBackendUser(u, extras)) == u
    ensures ToBackendUser(TransformUser(b), b.extras) == b
  {
  }

  /** Two backend records that differ only in backend-only fields give the
      same user, and records that differ elsewhere give different users. */
  lemma TransformUserDropsExactlyExtras(a: BackendUser, b: BackendUser)
    ensures TransformUser(a) == TransformUser(b) <==> a.(extras := b.extras) == b
  {
    if TransformUser(a) == TransformUser(b) {
      TransformUserRoundTrip(TransformUser(a), a, b.extras);
      TransformUserRoundTrip(TransformUser(b), b, b.extras);
    }
  }

  /** All nine session fields map one-to-one: the transform is invertible. */
  lemma TransformSessionBijective(s: Session, b: BackendSession)
    ensures TransformSession(ToBackendSession(s)) == s
    ensures ToBackendSession(TransformSession(b)) == b
  {
  }

  /** The array versions distribute over concatenation, so they map each
      record in place. */
  lemma {:induction false} TransformUsersAppend(xs: seq<BackendUser>, ys: seq<BackendUser>)
    ensures TransformUsers(xs + ys) == TransformUsers(xs) + TransformUsers(ys)
  {
    if xs == [] {
      assert xs + ys == ys;
    } else {
      assert (xs + ys)[1..] == xs[1..] + ys;
      TransformUsersAppend(xs[1..], ys);
    }
  }

  lemma {:induction false} TransformSessionsAppend(xs: seq<BackendSession>, ys: seq<BackendSession>)
    ensures TransformSessions(xs + ys) == TransformSessions(xs) + TransformSessions(ys)
  {
    if xs == [] {
      assert xs + ys == ys;
    } else {
      assert (xs + ys)[1..] == xs[1..] + ys;
      TransformSessionsAppend(xs[1..], ys);
    }
  }
}

=== FILE: auth_api.dfy ===
/** The bearer deployment's authentication calls, as far as they decide
    anything: what `login` extracts from the response and stores, how the
    refresh response is mapped, which calls clear the tokens and whether
    before or after their request succeeds, and how a session is restored
    on start-up.

    The outcome of each HTTP call is a parameter: `Err` for a rejected
    request (after whatever the interceptor did), `Ok` with the response's
    `data` field otherwise (`None` when that field is absent or falsy). */
module AuthApi {
  import opened Common
  import opened Http
  import opened ApiTransform
  import TS = TokenStorage

  const InvalidResponseMessage: string := "Invalid response from server"
  const InvalidLoginFormatMessage: string := "Invalid login response format"

  /** The `data` field of a login response, in both spellings. */
  datatype LoginData = LoginData(
    accessToken: Option<string>,
    access_token: Option<string>,
    refreshToken: Option<string>,
    refresh_token: Option<string>,
    user: Option<BackendUser>)

  /** The `data` field of a refresh response. */
  datatype RefreshData = RefreshData(
    accessToken: Option<string>,
    access_token: Option<string>,
    refreshToken: Option<string>,
    refresh_token: Option<string>,
    expiresAt: Option<string>,
    expires_at: Option<string>)

  /** What `refreshToken()` resolves with; a field may be missing. */
  datatype RefreshTokenResponse = RefreshTokenResponse(
    accessToken: Option<string>,
    refreshToken: Option<string>,
    expiresAt: Option<string>)

  /** `login()`: the user and the store afterwards. Tokens are taken in
      camelCase, else snake_case; both tokens and the user must be there,
      and only then is anything stored. */
  function Login(s: TS.Store, outcome: Result<Option<LoginData>, Failure>): (r: (Result<User, Failure>, TS.Store))
    ensures r.0.Err? ==> r.1 == s
    ensures outcome.Err? ==> r.0 == Err(outcome.error)
    ensures outcome == Ok(None) ==> r.0 == Err(ClientError(InvalidResponseMessage))
  {
    match outcome
    case Err(f) => (Err(f), s)
    case Ok(None) => (Err(ClientError(InvalidResponseMessage)), s)
    case Ok(Some(d)) =>
      var access := OrElse(d.accessToken, d.access_token);
      var refresh := OrElse(d.refreshToken, d.refresh_token);
      if !Present(access) || !Present(refresh) || d.user.None? then
        (Err(ClientError(InvalidLoginFormatMessage)), s)
      else (Ok(TransformUser(d.user.value)), TS.SetTokens(s, access.value, refresh.value))
  }

  /** `getCurrentUser()` */
  function GetCurrentUser(outcome: Result<Option<BackendUser>, Failure>): (r: Result<User, Failure>)
    ensures r.Ok? <==> outcome.Ok? && outcome.value.Some?
    ensures r.Ok? ==> r.value == TransformUser(outcome.value.value)
    ensures outcome.Err? ==> r == Err(outcome.error)
  {
    match outcome
    case Err(f) => Err(f)
    case Ok(None) => Err(ClientError(InvalidResponseMessage))
    case Ok(Some(b)) => Ok(TransformUser(b))
  }

  /** `refreshToken()`: each field in camelCase, else snake_case; only a
      missing `data` field is an error. */
  function RefreshToken(outcome: Result<Option<RefreshData>, Failure>): (r: Result<RefreshTokenResponse, Failure>)
    ensures r.Err? <==> outcome.Err? || outcome.value.None?
  {
    match outcome
    case Err(f) => Err(f)
    case Ok(None) => Err(ClientError(InvalidResponseMessage))
    case Ok(Some(d)) =>
      Ok(RefreshTokenResponse(OrElse(d.accessToken, d.access_token),
                              OrElse(d.refreshToken, d.refresh_token),
                              OrElse(d.expiresAt, d.expires_at)))
  }

  /** `logout()`: the tokens are cleared in a `finally`, so on both paths;
      the request's error still reaches the caller. */
  function Logout(s: TS.Store, outcome: Result<(), Failure>): (r: (Result<(), Failure>, TS.Store))
    ensures r.0 == outcome
  {
    (outcome, TS.ClearTokens(s))
  }

  /** `logoutAll()`: the tokens are cleared after the request succeeds. */
  function LogoutAll(s: TS.Store, outcome: Result<(), Failure>): (r: (Result<(), Failure>, TS.Store))
    ensures r.0 == outcome
    ensures outcome.Err? ==> r.1 == s
    ensures outcome.Ok? && !TS.UsesDevTokens(s.env) ==> !TS.HasTokens(r.1) && TS.GetAccessToken(r.1).0.None?
  {
    ClearOnSuccess(s, outcome)
  }

  /** The call's outcome, with the tokens cleared only when it succeeded. */
  function ClearOnSuccess<T>(s: TS.Store, outcome: Result<T, Failure>): (Result<T, Failure>, TS.Store) {
    if outcome.Ok? then (outcome, TS.ClearTokens(s)) else (outcome, s)
  }

  /** `changePassword()`: like `logoutAll`, resolving with the response. */
  function ChangePassword<T>(s: TS.Store, outcome: Result<T, Failure>): (r: (Result<T, Failure>, TS.Store))
    ensures r.0 == outcome
    ensures outcome.Err? ==> r.1 == s
    ensures outcome.Ok? && !TS.UsesDevTokens(s.env) ==> !TS.HasTokens(r.1) && TS.GetAccessToken(r.1).0.None?
  {
    ClearOnSuccess(s, outcome)
  }

  /** `initializeAuth()`: the restored user, and whether "/v1/auth/me" was
      requested. Without a refresh token nothing is requested; any failure
      of the request gives no user. */
  function InitializeAuth(s: TS.Store, fetch: Result<Option<BackendUser>, Failure>): (r: (Option<User>, bool))
    ensures r.0.Some? ==> r.1
    ensures r.1 <==> Present(TS.GetRefreshToken(s))
    ensures !Present(TS.GetRefreshToken(s)) ==> r == (None, false)
    ensures r.0.Some? <==> Present(TS.GetRefreshToken(s)) && fetch.Ok? && fetch.value.Some?
  {
    if !Present(TS.GetRefreshToken(s)) then (None, false)
    else
      match GetCurrentUser(fetch)
      case Ok(u) => (Some(u), true)
      case Err(_) => (None, true)
  }

  // ---------------------------------------------------------------------
  // Properties

  /** `login` succeeds exactly when the response carries a non-empty access
      token and refresh token (in either spelling) and a user; it then
      stores both tokens, which the store hands back. */
  lemma LoginSucceedsIffComplete(s: TS.Store, outcome: Result<Option<LoginData>, Failure>)
    ensures Login(s, outcome).0.Ok? <==>
      (outcome.Ok? && outcome.value.Some? && outcome.value.value.user.Some? &&
       (Present(outcome.value.value.accessToken) || Present(outcome.value.value.access_token)) &&
       (Present(outcome.value.value.refreshToken) || Present(outcome.value.value.refresh_token)))
    ensures Login(s, outcome).0.Ok? && !TS.UsesDevTokens(s.env) && s.local.Some? ==>
      var d := outcome.value.value;
      var stored := Login(s, outcome).1;
      TS.GetAccessToken(stored).0 == OrElse(d.accessToken, d.access_token) &&
      TS.GetRefreshToken(stored) == OrElse(d.refreshToken, d.refresh_token) &&
      Login(s, outcome).0.value == TransformUser(d.user.value)
  {
    if Login(s, outcome).0.Ok? && !TS.UsesDevTokens(s.env) && s.local.Some? {
      var d := outcome.value.value;
      TS.SetTokensRoundTrip(s, OrElse(d.accessToken, d.access_token).value, OrElse(d.refreshToken, d.refresh_token).value);
    }
  }

  /** camelCase wins over snake_case, and either spelling alone suffices. */
  lemma LoginFieldFallback(s: TS.Store, a: string, rt: string, b: BackendUser, x: Option<string>, y: Option<string>)
    requires a != "" && rt != ""
    ensures Login(s, Ok(Some(LoginData(Some(a), x, Some(rt), y, Some(b))))) ==
      (Ok(TransformUser(b)), TS.SetTokens(s, a, rt))
    ensures Login(s, Ok(Some(LoginData(None, Some(a), None, Some(rt), Some(b))))) ==
      (Ok(TransformUser(b)), TS.SetTokens(s, a, rt))
    ensures Login(s, Ok(Some(LoginData(Some(a), None, Some(rt), None, None)))) ==
      (Err(ClientError(InvalidLoginFormatMessage)), s)
  {
  }

  /** `refreshToken` maps each field with the snake_case fallback. */
  lemma RefreshTokenMapping(d: RefreshData)
    ensures var r := RefreshToken(Ok(Some(d)));
      r.Ok? &&
      (Present(d.accessToken) ==> r.value.accessToken == d.accessToken) &&
      (!Present(d.accessToken) ==> r.value.accessToken == d.access_token) &&
      (Present(d.refreshToken) ==> r.value.refreshToken == d.refreshToken) &&
      (!Present(d.refreshToken) ==> r.value.refreshToken == d.refresh_token) &&
      (Present(d.expiresAt) ==> r.value.expiresAt == d.expiresAt) &&
      (!Present(d.expiresAt) ==> r.value.expiresAt == d.expires_at)
  {
  }

  /** After `logout`, whether or not its request failed, no token remains. */
  lemma LogoutAlwaysClears(s: TS.Store, outcome: Result<(), Failure>)
    requires !TS.UsesDevTokens(s.env)
    ensures var (_, t) := Logout(s, outcome);
      TS.GetAccessToken(t).0.None? && !TS.HasTokens(t)
  {
    TS.ClearTokensProperties(s);
  }

  /** `logoutAll` and `changePassword` clear the tokens exactly when their
      request succeeds; on failure the store is untouched. */
  lemma ClearOnlyAfterSuccess<T>(s: TS.Store, outcome: Result<(), Failure>, change: Result<T, Failure>)
    requires !TS.UsesDevTokens(s.env)
    ensures outcome.Ok? ==> !TS.HasTokens(LogoutAll(s, outcome).1)
    ensures outcome.Err? ==> LogoutAll(s, outcome).1 == s
    ensures change.Ok? ==> !TS.HasTokens(ChangePassword(s, change).1)
    ensures change.Err? ==> ChangePassword(s, change).1 == s
  {
    TS.ClearTokensProperties(s);
  }

  /** `initializeAuth` requests nothing without a refresh token, and
      otherwise restores the user exactly when the request yields one. */
  lemma InitializeAuthOutcomes(s: TS.Store, fetch: Result<Option<BackendUser>, Failure>)
    ensures !Present(TS.GetRefreshToken(s)) ==> InitializeAuth(s, fetch) == (None, false)
    ensures Present(TS.GetRefreshToken(s)) ==>
      InitializeAuth(s, fetch).1 &&
      (InitializeAuth(s, fetch).0.Some? <==> fetch.Ok? && fetch.value.Some?) &&
      (InitializeAuth(s, fetch).0.Some? ==> InitializeAuth(s, fetch).0.value == TransformUser(fetch.value.value))
  {
  }
}

=== FILE: auth_context.dfy ===
/** The application's authentication state holder: the signed-in user,
    how it follows sign-in and sign-out in other tabs through storage
    events, and the order in which its own sign-in and sign-out change the
    user and the token store. It uses the bearer deployment's calls. The
    asynchronous results it waits for are parameters. */
module AuthContext {
  import opened Common
  import opened Http
  import opened ApiTransform
  import AuthApi
  import CookieAuthApi
  import TS = TokenStorage

  const LoginPath: string := "/login"
  const LoggedOutElsewhereUrl: string := "/login?reason=logged-out-elsewhere"

  /** A `storage` event from another tab: the key (`None` when that tab
      cleared all of storage) and the old and new values. */
  datatype StorageEvent = StorageEvent(key: Option<string>, oldValue: Option<string>, newValue: Option<string>)

  /** What this tab does about a storage event. */
  datatype Reaction =
    | Ignore
    | SignOut(redirect: Option<string>)   // drop the user; maybe leave the page
    | Reinitialize                        // restore the session from storage

  /** `handleStorageChange(e)` on page `pathname`. */
  function HandleStorageChange(e: StorageEvent, pathname: string): (r: Reaction)
    ensures e.key != Some(TS.RefreshKey) ==> r == Ignore
    ensures r.SignOut? ==> (r.redirect.None? <==> pathname == LoginPath)
  {
    if e.key == Some(TS.RefreshKey) && Present(e.oldValue) && !Present(e.newValue) then
      SignOut(if pathname != LoginPath then Some(LoggedOutElsewhereUrl) else None)
    else if e.key == Some(TS.RefreshKey) && !Present(e.oldValue) && Present(e.newValue) then
      Reinitialize
    else Ignore
  }

  /** The user after a reaction; `restored` is what the re-initialisation
      resolved with, used only by `Reinitialize`, which keeps the current
      user when it found none. */
  function ApplyReaction(user: Option<User>, r: Reaction, restored: Option<User>): (u: Option<User>)
    ensures r.SignOut? ==> u.None?
    ensures r.Ignore? ==> u == user
    ensures r.Reinitialize? ==> u == (if restored.Some? then restored else user)
  {
    match r
    case Ignore => user
    case SignOut(_) => None
    case Reinitialize => if restored.Some? then restored else user
  }

  /** The storage event another tab's write raises for `key`, from its
      storage before and after. */
  function EventFor(before: map<string, string>, after: map<string, string>, key: string): (e: StorageEvent)
    ensures e.key == Some(key)
  {
    StorageEvent(Some(key), TS.Item(before, key), TS.Item(after, key))
  }

  /** `login(email, password)`: whether it resolved, the user afterwards
      and the token store afterwards. */
  function Login(user: Option<User>, s: TS.Store, outcome: Result<Option<AuthApi.LoginData>, Failure>):
    (r: (Result<(), Failure>, Option<User>, TS.Store))
    ensures r.0.Err? ==> r.1 == user
    ensures r.0.Ok? ==> r.1.Some?
    ensures r.2 == AuthApi.Login(s, outcome).1
  {
    var (res, after) := AuthApi.Login(s, outcome);
    match res
    case Err(f) => (Err(f), user, after)
    case Ok(u) =>
      if u.provider == LOCAL && !u.isEmailVerified then (Err(ClientError(CookieAuthApi.VerifyEmailMessage)), user, after)
      else (Ok(()), Some(u), after)
  }

  /** `logout()`: the user is dropped only once the call has resolved. */
  function Logout(user: Option<User>, s: TS.Store, outcome: Result<(), Failure>):
    (r: (Result<(), Failure>, Option<User>, TS.Store))
    ensures r.0 == outcome
    ensures outcome.Ok? ==> r.1.None?
    ensures outcome.Err? ==> r.1 == user
    ensures r.2 == AuthApi.Logout(s, outcome).1
  {
    var (res, after) := AuthApi.Logout(s, outcome);
    if res.Ok? then (res, None, after) else (res, user, after)
  }

  /** `logoutAll()` */
  function LogoutAll(user: Option<User>, s: TS.Store, outcome: Result<(), Failure>):
    (r: (Result<(), Failure>, Option<User>, TS.Store))
    ensures r.0 == outcome
    ensures outcome.Ok? ==> r.1.None?
    ensures outcome.Err? ==> r.1 == user
    ensures r.2 == AuthApi.LogoutAll(s, outcome).1
  {
    var (res, after) := AuthApi.LogoutAll(s, outcome);
    if res.Ok? then (res, None, after) else (res, user, after)
  }

  /** `refreshUser()`: the user the backend returned replaces the current
      one; a failure, or an answer without a user, keeps the current one. */
  function RefreshUser(user: Option<User>, fetch: Result<Option<BackendUser>, Failure>): (u: Option<User>)
    ensures fetch.Err? ==> u == user
    ensures fetch == Ok(None) ==> u == user
    ensures fetch.Ok? && fetch.value.Some? ==> u == Some(TransformUser(fetch.value.value))
  {
    match AuthApi.GetCurrentUser(fetch)
    case Ok(latest) => Some(latest)
    case Err(_) => user
  }

  // ---------------------------------------------------------------------
  // Properties

  /** Only the refresh token's key matters: this tab signs out exactly when
      another tab removed or emptied a refresh token that was there, and
      restores the session exactly when another tab set one where there was
      none. Leaving the page happens unless it is the sign-in page. */
  lemma StorageReactionIff(e: StorageEvent, pathname: string)
    ensures HandleStorageChange(e, pathname).SignOut? <==>
      e.key == Some(TS.RefreshKey) && Present(e.oldValue) && !Present(e.newValue)
    ensures HandleStorageChange(e, pathname).Reinitialize? <==>
      e.key == Some(TS.RefreshKey) && !Present(e.oldValue) && Present(e.newValue)
  {
  }

  /** Sign-out in another tab clears its tokens, which raises the event
      that signs this tab out; sign-in in a tab without a session raises the
      event that restores it here. */
  lemma OtherTabSessionChanges(s: TS.Store, access: string, refresh: string, pathname: string)
    requires s.local.Some?
    ensures Present(TS.Item(s.local.value, TS.RefreshKey)) ==>
      HandleStorageChange(EventFor(s.local.value, TS.ClearTokens(s).local.value, TS.RefreshKey), pathname).SignOut?
    ensures !Present(TS.Item(s.local.value, TS.RefreshKey)) && refresh != "" ==>
      HandleStorageChange(EventFor(s.local.value, TS.SetTokens(s, access, refresh).local.value, TS.RefreshKey), pathname) == Reinitialize
  {
    assert TS.RefreshKey !in TS.ClearTokens(s).local.value;
    assert TS.SetTokens(s, access, refresh).local.value[TS.RefreshKey] == refresh;
  }

  /** Following another tab to the end: after its sign-out this tab has no
      user, whatever it was; after its sign-in this tab re-initialises from
      the shared storage (keeping its own in-memory token `mine`) and ends
      with the user the backend returns, or keeps its current user when the
      backend returns none. */
  lemma OtherTabSessionFollows(s: TS.Store, access: string, refresh: string, pathname: string,
                               user: Option<User>, restored: Option<User>, mine: Option<string>,
                               fetch: Result<Option<BackendUser>, Failure>)
    requires s.local.Some? && !TS.UsesDevTokens(s.env)
    ensures Present(TS.Item(s.local.value, TS.RefreshKey)) ==>
      ApplyReaction(user, HandleStorageChange(EventFor(s.local.value, TS.ClearTokens(s).local.value, TS.RefreshKey), pathname), restored).None?
    ensures !Present(TS.Item(s.local.value, TS.RefreshKey)) && refresh != "" ==>
      var shared := TS.SetTokens(s, access, refresh).local;
      var here := TS.Store(mine, shared, s.env);
      ApplyReaction(user, HandleStorageChange(EventFor(s.local.value, shared.value, TS.RefreshKey), pathname),
                    AuthApi.InitializeAuth(here, fetch).0)
        == (if fetch.Ok? && fetch.value.Some? then Some(TransformUser(fetch.value.value)) else user)
  {
    OtherTabSessionChanges(s, access, refresh, pathname);
    if !Present(TS.Item(s.local.value, TS.RefreshKey)) && refresh != "" {
      var shared := TS.SetTokens(s, access, refresh).local;
      var here := TS.Store(mine, shared, s.env);
      assert TS.GetRefreshToken(here) == Some(refresh);
    }
  }

  /** `refreshUser` changes the user only to the one the backend returned,
      and repeating it with the same answer changes nothing more. */
  lemma RefreshUserOutcomes(user: Option<User>, fetch: Result<Option<BackendUser>, Failure>)
    ensures RefreshUser(user, fetch) != user ==>
      fetch.Ok? && fetch.value.Some? && RefreshUser(user, fetch) == Some(TransformUser(fetch.value.value))
    ensures RefreshUser(RefreshUser(user, fetch), fetch) == RefreshUser(user, fetch)
    ensures RefreshUser(user, fetch).None? ==> user.None?
  {
  }

  /** What this tab does not notice: another tab rotating the refresh token
      (old and new both set), and another tab clearing all of storage at
      once, which raises an event with no key. */
  lemma UnnoticedChanges(previous: string, rotated: string, pathname: string, user: Option<User>, restored: Option<User>)
    requires previous != "" && rotated != ""
    ensures HandleStorageChange(StorageEvent(Some(TS.RefreshKey), Some(previous), Some(rotated)), pathname) == Ignore
    ensures HandleStorageChange(StorageEvent(None, Some(previous), None), pathname) == Ignore
    ensures ApplyReaction(user, HandleStorageChange(StorageEvent(None, Some(previous), None), pathname), restored) == user
  {
  }

  /** `login` signs in exactly the users the API call returned that may log
      in: password accounts need a verified email. A refused unverified
      login still leaves the tokens the API call stored. */
  lemma LoginGate(user: Option<User>, s: TS.Store, outcome: Result<Option<AuthApi.LoginData>, Failure>)
    ensures var (res, u, _) := Login(user, s, outcome);
      var api := AuthApi.Login(s, outcome).0;
      (res.Ok? <==> api.Ok? && CookieAuthApi.MayLogIn(api.value)) &&
      (res.Ok? ==> u == Some(api.value))
    ensures var (res, u, after) := Login(user, s, outcome);
      var api := AuthApi.Login(s, outcome).0;
      api.Ok? && !CookieAuthApi.MayLogIn(api.value) ==>
        res == Err(ClientError(CookieAuthApi.VerifyEmailMessage)) && u == user && after == AuthApi.Login(s, outcome).1
  {
  }

  /** An unverified password account that signs in gets its tokens stored
      but no user: the store then reports tokens while the context reports
      no one signed in. */
  lemma UnverifiedLoginLeavesTokens(s: TS.Store, d: AuthApi.LoginData)
    requires d.user.Some? && d.user.value.provider == LOCAL && !d.user.value.is_email_verified
    requires Present(OrElse(d.accessToken, d.access_token)) && Present(OrElse(d.refreshToken, d.refresh_token))
    requires s.local.Some? && !TS.UsesDevTokens(s.env)
    ensures var (res, u, after) := Login(None, s, Ok(Some(d)));
      res.Err? && u.None? && TS.HasTokens(after)
  {
    var refresh := OrElse(d.refreshToken, d.refresh_token).value;
    var after := AuthApi.Login(s, Ok(Some(d))).1;
    assert TS.Item(after.local.value, TS.RefreshKey) == Some(refresh);
  }

  /** Signing out drops the user only after the call succeeded. A failed
      `logout` has already cleared the tokens, so the user stays while the
      store is empty; a failed `logoutAll` changes nothing. */
  lemma LogoutOrdering(user: Option<User>, s: TS.Store, f: Failure)
    ensures Logout(user, s, Ok(())).1.None? && LogoutAll(user, s, Ok(())).1.None?
    ensures Logout(user, s, Ok(())).2 == TS.ClearTokens(s) && LogoutAll(user, s, Ok(())).2 == TS.ClearTokens(s)
    ensures Logout(user, s, Err(f)) == (Err(f), user, TS.ClearTokens(s))
    ensures LogoutAll(user, s, Err(f)) == (Err(f), user, s)
    ensures !TS.UsesDevTokens(s.env) ==> !TS.HasTokens(Logout(user, s, Err(f)).2)
  {
    if !TS.UsesDevTokens(s.env) && s.local.Some? {
      assert TS.RefreshKey !in TS.ClearTokens(s).local.value;
    }
  }
}

=== FILE: bearer_client.dfy ===
/** The bearer-token API client: a request interceptor that attaches the
    stored access token, and a response interceptor that, on a 401, either
    queues the request behind a refresh already in progress or starts the
    one refresh, then replays or rejects everything that waited.

    JavaScript runs the interceptors on one thread, so each stretch of code
    between two `await`s is one atomic transition of a state machine over
    the module's `isRefreshing` flag and `failedQueue`, the request configs
    (with their `_retry` markers), the token store and `window.location`.
    The environment drives it with events: a caller sends a request, a
    response arrives for an in-flight request (a first attempt or a replay:
    both pass through the same interceptor with the same config), or the
    refresh POST settles. */
module BearerClient {
  import opened Common
  import opened Http
  import TS = TokenStorage

  /** Where a request config stands. `Queued` is an entry of
      `failedQueue`; `AwaitingRefresh` is the request whose interceptor
      call is suspended on the refresh POST. */
  datatype Phase =
    | InFlight
    | Queued
    | AwaitingRefresh
    | Succeeded(code: int)
    | Failed(failure: Failure)

  /** A request config: its `_retry` marker and Authorization header. */
  datatype Request = Request(retry: bool, authorization: Option<string>, phase: Phase)

  /** The token fields of a refresh response, in both spellings. */
  datatype TokenFields = TokenFields(
    accessToken: Option<string>,
    access_token: Option<string>,
    refreshToken: Option<string>,
    refresh_token: Option<string>)

  /** The refresh response body; `data` is its `data` field. */
  datatype RefreshBody = RefreshBody(data: Option<TokenFields>)

  datatype Event =
    | Send(id: nat)
    | Response(id: nat, reply: Reply)
    | ConfiglessError(reply: Reply)
    | RefreshSucceeded(body: RefreshBody)
    | RefreshFailed(reply: Reply)

  /** `refresher` is the request whose interceptor call started the
      outstanding refresh; `path` is `window.location.pathname` (absent
      without a window); `location` is the last `window.location.href`
      assignment; `refreshCalls` lists every refresh POST issued. */
  datatype State = State(
    isRefreshing: bool,
    queue: seq<nat>,
    requests: map<nat, Request>,
    refresher: Option<nat>,
    storage: TS.Store,
    path: Option<string>,
    location: Option<string>,
    refreshCalls: seq<RefreshCall>)

  const NoRefreshTokenMessage: string := "No refresh token available"
  const InvalidRefreshFormatMessage: string := "Invalid refresh token response format"
  /** What the engine throws when the response has no `data` field. */
  const MissingDataMessage: string := "Cannot read properties of undefined (reading 'accessToken')"

  /** The state at module load. */
  function Initial(storage: TS.Store, path: Option<string>): (s: State)
    ensures Inv(s)
  {
    State(false, [], map[], None, storage, path, None, [])
  }

  // ---------------------------------------------------------------------
  // Request interceptor

  /** The request interceptor: Authorization becomes "Bearer <token>" when
      the store yields a token, and is left as it was otherwise. */
  function Authorize(req: Request, storage: TS.Store): (r: (Request, TS.Store))
    ensures r.1 == TS.GetAccessToken(storage).1
    ensures r.0.retry == req.retry && r.0.phase == req.phase
    ensures TS.GetAccessToken(storage).0.Some? ==>
      r.0.authorization == Some(BearerHeader(TS.GetAccessToken(storage).0.value))
    ensures TS.GetAccessToken(storage).0.None? ==> r.0 == req
  {
    var (token, storage') := TS.GetAccessToken(storage);
    (if token.Some? then req.(authorization := Some(BearerHeader(token.value))) else req, storage')
  }

  // ---------------------------------------------------------------------
  // Refresh response parsing

  /** Reads the new token pair: each token in camelCase, else snake_case;
      a missing `data` field or a missing token is an error. */
  function ParseRefresh(body: RefreshBody): (r: Result<(string, string), Failure>)
    ensures r.Ok? ==> r.value.0 != "" && r.value.1 != ""
    ensures r.Ok? <==> (body.data.Some? &&
      (Present(body.data.value.accessToken) || Present(body.data.value.access_token)) &&
      (Present(body.data.value.refreshToken) || Present(body.data.value.refresh_token)))
  {
    match body.data
    case None => Err(ClientError(MissingDataMessage))
    case Some(d) =>
      var access := OrElse(d.accessToken, d.access_token);
      var refresh := OrElse(d.refreshToken, d.refresh_token);
      if !Present(access) || !Present(refresh) then Err(ClientError(InvalidRefreshFormatMessage))
      else Ok((access.value, refresh.value))
  }

  // ---------------------------------------------------------------------
  // Transitions

  /** Settles request `id` with `phase`, nothing else changing. */
  function Settle(s: State, id: nat, phase: Phase): (r: State)
    requires id in s.requests
  {
    s.(requests := s.requests[id := s.requests[id].(phase := phase)])
  }

  /** The catch/finally of the refresh attempt: every queued request is
      rejected with the refresh error, tokens are cleared, the browser is
      sent to the login page unless it is on an auth page, the request
      that started the refresh is rejected with the same error, and
      `isRefreshing` drops. */
  function FailRefresh(s: State, f: Failure): (r: State)
    requires s.refresher.Some? && s.refresher.value in s.requests
  {
    var id := s.refresher.value;
    var rejected := map k | k in s.requests ::
      if k in s.queue || k == id then s.requests[k].(phase := Failed(f)) else s.requests[k];
    State(false, [], rejected, None, TS.ClearTokens(s.storage), s.path,
          LocationAfterRefreshFailure(s.path, s.location), s.refreshCalls)
  }

  /** The success path of the refresh: both tokens are stored, each queued
      request and the one that started the refresh get the new Bearer
      header and are sent again through the request interceptor, the queue
      is emptied, and `isRefreshing` drops. */
  function SucceedRefresh(s: State, access: string, refresh: string): (r: State)
    requires s.refresher.Some?
  {
    var stored := TS.SetTokens(s.storage, access, refresh);
    var (token, storage') := TS.GetAccessToken(stored);
    var header := if token.Some? then BearerHeader(token.value) else BearerHeader(access);
    var resent := map k | k in s.requests ::
      if k in s.queue || k == s.refresher.value
      then s.requests[k].(authorization := Some(header), phase := InFlight)
      else s.requests[k];
    s.(isRefreshing := false, queue := [], requests := resent, refresher := None, storage := storage')
  }

  /** A 401 on a request not yet retried while no refresh runs: mark it,
      raise `isRefreshing`, and either POST the stored refresh token or,
      with none stored, fail at once without any network call. */
  function StartRefresh(s: State, id: nat): (r: State)
    requires id in s.requests
  {
    var req := s.requests[id].(retry := true);
    var s1 := s.(isRefreshing := true, requests := s.requests[id := req], refresher := Some(id));
    var token := TS.GetRefreshToken(s.storage);
    if !Present(token) then FailRefresh(s1, ClientError(NoRefreshTokenMessage))
    else
      s1.(requests := s1.requests[id := req.(phase := AwaitingRefresh)],
          refreshCalls := s.refreshCalls + [RefreshCall(RefreshUrl, [("refreshToken", token.value)], None)])
  }

  /** The response interceptor on a response for in-flight request `id`. */
  function OnResponse(s: State, id: nat, reply: Reply): (r: State)
    requires id in s.requests
  {
    var req := s.requests[id];
    if IsSuccess(reply) then Settle(s, id, Succeeded(reply.code))
    else if !IsUnauthorized(reply) then Settle(s, id, Failed(HttpFailure(reply)))
    else if req.retry then Settle(s, id, Failed(HttpFailure(reply)))
    else if s.isRefreshing then
      s.(queue := s.queue + [id], requests := s.requests[id := req.(phase := Queued)])
    else StartRefresh(s, id)
  }

  /** One atomic step. An event that cannot occur in `s` (a response for a
      request that is not in flight, a refresh result with no refresh
      outstanding, a second send of the same config) leaves `s` as it is. */
  function Step(s: State, e: Event): (r: State)
    ensures r.requests.Keys == s.requests.Keys + (if e.Send? then {e.id} else {})
    ensures r.path == s.path && s.refreshCalls <= r.refreshCalls
    ensures r.location != s.location ==> r.location == Some(SessionExpiredUrl)
  {
    match e
    case Send(id) =>
      if id in s.requests then s
      else
        var (req, storage') := Authorize(Request(false, None, InFlight), s.storage);
        s.(requests := s.requests[id := req], storage := storage')
    case Response(id, reply) =>
      if id in s.requests && s.requests[id].phase.InFlight? then OnResponse(s, id, reply) else s
    case ConfiglessError(_) => s
    case RefreshSucceeded(body) =>
      if s.refresher.None? || s.refresher.value !in s.requests then s
      else
        (match ParseRefresh(body)
         case Ok((access, refresh)) => SucceedRefresh(s, access, refresh)
         case Err(f) => FailRefresh(s, f))
    case RefreshFailed(reply) =>
      if s.refresher.None? || s.refresher.value !in s.requests then s
      else FailRefresh(s, HttpFailure(reply))
  }

  function Run(s: State, events: seq<Event>): State
    decreases |events|
  {
    if events == [] then s else Run(Step(s, events[0]), events[1..])
  }

  // ---------------------------------------------------------------------
  // Invariant

  /** Between events: `isRefreshing` holds exactly while one request awaits
      the refresh POST, and that request carries the retry marker; the
      queue lists, without repetition, exactly the queued requests, and it
      is empty whenever no refresh runs. */
  ghost predicate Inv(s: State) {
    && (s.isRefreshing <==> s.refresher.Some?)
    && (s.refresher.Some? ==>
          s.refresher.value in s.requests &&
          s.requests[s.refresher.value].phase == AwaitingRefresh &&
          s.requests[s.refresher.value].retry)
    && (forall k :: k in s.requests && s.requests[k].phase == AwaitingRefresh ==> s.refresher == Some(k))
    && (forall i :: 0 <= i < |s.queue| ==> s.queue[i] in s.requests && s.requests[s.queue[i]].phase == Queued)
    && (forall k :: k in s.requests && s.requests[k].phase == Queued ==> k in s.queue)
    && (forall i, j :: 0 <= i < j < |s.queue| ==> s.queue[i] != s.queue[j])
    && (!s.isRefreshing ==> s.queue == [])
  }

  lemma {:induction false} StepPreservesInv(s: State, e: Event)
    requires Inv(s)
    ensures Inv(Step(s, e))
  {
    match e
    case Send(id) =>
      if id !in s.requests {
        SendPreservesInv(s, id);
      }
    case Response(id, reply) =>
      if id in s.requests && s.requests[id].phase.InFlight? {
        var req := s.requests[id];
        if IsSuccess(reply) || !IsUnauthorized(reply) || req.retry {
          SettlePreservesInv(s, id, if IsSuccess(reply) then Succeeded(reply.code) else Failed(HttpFailure(reply)));
        } else if s.isRefreshing {
          QueuePreservesInv(s, id);
        } else {
          StartRefreshPreservesInv(s, id);
        }
      }
    case ConfiglessError(_) =>
    case RefreshSucceeded(body) =>
      if s.refresher.Some? && s.refresher.value in s.requests {
        match ParseRefresh(body)
        case Ok((access, refresh)) => SucceedPreservesInv(s, access, refresh);
        case Err(f) => FailPreservesInv(s, f);
      }
    case RefreshFailed(reply) =>
      if s.refresher.Some? && s.refresher.value in s.requests {
        FailPreservesInv(s, HttpFailure(reply));
      }
  }

  lemma SendPreservesInv(s: State, id: nat)
    requires Inv(s) && id !in s.requests
    ensures Inv(Step(s, Send(id)))
  {
  }

  lemma SettlePreservesInv(s: State, id: nat, phase: Phase)
    requires Inv(s) && id in s.requests && s.requests[id].phase.InFlight?
    requires phase.Succeeded? || phase.Failed?
    ensures Inv(Settle(s, id, phase))
  {
  }

  lemma QueuePreservesInv(s: State, id: nat)
    requires Inv(s) && s.isRefreshing && id in s.requests && s.requests[id].phase.InFlight?
    ensures Inv(s.(queue := s.queue + [id], requests := s.requests[id := s.requests[id].(phase := Queued)]))
  {
    assert id !in s.queue;
  }

  lemma SucceedPreservesInv(s: State, access: string, refresh: string)
    requires Inv(s) && s.refresher.Some? && s.refresher.value in s.requests
    ensures Inv(SucceedRefresh(s, access, refresh))
  {
  }

  lemma FailPreservesInv(s: State, f: Failure)
    requires Inv(s) && s.refresher.Some? && s.refresher.value in s.requests
    ensures Inv(FailRefresh(s, f))
  {
  }

  lemma StartRefreshPreservesInv(s: State, id: nat)
    requires Inv(s) && !s.isRefreshing
    requires id in s.requests && s.requests[id].phase.InFlight?
    ensures Inv(StartRefresh(s, id))
  {
    var req := s.requests[id].(retry := true);
    var s1 := s.(isRefreshing := true, requests := s.requests[id := req], refresher := Some(id));
    if !Present(TS.GetRefreshToken(s.storage)) {
      var r := FailRefresh(s1, ClientError(NoRefreshTokenMessage));
      forall k | k in r.requests
        ensures r.requests[k].phase != AwaitingRefresh && r.requests[k].phase != Queued
      {
        assert k in s.requests;
      }
    }
  }

  lemma {:induction false} RunPreservesInv(s: State, events: seq<Event>)
    requires Inv(s)
    ensures Inv(Run(s, events))
    decreases |events|
  {
    if events != [] {
      StepPreservesInv(s, events[0]);
      RunPreservesInv(Step(s, events[0]), events[1..]);
    }
  }

  /** One refresh at a time: at most one request is ever suspended on a
      refresh POST. */
  lemma AtMostOneRefreshOutstanding(s: State, a: nat, b: nat)
    requires Inv(s)
    requires a in s.requests && s.requests[a].phase == AwaitingRefresh
    requires b in s.requests && s.requests[b].phase == AwaitingRefresh
    ensures a == b
  {
  }

  /** A refresh POST is issued only by a 401 on an in-flight, unmarked
      request while no refresh runs, and each step issues at most one. */
  lemma RefreshCallsOnlyFromIdle(s: State, e: Event)
    requires Inv(s)
    ensures Step(s, e).refreshCalls == s.refreshCalls ||
      (Step(s, e).refreshCalls[..|s.refreshCalls|] == s.refreshCalls &&
       |Step(s, e).refreshCalls| == |s.refreshCalls| + 1 &&
       !s.isRefreshing && e.Response? && IsUnauthorized(e.reply) &&
       e.id in s.requests && s.requests[e.id].phase.InFlight? && !s.requests[e.id].retry &&
       Step(s, e).isRefreshing && Step(s, e).refresher == Some(e.id))
  {
  }

  // ---------------------------------------------------------------------
  // Per-event properties

  /** The request interceptor on a new config: Authorization is
      "Bearer <token>" exactly when the store yields a token. */
  lemma SendAttachesBearer(s: State, id: nat)
    requires id !in s.requests
    ensures var r := Step(s, Send(id));
      id in r.requests && r.requests[id].phase == InFlight && !r.requests[id].retry &&
      (r.requests[id].authorization.Some? <==> TS.GetAccessToken(s.storage).0.Some?) &&
      (TS.GetAccessToken(s.storage).0.Some? ==>
         r.requests[id].authorization == Some("Bearer " + TS.GetAccessToken(s.storage).0.value))
  {
  }

  /** A response that is not a 401, or an error with no config, is passed
      on unchanged: the request settles with it, and the refresh state, the
      queue, the tokens and the location are untouched. */
  lemma NonUnauthorizedPassesThrough(s: State, id: nat, reply: Reply)
    requires id in s.requests && s.requests[id].phase.InFlight? && !IsUnauthorized(reply)
    ensures var r := Step(s, Response(id, reply));
      r.isRefreshing == s.isRefreshing && r.queue == s.queue && r.refresher == s.refresher &&
      r.storage == s.storage && r.location == s.location && r.refreshCalls == s.refreshCalls &&
      r.requests[id].phase == (if IsSuccess(reply) then Succeeded(reply.code) else Failed(HttpFailure(reply)))
    ensures Step(s, ConfiglessError(reply)) == s
  {
  }

  /** A 401 on a request already marked is rejected with that 401: no
      refresh, no redirect, no token change. */
  lemma RetriedUnauthorizedIsTerminal(s: State, id: nat, reply: Reply)
    requires id in s.requests && s.requests[id].phase.InFlight? && s.requests[id].retry
    requires IsUnauthorized(reply)
    ensures var r := Step(s, Response(id, reply));
      r.requests[id].phase == Failed(HttpFailure(reply)) &&
      r.refreshCalls == s.refreshCalls && r.location == s.location && r.storage == s.storage &&
      r.isRefreshing == s.isRefreshing && r.queue == s.queue
  {
  }

  /** While a refresh runs, a 401 on an unmarked request appends exactly
      that request to the queue and starts nothing; it is NOT marked. */
  lemma UnauthorizedWhileRefreshingQueues(s: State, id: nat, reply: Reply)
    requires id in s.requests && s.requests[id].phase.InFlight? && !s.requests[id].retry
    requires IsUnauthorized(reply) && s.isRefreshing
    ensures var r := Step(s, Response(id, reply));
      r.queue == s.queue + [id] && r.refreshCalls == s.refreshCalls &&
      r.requests[id] == s.requests[id].(phase := Queued) && !r.requests[id].retry &&
      r.isRefreshing && r.refresher == s.refresher
  {
  }

  /** While no refresh runs, a 401 on an unmarked request marks it and
      raises `isRefreshing` before the POST, whose body carries the stored
      refresh token and which has no Authorization header. */
  lemma UnauthorizedWhileIdleStartsRefresh(s: State, id: nat, reply: Reply)
    requires id in s.requests && s.requests[id].phase.InFlight? && !s.requests[id].retry
    requires IsUnauthorized(reply) && !s.isRefreshing
    requires Present(TS.GetRefreshToken(s.storage))
    ensures var r := Step(s, Response(id, reply));
      r.isRefreshing && r.refresher == Some(id) && r.requests[id].retry &&
      r.requests[id].phase == AwaitingRefresh &&
      r.refreshCalls == s.refreshCalls +
        [RefreshCall(RefreshUrl, [("refreshToken", TS.GetRefreshToken(s.storage).value)], None)]
  {
  }

  /** With no stored refresh token the refresh fails before any network
      call: the request is rejected, the queue drained, tokens cleared, the
      redirect rule applied, and `isRefreshing` is false again. */
  lemma MissingRefreshTokenFailsWithoutCall(s: State, id: nat, reply: Reply)
    requires Inv(s)
    requires id in s.requests && s.requests[id].phase.InFlight? && !s.requests[id].retry
    requires IsUnauthorized(reply) && !s.isRefreshing
    requires !Present(TS.GetRefreshToken(s.storage))
    ensures var r := Step(s, Response(id, reply));
      r.refreshCalls == s.refreshCalls && !r.isRefreshing && r.queue == [] &&
      r.requests[id].phase == Failed(ClientError(NoRefreshTokenMessage)) && r.requests[id].retry &&
      r.storage == TS.ClearTokens(s.storage) &&
      r.location == LocationAfterRefreshFailure(s.path, s.location)
  {
  }

  /** Field mapping of the refresh response: camelCase wins, snake_case is
      the fallback, and the two spellings give the same pair. */
  lemma RefreshFieldFallback(a: string, r: string)
    requires a != "" && r != ""
    ensures ParseRefresh(RefreshBody(Some(TokenFields(Some(a), None, Some(r), None)))) == Ok((a, r))
    ensures ParseRefresh(RefreshBody(Some(TokenFields(None, Some(a), None, Some(r))))) == Ok((a, r))
    ensures forall x, y :: ParseRefresh(RefreshBody(Some(TokenFields(Some(a), x, Some(r), y)))) == Ok((a, r))
    ensures ParseRefresh(RefreshBody(Some(TokenFields(Some(a), None, None, None)))).Err?
    ensures ParseRefresh(RefreshBody(None)).Err?
  {
  }

  /** Refresh success drains the queue: every queued request and the one
      that started the refresh are sent again with the new Bearer token,
      both tokens are stored, and no refresh remains outstanding. */
  lemma RefreshSuccessDrainsQueue(s: State, body: RefreshBody, a: string, rt: string)
    requires Inv(s) && s.isRefreshing
    requires ParseRefresh(body) == Ok((a, rt))
    requires !TS.UsesDevTokens(s.storage.env)
    ensures var r := Step(s, RefreshSucceeded(body));
      !r.isRefreshing && r.queue == [] && r.refresher.None? && Inv(r) &&
      r.storage == TS.SetTokens(s.storage, a, rt) &&
      r.refreshCalls == s.refreshCalls && r.location == s.location &&
      (forall k :: k in s.requests && (k in s.queue || Some(k) == s.refresher) ==>
         k in r.requests && r.requests[k].phase == InFlight &&
         r.requests[k].authorization == Some(BearerHeader(a)) &&
         r.requests[k].retry == s.requests[k].retry) &&
      (forall k :: k in s.requests && k !in s.queue && Some(k) != s.refresher ==>
         k in r.requests && r.requests[k] == s.requests[k])
  {
    StepPreservesInv(s, RefreshSucceeded(body));
  }

  /** Refresh failure (an HTTP error or a malformed body) drains the queue
      the other way: every queued request and the one that started the
      refresh are rejected with the same error, the tokens are cleared,
      the redirect rule applies, and `isRefreshing` is false. */
  lemma RefreshFailureDrainsQueue(s: State, e: Event)
    requires Inv(s) && s.isRefreshing
    requires e.RefreshFailed? || (e.RefreshSucceeded? && ParseRefresh(e.body).Err?)
    ensures var r := Step(s, e);
      var f := if e.RefreshFailed? then HttpFailure(e.reply) else ParseRefresh(e.body).error;
      !r.isRefreshing && r.queue == [] && r.refresher.None? && Inv(r) &&
      r.storage == TS.ClearTokens(s.storage) &&
      r.location == LocationAfterRefreshFailure(s.path, s.location) &&
      r.refreshCalls == s.refreshCalls &&
      (forall k :: k in s.requests && (k in s.queue || Some(k) == s.refresher) ==>
         k in r.requests && r.requests[k].phase == Failed(f))
  {
    StepPreservesInv(s, e);
  }

  /** The redirect after a failed refresh: to the session-expired login
      page, except from /login, /register and /forgot-password. */
  lemma RefreshFailureRedirect(s: State, reply: Reply)
    requires Inv(s) && s.isRefreshing && s.path.Some?
    ensures var r := Step(s, RefreshFailed(reply));
      (s.path.value in AuthPages ==> r.location == s.location) &&
      (s.path.value !in AuthPages ==> r.location == Some("/login?session=expired"))
  {
  }

  // ---------------------------------------------------------------------
  // Traces

  /** The responses of a burst: a 401 for each id, in order. */
  function Unauthorized401s(ids: seq<nat>): (es: seq<Event>)
    ensures |es| == |ids|
    ensures forall i :: 0 <= i < |ids| ==> es[i] == Response(ids[i], Status(401))
  {
    if ids == [] then [] else [Response(ids[0], Status(401))] + Unauthorized401s(ids[1..])
  }

  /** Every id names a distinct, in-flight, unmarked request. */
  ghost predicate FreshInFlight(s: State, ids: seq<nat>) {
    && (forall i :: 0 <= i < |ids| ==> (ids[i] in s.requests &&
          s.requests[ids[i]].phase == InFlight && !s.requests[ids[i]].retry))
    && (forall i, j :: 0 <= i < j < |ids| ==> ids[i] != ids[j])
  }

  /** The first 401 of a burst leaves the rest of the burst in flight and unmarked. */
  lemma FreshInFlightTail(s: State, ids: seq<nat>)
    requires Inv(s) || s.isRefreshing
    requires |ids| >= 1 && FreshInFlight(s, ids)
    ensures FreshInFlight(Step(s, Response(ids[0], Status(401))), ids[1..])
  {
    var s1 := Step(s, Response(ids[0], Status(401)));
    forall i | 0 <= i < |ids[1..]|
      ensures ids[1..][i] in s1.requests && s1.requests[ids[1..][i]] == s.requests[ids[1..][i]]
    {
      assert ids[1..][i] == ids[i + 1] != ids[0];
    }
  }

  lemma RunOfBurst(s: State, ids: seq<nat>)
    requires |ids| >= 1
    ensures Run(s, Unauthorized401s(ids)) == Run(Step(s, Response(ids[0], Status(401))), Unauthorized401s(ids[1..]))
  {
    assert Unauthorized401s(ids)[1..] == Unauthorized401s(ids[1..]);
  }

  /** While a refresh runs, a burst of 401s queues every request in
      order and issues no refresh call. */
  lemma {:induction false} BurstWhileRefreshingQueues(s: State, ids: seq<nat>)
    requires s.isRefreshing && FreshInFlight(s, ids)
    ensures QueuedBehind(s, Run(s, Unauthorized401s(ids)), ids)
    decreases |ids|
  {
    if ids == [] {
      assert Unauthorized401s(ids) == [];
    } else {
      var s1 := QueueFirst(s, ids);
      BurstWhileRefreshingQueues(s1, ids[1..]);
      QueuedBehindChain(s, s1, Run(s1, Unauthorized401s(ids[1..])), ids);
    }
  }

  lemma QueuedBehindChain(s: State, s1: State, r: State, ids: seq<nat>)
    requires |ids| >= 1 && QueuedBehind(s, s1, [ids[0]]) && QueuedBehind(s1, r, ids[1..])
    ensures QueuedBehind(s, r, ids)
  {
    assert s.queue + [ids[0]] + ids[1..] == s.queue + ids;
  }

  /** `r` is `s` with `ids` appended to the queue, the same refresh running
      and no new refresh call. */
  predicate QueuedBehind(s: State, r: State, ids: seq<nat>) {
    r.queue == s.queue + ids && r.refreshCalls == s.refreshCalls &&
    r.isRefreshing && r.refresher == s.refresher
  }

  /** The first 401 of a burst during a refresh: its request is queued,
      and the rest of the burst runs from the state it leaves. */
  lemma QueueFirst(s: State, ids: seq<nat>) returns (s1: State)
    requires s.isRefreshing && FreshInFlight(s, ids) && |ids| >= 1
    ensures QueuedBehind(s, s1, [ids[0]])
    ensures FreshInFlight(s1, ids[1..])
    ensures Run(s, Unauthorized401s(ids)) == Run(s1, Unauthorized401s(ids[1..]))
  {
    s1 := Step(s, Response(ids[0], Status(401)));
    UnauthorizedWhileRefreshingQueues(s, ids[0], Status(401));
    FreshInFlightTail(s, ids);
    RunOfBurst(s, ids);
  }

  /** One refresh for a burst: when n >= 1 requests all get a 401 while no
      refresh runs and a refresh token is stored, exactly one refresh POST
      is issued; the first request awaits it and all others are queued. */
  lemma ConcurrentBurstIssuesOneRefresh(s: State, ids: seq<nat>)
    requires Inv(s) && !s.isRefreshing && |ids| >= 1 && FreshInFlight(s, ids)
    requires Present(TS.GetRefreshToken(s.storage))
    ensures var r := Run(s, Unauthorized401s(ids));
      |r.refreshCalls| == |s.refreshCalls| + 1 &&
      r.isRefreshing && r.refresher == Some(ids[0]) && r.queue == ids[1..]
  {
    var s1 := Step(s, Response(ids[0], Status(401)));
    UnauthorizedWhileIdleStartsRefresh(s, ids[0], Status(401));
    FreshInFlightTail(s, ids);
    RunOfBurst(s, ids);
    BurstWhileRefreshingQueues(s1, ids[1..]);
  }

  /** A run follows any path of states whose consecutive pairs are steps. */
  lemma {:induction false} RunAlong(states: seq<State>, events: seq<Event>)
    requires |states| == |events| + 1
    requires forall k :: 0 <= k < |events| ==> Step(states[k], events[k]) == states[k + 1]
    ensures Run(states[0], events) == states[|events|]
    decreases |events|
  {
    if events != [] {
      RunAlong(states[1..], events[1..]);
    }
  }

  // A witness trace: two requests get a 401 together, the refresh succeeds,
  // and the replayed queued request gets another 401.

  const TraceStore: TS.Store := TS.Store(None, Some(map["rt" := "r0"]), TS.DevEnv("", "", false))
  const TraceBody: RefreshBody := RefreshBody(Some(TokenFields(Some("a1"), None, Some("r1"), None)))
  const TraceEvents: seq<Event> := [Send(1), Send(2), Response(1, Status(401)), Response(2, Status(401)),
                                    RefreshSucceeded(TraceBody), Response(2, Status(401))]

  function TraceState(k: nat): State
    requires k <= 6
  {
    var s0 := Initial(TraceStore, Some("/dashboard"));
    var idle := Request(false, None, InFlight);
    var call1 := RefreshCall(RefreshUrl, [("refreshToken", "r0")], None);
    var s3 := s0.(isRefreshing := true, refresher := Some(1), refreshCalls := [call1],
                  requests := map[1 := Request(true, None, AwaitingRefresh), 2 := idle]);
    var s5 := s3.(isRefreshing := false, refresher := None, storage := TS.SetTokens(TraceStore, "a1", "r1"),
                  requests := map[1 := Request(true, Some("Bearer a1"), InFlight),
                                  2 := Request(false, Some("Bearer a1"), InFlight)]);
    if k == 0 then s0
    else if k == 1 then s0.(requests := map[1 := idle])
    else if k == 2 then s0.(requests := map[1 := idle, 2 := idle])
    else if k == 3 then s3
    else if k == 4 then s3.(queue := [2], requests := s3.requests[2 := idle.(phase := Queued)])
    else if k == 5 then s5
    else s5.(isRefreshing := true, refresher := Some(2),
             refreshCalls := [call1, RefreshCall(RefreshUrl, [("refreshToken", "r1")], None)],
             requests := s5.requests[2 := Request(true, Some("Bearer a1"), AwaitingRefresh)])
  }

  lemma TraceSendSteps()
    ensures Step(TraceState(0), TraceEvents[0]) == TraceState(1)
    ensures Step(TraceState(1), TraceEvents[1]) == TraceState(2)
  {
    assert TS.GetAccessToken(TraceStore) == (None, TraceStore);
  }

  lemma TraceUnauthorizedSteps()
    ensures Step(TraceState(2), TraceEvents[2]) == TraceState(3)
    ensures Step(TraceState(3), TraceEvents[3]) == TraceState(4)
  {
    assert TS.GetRefreshToken(TraceStore) == Some("r0");
  }

  lemma TraceRefreshStep()
    ensures Step(TraceState(4), TraceEvents[4]) == TraceState(5)
  {
    var stored := TS.SetTokens(TraceStore, "a1", "r1");
    assert ParseRefresh(TraceBody) == Ok(("a1", "r1"));
    assert TS.GetAccessToken(stored) == (Some("a1"), stored);
    assert BearerHeader("a1") == "Bearer a1";
    var r := SucceedRefresh(TraceState(4), "a1", "r1");
    assert r.requests.Keys == {1, 2};
    assert r.requests == TraceState(5).requests;
  }

  lemma TraceReplayStep()
    ensures Step(TraceState(5), TraceEvents[5]) == TraceState(6)
  {
    assert TS.GetRefreshToken(TS.SetTokens(TraceStore, "a1", "r1")) == Some("r1");
  }

  /** The retry marker protects only the request that started a refresh:
      a queued request is replayed unmarked, so a second 401 on it starts
      a second refresh, while the same 401 on the starter is terminal. */
  lemma QueuedRequestCanRefreshTwice()
    ensures var s := Run(Initial(TraceStore, Some("/dashboard")), TraceEvents);
      var again := Step(s, Response(1, Status(401)));
      |s.refreshCalls| == 2 && s.refresher == Some(2) &&
      1 in again.requests && again.requests[1].phase == Failed(HttpFailure(Status(401)))
  {
    TraceRun();
    TraceStarterTerminal();
  }

  lemma TraceRun()
    ensures Run(Initial(TraceStore, Some("/dashboard")), TraceEvents) == TraceState(6)
  {
    var states := seq(7, k requires 0 <= k < 7 => TraceState(k));
    TraceSendSteps();
    TraceUnauthorizedSteps();
    TraceRefreshStep();
    TraceReplayStep();
    RunAlong(states, TraceEvents);
  }

  lemma TraceStarterTerminal()
    ensures var again := Step(TraceState(6), Response(1, Status(401)));
      1 in again.requests && again.requests[1].phase == Failed(HttpFailure(Status(401)))
  {
  }
}

=== FILE: common.dfy ===
/** Shared vocabulary: optional values, results, and the few string
    operations the front end relies on (prefix tests, substring search,
    ASCII lower-casing, decimal and hexadecimal rendering). */
module Common {

  /** A value that may be absent: JavaScript's `null`/`undefined`. */
  datatype Option<+T> = None | Some(value: T) {
    function GetOr(default: T): T {
      match this
      case Some(v) => v
      case None => default
    }
  }

  /** The outcome of an operation that may throw. */
  datatype Result<+T, +E> = Ok(value: T) | Err(error: E)

  /** JavaScript truthiness of an optional string: present and non-empty. */
  predicate Present(s: Option<string>) {
    s.Some? && s.value != ""
  }

  /** JavaScript `a || b` on two optional strings. */
  function OrElse(a: Option<string>, b: Option<string>): (r: Option<string>)
    ensures Present(a) ==> r == a
    ensures !Present(a) ==> r == b
    ensures Present(r) <==> Present(a) || Present(b)
  {
    if Present(a) then a else b
  }

  /** JavaScript `a || "default"` on an optional string. */
  function OrDefault(a: Option<string>, default: string): (r: string)
    ensures Present(a) ==> r == a.value
    ensures !Present(a) ==> r == default
  {
    if Present(a) then a.value else default
  }

  /** The first present, non-empty candidate, else the default: the
      reference for a chain of `||`. */
  function FirstPresent(candidates: seq<Option<string>>, default: string): (r: string)
  {
    if candidates == [] then default
    else if Present(candidates[0]) then candidates[0].value
    else FirstPresent(candidates[1..], default)
  }

  /** `s.startsWith(p)` */
  predicate StartsWith(s: string, p: string) {
    |p| <= |s| && s[..|p|] == p
  }

  /** `needle` occurs in `hay` starting at index `i`. */
  predicate OccursAt(hay: string, needle: string, i: int) {
    0 <= i <= |hay| - |needle| && hay[i..i + |needle|] == needle
  }

  /** `hay.includes(needle)` */
  predicate Contains(hay: string, needle: string) {
    exists i | 0 <= i <= |hay| - |needle| :: OccursAt(hay, needle, i)
  }

  function LowerChar(c: char): (r: char)
    ensures 'A' <= c <= 'Z' ==> 'a' <= r <= 'z'
    ensures !('A' <= c <= 'Z') ==> r == c
  {
    if 'A' <= c <= 'Z' then (c as int - 'A' as int + 'a' as int) as char else c
  }

  /** `s.toLowerCase()` restricted to the ASCII letters. */
  function Lower(s: string): (r: string)
    ensures |r| == |s|
    ensures forall i :: 0 <= i < |s| ==> r[i] == LowerChar(s[i])
  {
    if s == [] then [] else [LowerChar(s[0])] + Lower(s[1..])
  }

  function DigitChar(d: nat): (c: char)
    requires d < 10
    ensures '0' <= c <= '9'
  {
    ('0' as int + d) as char
  }

  /** Decimal rendering of a natural number, as `String(n)` does. */
  function NatToString(n: nat): (s: string)
    ensures |s| >= 1
    ensures forall i :: 0 <= i < |s| ==> '0' <= s[i] <= '9'
    ensures n < 10 <==> |s| == 1
  {
    if n < 10 then [DigitChar(n)] else NatToString(n / 10) + [DigitChar(n % 10)]
  }

  /** Decimal rendering of an integer, with a leading '-' when negative. */
  function IntToString(n: int): (s: string)
    ensures |s| >= 1
    ensures n < 0 <==> s[0] == '-'
  {
    if n < 0 then "-" + NatToString(-n) else NatToString(n)
  }

  /** The characters of `String(n)`: digits and the sign. */
  lemma IntToStringChars(n: int)
    ensures forall i :: 0 <= i < |IntToString(n)| ==> IntToString(n)[i] == '-' || '0' <= IntToString(n)[i] <= '9'
  {
  }

  /** Value of a decimal digit string. */
  function DecimalValue(s: string): (n: nat)
    requires forall i :: 0 <= i < |s| ==> '0' <= s[i] <= '9'
  {
    if s == [] then 0 else DecimalValue(s[..|s| - 1]) * 10 + (s[|s| - 1] as int - '0' as int)
  }

  lemma {:induction false} NatToStringRoundTrip(n: nat)
    ensures DecimalValue(NatToString(n)) == n
  {
    if n >= 10 {
      var s := NatToString(n / 10) + [DigitChar(n % 10)];
      assert s[..|s| - 1] == NatToString(n / 10);
      NatToStringRoundTrip(n / 10);
    }
  }

  /** Different integers are written differently. */
  lemma IntToStringInjective(a: int, b: int)
    requires IntToString(a) == IntToString(b)
    ensures a == b
  {
    if a < 0 {
      var x, y := NatToString(-a), NatToString(-b);
      assert "-" + x == "-" + y;
      assert x == ("-" + x)[1..];
      assert y == ("-" + y)[1..];
      NatToStringInjective(-a, -b);
    } else {
      NatToStringInjective(a, b);
    }
  }

  lemma NatToStringInjective(m: nat, n: nat)
    requires NatToString(m) == NatToString(n)
    ensures m == n
  {
    NatToStringRoundTrip(m);
    NatToStringRoundTrip(n);
  }

  /** Lower-case hexadecimal digit of a nibble. */
  function HexDigit(d: nat): (c: char)
    requires d < 16
    ensures ('0' <= c <= '9') || ('a' <= c <= 'f')
  {
    if d < 10 then ('0' as int + d) as char else ('a' as int + d - 10) as char
  }

  predicate IsHexDigit(c: char) {
    ('0' <= c <= '9') || ('a' <= c <= 'f')
  }

  function HexValue(c: char): (d: nat)
    requires IsHexDigit(c)
    ensures d < 16
  {
    if '0' <= c <= '9' then c as int - '0' as int else c as int - 'a' as int + 10
  }

  lemma HexDigitInverse(d: nat)
    requires d < 16
    ensures HexValue(HexDigit(d)) == d
  {
  }
}

=== FILE: cookie_auth_api.dfy ===
/** The cookie deployment's authentication calls. The backend sets and
    clears the token cookies itself, so `login` only checks the user it
    gets back, and clearing affects nothing but the cookie-mode store's
    cache and leftover browser keys. Outcomes of HTTP calls are parameters,
    as in the bearer deployment. */
module CookieAuthApi {
  import opened Common
  import opened Http
  import opened ApiTransform
  import AuthApi
  import CS = CookieTokenStorage

  const VerifyEmailMessage: string :=
    "Please verify your email before logging in. Check your inbox for the verification link."

  /** The `data` field of a cookie-mode login response. */
  datatype LoginData = LoginData(user: Option<BackendUser>)

  /** Whether a user may be signed in: accounts with a password need a
      verified email; accounts from an identity provider do not. */
  predicate MayLogIn(u: User) {
    !(u.provider == LOCAL && !u.isEmailVerified)
  }

  /** `login()`: needs a user in the response, and refuses a password
      account whose email is unverified. It takes no store: it writes no
      token. */
  function Login(outcome: Result<Option<LoginData>, Failure>): (r: Result<User, Failure>)
    ensures outcome.Err? ==> r == Err(outcome.error)
    ensures r.Ok? ==> MayLogIn(r.value)
  {
    match outcome
    case Err(f) => Err(f)
    case Ok(data) =>
      if data.None? || data.value.user.None? then Err(ClientError(AuthApi.InvalidResponseMessage))
      else
        var user := TransformUser(data.value.user.value);
        if user.provider == LOCAL && !user.isEmailVerified then Err(ClientError(VerifyEmailMessage))
        else Ok(user)
  }

  /** `logout()`: a failed request is swallowed, and the store is cleared
      either way. */
  function Logout(s: CS.CookieStore, outcome: Result<(), Failure>): (r: (Result<(), Failure>, CS.CookieStore))
    ensures r.0.Ok?
  {
    (Ok(()), CS.ClearTokens(s))
  }

  /** `logoutAll()`: the store is cleared after the request succeeds. */
  function LogoutAll(s: CS.CookieStore, outcome: Result<(), Failure>): (r: (Result<(), Failure>, CS.CookieStore))
    ensures r.0 == outcome
    ensures outcome.Err? ==> r.1 == s
    ensures outcome.Ok? ==> forall now :: !CS.HasAccessToken(r.1, now).0
  {
    ClearOnSuccess(s, outcome)
  }

  /** The call's outcome, with the tokens cleared only when it succeeded. */
  function ClearOnSuccess<T>(s: CS.CookieStore, outcome: Result<T, Failure>): (Result<T, Failure>, CS.CookieStore) {
    if outcome.Ok? then (outcome, CS.ClearTokens(s)) else (outcome, s)
  }

  /** `changePassword()`: like `logoutAll`, resolving with the response. */
  function ChangePassword<T>(s: CS.CookieStore, outcome: Result<T, Failure>): (r: (Result<T, Failure>, CS.CookieStore))
    ensures r.0 == outcome
    ensures outcome.Err? ==> r.1 == s
    ensures outcome.Ok? ==> forall now :: !CS.HasAccessToken(r.1, now).0
  {
    ClearOnSuccess(s, outcome)
  }

  /** `initializeAuth()`: always asks the backend, never throws. */
  function InitializeAuth(fetch: Result<Option<BackendUser>, Failure>): (r: Option<User>)
    ensures r.Some? <==> fetch.Ok? && fetch.value.Some?
    ensures r.Some? ==> r.value == TransformUser(fetch.value.value)
  {
    match AuthApi.GetCurrentUser(fetch)
    case Ok(u) => Some(u)
    case Err(_) => None
  }

  // ---------------------------------------------------------------------
  // Properties

  /** `login` succeeds exactly when a user comes back that may log in,
      and then yields that user. */
  lemma LoginSucceedsIff(outcome: Result<Option<LoginData>, Failure>)
    ensures Login(outcome).Ok? <==>
      (outcome.Ok? && outcome.value.Some? && outcome.value.value.user.Some? &&
       MayLogIn(TransformUser(outcome.value.value.user.value)))
    ensures Login(outcome).Ok? ==> Login(outcome).value == TransformUser(outcome.value.value.user.value)
  {
  }

  /** The verification gate depends on the provider only for unverified
      users: a Google account passes unverified, a password account does
      not. */
  lemma VerificationGate(b: BackendUser)
    ensures b.provider == GOOGLE ==> Login(Ok(Some(LoginData(Some(b))))) == Ok(TransformUser(b))
    ensures b.provider == LOCAL && !b.is_email_verified ==>
      Login(Ok(Some(LoginData(Some(b))))) == Err(ClientError(VerifyEmailMessage))
    ensures b.is_email_verified ==> Login(Ok(Some(LoginData(Some(b))))) == Ok(TransformUser(b))
  {
  }

  /** `logout` never rejects, and afterwards no session is reported at any
      instant, whatever its request did. */
  lemma LogoutAlwaysClears(s: CS.CookieStore, outcome: Result<(), Failure>, now: int)
    ensures Logout(s, outcome).0 == Ok(())
    ensures !CS.HasAccessToken(Logout(s, outcome).1, now).0
  {
    CS.ClearTokensProperties(s, now);
  }

  /** `logoutAll` and `changePassword` clear the store exactly when their
      request succeeds. */
  lemma ClearOnlyAfterSuccess<T>(s: CS.CookieStore, outcome: Result<(), Failure>, change: Result<T, Failure>, now: int)
    ensures outcome.Ok? ==> !CS.HasAccessToken(LogoutAll(s, outcome).1, now).0
    ensures outcome.Err? ==> LogoutAll(s, outcome).1 == s
    ensures change.Ok? ==> !CS.HasAccessToken(ChangePassword(s, change).1, now).0
    ensures change.Err? ==> ChangePassword(s, change).1 == s
  {
    CS.ClearTokensProperties(s, now);
  }

  /** `initializeAuth` yields the user exactly when the request returns
      one, and nothing on any error. */
  lemma InitializeAuthOutcomes(fetch: Result<Option<BackendUser>, Failure>)
    ensures InitializeAuth(fetch).Some? <==> fetch.Ok? && fetch.value.Some?
    ensures InitializeAuth(fetch).Some? ==> InitializeAuth(fetch).value == TransformUser(fetch.value.value)
  {
  }
}

=== FILE: cookie_client.dfy ===
/** The cookie-mode API client. Cookies travel with every request, so the
    request interceptor attaches nothing. On a 401 the response interceptor
    marks the request, and either waits on the refresh promise already in
    flight or creates it: a POST with an empty body that the backend
    answers by rotating the cookies. When the promise settles, every
    waiter is replayed (success) or rejected with the refresh error
    (failure); a second 401 on a replayed request sends the browser to the
    login page.

    As in the bearer client, each stretch between two `await`s is one
    atomic transition. The refresh promise's `finally` runs before any
    waiter resumes, so settling the promise is a single step. A promise is
    named by the index of its POST in `refreshCalls`. */
module CookieClient {
  import opened Common
  import opened Http

  datatype Phase =
    | InFlight
    | AwaitingRefresh(promise: nat)
    | Succeeded(code: int)
    | Failed(failure: Failure)

  datatype Request = Request(retry: bool, phase: Phase)

  datatype Event =
    | Send(id: nat)
    | Response(id: nat, reply: Reply)
    | ConfiglessError(reply: Reply)
    | RefreshSettled(reply: Reply)

  /** `refreshPromise` is the module variable of that name (the promise of
      the outstanding POST, if any); `path` and `location` are as in the
      bearer client. */
  datatype State = State(
    isRefreshing: bool,
    refreshPromise: Option<nat>,
    requests: map<nat, Request>,
    path: Option<string>,
    location: Option<string>,
    refreshCalls: seq<RefreshCall>)

  /** The refresh POST: an empty JSON body, no Authorization header. */
  const CookieRefreshCall: RefreshCall := RefreshCall(RefreshUrl, [], None)

  function Initial(path: Option<string>): (s: State)
    ensures Inv(s)
  {
    State(false, None, map[], path, None, [])
  }

  function Settle(s: State, id: nat, phase: Phase): State
    requires id in s.requests
  {
    s.(requests := s.requests[id := s.requests[id].(phase := phase)])
  }

  /** The response interceptor on a response for in-flight request `id`. */
  function OnResponse(s: State, id: nat, reply: Reply): State
    requires id in s.requests
  {
    var req := s.requests[id];
    if IsSuccess(reply) then Settle(s, id, Succeeded(reply.code))
    else if !IsUnauthorized(reply) then Settle(s, id, Failed(HttpFailure(reply)))
    else if req.retry then
      var s1 := Settle(s, id, Failed(HttpFailure(reply)));
      if s.path.Some? then s1.(location := Some(SessionExpiredUrl)) else s1
    else if s.isRefreshing && s.refreshPromise.Some? then
      s.(requests := s.requests[id := Request(true, AwaitingRefresh(s.refreshPromise.value))])
    else
      var promise := |s.refreshCalls|;
      s.(isRefreshing := true, refreshPromise := Some(promise),
         requests := s.requests[id := Request(true, AwaitingRefresh(promise))],
         refreshCalls := s.refreshCalls + [CookieRefreshCall])
  }

  /** The refresh promise settles with the POST's reply: the flags drop;
      on a 2xx every waiter is sent again, otherwise the redirect rule
      applies and every waiter is rejected with the refresh error. */
  function SettleRefresh(s: State, reply: Reply): State
    requires s.refreshPromise.Some?
  {
    var p := s.refreshPromise.value;
    var outcome := if IsSuccess(reply) then InFlight else Failed(HttpFailure(reply));
    var resumed := map k | k in s.requests ::
      if s.requests[k].phase == AwaitingRefresh(p) then s.requests[k].(phase := outcome) else s.requests[k];
    s.(isRefreshing := false, refreshPromise := None, requests := resumed,
       location := if IsSuccess(reply) then s.location else LocationAfterRefreshFailure(s.path, s.location))
  }

  /** One atomic step; as in the bearer client, an event that cannot occur
      in `s` leaves it as it is. */
  function Step(s: State, e: Event): (r: State)
    ensures r.requests.Keys == s.requests.Keys + (if e.Send? then {e.id} else {})
    ensures r.path == s.path && s.refreshCalls <= r.refreshCalls
    ensures r.location != s.location ==> r.location == Some(SessionExpiredUrl)
  {
    match e
    case Send(id) => if id in s.requests then s else s.(requests := s.requests[id := Request(false, InFlight)])
    case Response(id, reply) =>
      if id in s.requests && s.requests[id].phase.InFlight? then OnResponse(s, id, reply) else s
    case ConfiglessError(_) => s
    case RefreshSettled(reply) => if s.refreshPromise.None? then s else SettleRefresh(s, reply)
  }

  function Run(s: State, events: seq<Event>): State
    decreases |events|
  {
    if events == [] then s else Run(Step(s, events[0]), events[1..])
  }

  /** `checkAuthStatus()` for the status request `id`: undecided while it
      is pending, then whether it finally succeeded. */
  function CheckAuthStatus(s: State, id: nat): (r: Option<bool>)
    requires id in s.requests
    ensures r == Some(true) <==> s.requests[id].phase.Succeeded?
    ensures r == Some(false) <==> s.requests[id].phase.Failed?
  {
    match s.requests[id].phase
    case Succeeded(_) => Some(true)
    case Failed(_) => Some(false)
    case _ => None
  }

  // ---------------------------------------------------------------------
  // Invariant

  /** The two flags move together; the outstanding promise is the last POST
      issued; every waiter waits on that promise and carries the mark. */
  ghost predicate Inv(s: State) {
    && (s.isRefreshing <==> s.refreshPromise.Some?)
    && (s.refreshPromise.Some? ==> s.refreshPromise.value == |s.refreshCalls| - 1)
    && (forall k :: k in s.requests && s.requests[k].phase.AwaitingRefresh? ==>
          s.refreshPromise == Some(s.requests[k].phase.promise) && s.requests[k].retry)
  }

  lemma StepPreservesInv(s: State, e: Event)
    requires Inv(s)
    ensures Inv(Step(s, e))
  {
  }

  lemma {:induction false} RunPreservesInv(s: State, events: seq<Event>)
    requires Inv(s)
    ensures Inv(Run(s, events))
    decreases |events|
  {
    if events != [] {
      StepPreservesInv(s, events[0]);
      RunPreservesInv(Step(s, events[0]), events[1..]);
    }
  }

  // ---------------------------------------------------------------------
  // Per-event properties

  /** A response that is not a 401 (or has no config) passes through: the
      request settles with it and nothing else changes. */
  lemma NonUnauthorizedPassesThrough(s: State, id: nat, reply: Reply)
    requires id in s.requests && s.requests[id].phase.InFlight? && !IsUnauthorized(reply)
    ensures var r := Step(s, Response(id, reply));
      r == s.(requests := r.requests) && r.requests == s.requests[id := r.requests[id]] &&
      r.requests[id].phase == (if IsSuccess(reply) then Succeeded(reply.code) else Failed(HttpFailure(reply)))
    ensures Step(s, ConfiglessError(reply)) == s
  {
  }

  /** Every request that waits for a refresh carries the mark, whether it
      started the refresh or joined one; a waiter joins the promise in
      flight and issues no POST. */
  lemma UnauthorizedJoinsOrStartsRefresh(s: State, id: nat, reply: Reply)
    requires Inv(s)
    requires id in s.requests && s.requests[id].phase.InFlight? && !s.requests[id].retry
    requires IsUnauthorized(reply)
    ensures var r := Step(s, Response(id, reply));
      r.requests[id].retry && r.isRefreshing && r.location == s.location &&
      (s.isRefreshing ==> r.refreshCalls == s.refreshCalls && r.refreshPromise == s.refreshPromise &&
                          r.requests[id].phase == AwaitingRefresh(s.refreshPromise.value)) &&
      (!s.isRefreshing ==> r.refreshCalls == s.refreshCalls + [CookieRefreshCall] &&
                           r.refreshPromise == Some(|s.refreshCalls|) &&
                           r.requests[id].phase == AwaitingRefresh(|s.refreshCalls|))
  {
  }

  /** A 401 on a replayed request is terminal: it is rejected with that
      401 and, in a browser, the login page is loaded whatever the current
      page; no refresh is attempted. */
  lemma RetriedUnauthorizedRedirects(s: State, id: nat, reply: Reply)
    requires id in s.requests && s.requests[id].phase.InFlight? && s.requests[id].retry
    requires IsUnauthorized(reply)
    ensures var r := Step(s, Response(id, reply));
      r.requests[id].phase == Failed(HttpFailure(reply)) &&
      r.refreshCalls == s.refreshCalls && r.isRefreshing == s.isRefreshing &&
      r.location == (if s.path.Some? then Some("/login?session=expired") else s.location)
  {
  }

  /** When the promise settles, every waiter sees the same outcome: all
      are sent again after a 2xx, all are rejected with the same error
      otherwise; requests that were not waiting are untouched. */
  lemma WaitersShareOutcome(s: State, reply: Reply)
    requires Inv(s) && s.isRefreshing
    ensures var r := Step(s, RefreshSettled(reply));
      !r.isRefreshing && r.refreshPromise.None? && r.refreshCalls == s.refreshCalls &&
      r.requests.Keys == s.requests.Keys &&
      (forall k :: k in s.requests && s.requests[k].phase.AwaitingRefresh? ==>
         r.requests[k] == Request(true, if IsSuccess(reply) then InFlight else Failed(HttpFailure(reply)))) &&
      (forall k :: k in s.requests && !s.requests[k].phase.AwaitingRefresh? ==> r.requests[k] == s.requests[k]) &&
      r.location == (if IsSuccess(reply) then s.location else LocationAfterRefreshFailure(s.path, s.location))
  {
  }

  /** A refresh POST is issued only by a 401 on an unmarked request while
      no promise is outstanding, and the step marks that request. */
  lemma RefreshCallsOnlyFromIdle(s: State, e: Event)
    requires Inv(s)
    ensures Step(s, e).refreshCalls == s.refreshCalls ||
      (Step(s, e).refreshCalls == s.refreshCalls + [CookieRefreshCall] &&
       !s.isRefreshing && e.Response? && IsUnauthorized(e.reply) &&
       e.id in s.requests && !s.requests[e.id].retry &&
       Step(s, e).requests[e.id].retry)
  {
  }

  /** The mark never comes off: once a request has been marked, it stays
      marked through every later step. */
  lemma RetryMarkIsPermanent(s: State, e: Event, id: nat)
    requires id in s.requests && s.requests[id].retry
    ensures id in Step(s, e).requests && Step(s, e).requests[id].retry
  {
  }

  // ---------------------------------------------------------------------
  // Traces

  function Unauthorized401s(ids: seq<nat>): (es: seq<Event>)
    ensures |es| == |ids|
    ensures forall i :: 0 <= i < |ids| ==> es[i] == Response(ids[i], Status(401))
  {
    if ids == [] then [] else [Response(ids[0], Status(401))] + Unauthorized401s(ids[1..])
  }

  ghost predicate FreshInFlight(s: State, ids: seq<nat>) {
    && (forall i :: 0 <= i < |ids| ==> (ids[i] in s.requests &&
          s.requests[ids[i]].phase == InFlight && !s.requests[ids[i]].retry))
    && (forall i, j :: 0 <= i < j < |ids| ==> ids[i] != ids[j])
  }

  lemma FreshInFlightTail(s: State, ids: seq<nat>)
    requires |ids| >= 1 && FreshInFlight(s, ids)
    ensures FreshInFlight(Step(s, Response(ids[0], Status(401))), ids[1..])
  {
    var s1 := Step(s, Response(ids[0], Status(401)));
    forall i | 0 <= i < |ids[1..]|
      ensures ids[1..][i] in s1.requests && s1.requests[ids[1..][i]] == s.requests[ids[1..][i]]
    {
      assert ids[1..][i] == ids[i + 1] != ids[0];
    }
  }

  /** While a promise is outstanding, a burst of 401s makes every request
      wait on it and issues no POST. */
  lemma {:induction false} BurstJoinsPromise(s: State, ids: seq<nat>)
    requires Inv(s) && s.isRefreshing && FreshInFlight(s, ids)
    ensures var r := Run(s, Unauthorized401s(ids));
      r.refreshCalls == s.refreshCalls && r.refreshPromise == s.refreshPromise &&
      forall i :: 0 <= i < |ids| ==> (ids[i] in r.requests &&
        r.requests[ids[i]] == Request(true, AwaitingRefresh(s.refreshPromise.value)))
    decreases |ids|
  {
    if ids == [] {
      assert Unauthorized401s(ids) == [];
    } else {
      var s1 := Step(s, Response(ids[0], Status(401)));
      assert s1.refreshCalls == s.refreshCalls && s1.refreshPromise == s.refreshPromise && s1.isRefreshing &&
        s1.requests[ids[0]] == Request(true, AwaitingRefresh(s.refreshPromise.value)) by {
        UnauthorizedJoinsOrStartsRefresh(s, ids[0], Status(401));
      }
      assert Inv(s1) by { StepPreservesInv(s, Response(ids[0], Status(401))); }
      assert FreshInFlight(s1, ids[1..]) by { FreshInFlightTail(s, ids); }
      assert Run(s, Unauthorized401s(ids)) == Run(s1, Unauthorized401s(ids[1..])) by {
        assert Unauthorized401s(ids)[1..] == Unauthorized401s(ids[1..]);
      }
      BurstJoinsPromise(s1, ids[1..]);
      var r := Run(s1, Unauthorized401s(ids[1..]));
      assert ids[0] in r.requests && r.requests[ids[0]] == Request(true, AwaitingRefresh(s.refreshPromise.value)) by {
        WaitingSurvives401s(s1, ids[1..], ids[0]);
      }
      forall i | 0 <= i < |ids|
        ensures ids[i] in r.requests && r.requests[ids[i]] == Request(true, AwaitingRefresh(s.refreshPromise.value))
      {
        if i > 0 { assert ids[i] == ids[1..][i - 1]; }
      }
    }
  }

  /** A burst of 401s for other requests leaves a waiting request waiting. */
  lemma {:induction false} WaitingSurvives401s(s: State, ids: seq<nat>, w: nat)
    requires w in s.requests && s.requests[w].phase.AwaitingRefresh?
    ensures var r := Run(s, Unauthorized401s(ids)); w in r.requests && r.requests[w] == s.requests[w]
    decreases |ids|
  {
    if ids == [] {
      assert Unauthorized401s(ids) == [];
    } else {
      var s1 := Step(s, Response(ids[0], Status(401)));
      assert w in s1.requests && s1.requests[w] == s.requests[w];
      assert Run(s, Unauthorized401s(ids)) == Run(s1, Unauthorized401s(ids[1..])) by {
        assert Unauthorized401s(ids)[1..] == Unauthorized401s(ids[1..]);
      }
      WaitingSurvives401s(s1, ids[1..], w);
    }
  }

  /** One refresh for a burst: n >= 1 requests getting a 401 while no
      promise is outstanding cause exactly one POST, and all of them wait
      on its promise. */
  lemma ConcurrentBurstIssuesOneRefresh(s: State, ids: seq<nat>)
    requires Inv(s) && !s.isRefreshing && |ids| >= 1 && FreshInFlight(s, ids)
    ensures var r := Run(s, Unauthorized401s(ids));
      r.refreshCalls == s.refreshCalls + [CookieRefreshCall] &&
      r.refreshPromise == Some(|s.refreshCalls|) &&
      forall i :: 0 <= i < |ids| ==> (ids[i] in r.requests &&
        r.requests[ids[i]] == Request(true, AwaitingRefresh(|s.refreshCalls|)))
  {
    var s1 := Step(s, Response(ids[0], Status(401)));
    assert s1.refreshCalls == s.refreshCalls + [CookieRefreshCall] && s1.isRefreshing &&
      s1.refreshPromise == Some(|s.refreshCalls|) &&
      s1.requests[ids[0]] == Request(true, AwaitingRefresh(|s.refreshCalls|)) by {
      UnauthorizedJoinsOrStartsRefresh(s, ids[0], Status(401));
    }
    assert Inv(s1) by { StepPreservesInv(s, Response(ids[0], Status(401))); }
    assert FreshInFlight(s1, ids[1..]) by { FreshInFlightTail(s, ids); }
    assert Run(s, Unauthorized401s(ids)) == Run(s1, Unauthorized401s(ids[1..])) by {
      assert Unauthorized401s(ids)[1..] == Unauthorized401s(ids[1..]);
    }
    BurstJoinsPromise(s1, ids[1..]);
    var r := Run(s1, Unauthorized401s(ids[1..]));
    assert ids[0] in r.requests && r.requests[ids[0]] == Request(true, AwaitingRefresh(|s.refreshCalls|)) by {
      WaitingSurvives401s(s1, ids[1..], ids[0]);
    }
    forall i | 0 <= i < |ids|
      ensures ids[i] in r.requests && r.requests[ids[i]] == Request(true, AwaitingRefresh(|s.refreshCalls|))
    {
      if i > 0 { assert ids[i] == ids[1..][i - 1]; }
    }
  }
}

=== FILE: cookie_token_storage.dfy ===
/** The credential store of the cookie deployment: the refresh token lives
    in an HttpOnly cookie that script cannot read, so the store keeps only
    an in-memory copy of the access token with an optional expiry instant.
    Clearing also removes what the bearer deployment left in the browser's
    storage. Instants are milliseconds, passed in as `now`. */
module CookieTokenStorage {
  import opened Common

  /** `cache` and `expiry` are the singleton's two fields; `local` is the
      browser's storage, absent when there is no window. An expiry of 0
      is falsy in JavaScript and so counts as "no expiry". */
  datatype CookieStore = CookieStore(cache: Option<string>, expiry: Option<int>, local: Option<map<string, string>>)

  /** The keys the bearer deployment may have left behind. */
  const LegacyKeys: seq<string> := ["rt", "at", "access_token", "refresh_token", "auth_data", "user"]

  /** The keys `clearTokens` removes from the browser's storage. */
  const ClearedKeys: set<string> := {"rt", "at", "user"}

  /** The store after construction. */
  function Empty(local: Option<map<string, string>>): (s: CookieStore)
    ensures s.cache.None? && s.expiry.None? && s.local == local
  {
    CookieStore(None, None, local)
  }

  /** A numeric field used as a condition: present and non-zero. */
  predicate TruthyNumber(n: Option<int>) {
    n.Some? && n.value != 0
  }

  /** The cached token is stale once `now` is strictly past a truthy expiry. */
  predicate Expired(s: CookieStore, now: int) {
    TruthyNumber(s.expiry) && now > s.expiry.value
  }

  /** `setAccessToken(token, expiresInSeconds)`: caches the token; a truthy
      lifetime sets the expiry to `now` plus that many seconds, otherwise
      the previous expiry stays. */
  function SetAccessToken(s: CookieStore, token: string, expiresIn: Option<int>, now: int): (r: CookieStore)
    ensures r.cache == Some(token) && r.local == s.local
    ensures TruthyNumber(expiresIn) ==> r.expiry == Some(now + expiresIn.value * 1000)
    ensures !TruthyNumber(expiresIn) ==> r.expiry == s.expiry
  {
    s.(cache := Some(token),
       expiry := if TruthyNumber(expiresIn) then Some(now + expiresIn.value * 1000) else s.expiry)
  }

  /** `getAccessToken()`: an expired cache is dropped, together with its
      expiry; otherwise the cached token is returned as it is. */
  function GetAccessToken(s: CookieStore, now: int): (r: (Option<string>, CookieStore))
    ensures Expired(s, now) ==> r.0.None? && r.1 == CookieStore(None, None, s.local)
    ensures !Expired(s, now) ==> r == (s.cache, s)
  {
    if Expired(s, now) then (None, CookieStore(None, None, s.local)) else (s.cache, s)
  }

  /** `hasAccessToken()`, which is also `hasSession()` and `hasTokens()`:
      whether `getAccessToken` yields a non-empty token, and the store after
      that read, which has dropped an expired cache and its expiry. */
  function HasAccessToken(s: CookieStore, now: int): (r: (bool, CookieStore))
    ensures r.0 <==> !Expired(s, now) && Present(s.cache)
    ensures r.1.local == s.local
    ensures Expired(s, now) ==> r.1.cache.None? && r.1.expiry.None?
    ensures !Expired(s, now) ==> r.1 == s
  {
    var (token, t) := GetAccessToken(s, now);
    (Present(token), t)
  }

  /** `getRefreshToken()`: the refresh token is unreadable from script. */
  function GetRefreshToken(s: CookieStore): (r: Option<string>)
    ensures r.None?
  {
    None
  }

  /** `setTokens(access, refresh, expiresIn)`: the refresh token is ignored. */
  function SetTokens(s: CookieStore, access: string, refresh: Option<string>, expiresIn: Option<int>, now: int): (r: CookieStore)
    ensures r.cache == Some(access) && r.local == s.local
    ensures !TruthyNumber(expiresIn) ==> r.expiry == s.expiry
    ensures access != "" && expiresIn.Some? && expiresIn.value > 0 ==> HasAccessToken(r, now).0
    ensures GetRefreshToken(r).None?
  {
    SetAccessToken(s, access, expiresIn, now)
  }

  /** `clearTokens()`: drops the cache and expiry and, with a window,
      removes "rt", "at" and "user" from the browser's storage. */
  function ClearTokens(s: CookieStore): (r: CookieStore)
    ensures r.cache.None? && r.expiry.None?
    ensures s.local.None? <==> r.local.None?
    ensures s.local.Some? ==> r.local.value.Keys == s.local.value.Keys - ClearedKeys
    ensures s.local.Some? ==> forall k :: k in r.local.value ==> r.local.value[k] == s.local.value[k]
    ensures forall now :: !HasAccessToken(r, now).0
  {
    CookieStore(None, None, if s.local.Some? then Some(s.local.value - ClearedKeys) else None)
  }

  /** `clearLegacyTokens()`: removes each legacy key whose stored value is
      truthy (present and non-empty); an entry holding "" stays, and so
      does every other key. Without a window nothing happens. */
  method ClearLegacyTokens(local: Option<map<string, string>>) returns (r: Option<map<string, string>>)
    ensures local.None? ==> r.None?
    ensures local.Some? ==> (r.Some? &&
      forall k :: k in r.value <==> (k in local.value && !(k in LegacyKeys && local.value[k] != "")))
    ensures local.Some? ==> forall k :: k in r.value ==> r.value[k] == local.value[k]
  {
    if local.None? {
      return None;
    }
    var m := local.value;
    var i := 0;
    while i < |LegacyKeys|
      invariant 0 <= i <= |LegacyKeys|
      invariant forall k :: k in m <==>
        (k in local.value && !(k in LegacyKeys[..i] && local.value[k] != ""))
      invariant forall k :: k in m ==> m[k] == local.value[k]
    {
      var key := LegacyKeys[i];
      if key in m && m[key] != "" {
        m := m - {key};
      }
      assert LegacyKeys[..i + 1] == LegacyKeys[..i] + [key];
      i := i + 1;
    }
    assert LegacyKeys[..i] == LegacyKeys;
    return Some(m);
  }

  // ---------------------------------------------------------------------
  // Properties

  /** A token set with a lifetime of `secs` seconds is returned up to and
      including the instant `now + secs * 1000` and dropped strictly
      after it. */
  lemma ExpiryBoundary(s: CookieStore, token: string, secs: int, now: int, later: int)
    requires secs != 0 && now + secs * 1000 != 0
    ensures var t := SetAccessToken(s, token, Some(secs), now);
      (later <= now + secs * 1000 ==> GetAccessToken(t, later).0 == Some(token)) &&
      (later > now + secs * 1000 ==> GetAccessToken(t, later).0.None?)
  {
  }

  /** Reading after expiry empties the store, so every later read is empty
      too until a new token is set. */
  lemma ExpiredStaysEmpty(s: CookieStore, now: int, later: int)
    requires Expired(s, now)
    ensures var (_, t) := GetAccessToken(s, now);
      GetAccessToken(t, later) == (None, t) && !HasAccessToken(t, later).0
  {
  }

  /** A lifetime of 0 (or none) sets no expiry: the token then lives as
      long as the previous expiry allows, forever if there was none. */
  lemma ZeroLifetimeKeepsPreviousExpiry(s: CookieStore, token: string, now: int, later: int)
    requires s.expiry.None?
    ensures GetAccessToken(SetAccessToken(s, token, Some(0), now), later).0 == Some(token)
    ensures GetAccessToken(SetAccessToken(s, token, None, now), later).0 == Some(token)
  {
  }

  /** A token set without a lifetime inherits a stale expiry from an
      earlier one and is dropped at once. */
  lemma InheritedExpiryDropsNewToken(s: CookieStore, token: string, now: int)
    requires TruthyNumber(s.expiry) && now > s.expiry.value
    ensures GetAccessToken(SetAccessToken(s, token, None, now), now).0.None?
  {
  }

  /** `setTokens` ignores the refresh token, and the store never yields one. */
  lemma SetTokensIgnoresRefresh(s: CookieStore, a: string, r1: Option<string>, r2: Option<string>, e: Option<int>, now: int)
    ensures SetTokens(s, a, r1, e, now) == SetTokens(s, a, r2, e, now)
    ensures GetRefreshToken(SetTokens(s, a, r1, e, now)).None?
  {
  }

  /** Asking whether there is a session clears a stale expiry: a token set
      afterwards without a lifetime is then readable, where it would have
      inherited the stale expiry had nothing been read in between. */
  lemma HasAccessTokenClearsStaleExpiry(s: CookieStore, token: string, now: int)
    requires Expired(s, now)
    ensures var (b, t) := HasAccessToken(s, now);
      !b && GetAccessToken(SetAccessToken(t, token, None, now), now).0 == Some(token)
    ensures GetAccessToken(SetAccessToken(s, token, None, now), now).0.None?
  {
  }

  /** A session is reported exactly while a non-empty, unexpired token is
      cached. */
  lemma HasSessionIffCachedToken(s: CookieStore, now: int)
    ensures HasAccessToken(s, now).0 <==> (!Expired(s, now) && Present(s.cache))
    ensures HasAccessToken(s, now).1 == GetAccessToken(s, now).1
  {
  }

  /** After `clearTokens` no session is reported at any instant, and
      clearing again changes nothing. */
  lemma ClearTokensProperties(s: CookieStore, now: int)
    ensures !HasAccessToken(ClearTokens(s), now).0
    ensures ClearTokens(ClearTokens(s)) == ClearTokens(s)
  {
    if s.local.Some? {
      assert s.local.value - ClearedKeys - ClearedKeys == s.local.value - ClearedKeys;
    }
  }
}

=== FILE: essence_feed.dfy ===
/** The essence feed page: how long ago a post was made, in coarse buckets,
    and the conversion of a feed post into the card the page draws. Date
    parsing, the clock and the locale's date format are parameters: the
    model receives the elapsed milliseconds, or `None` when the timestamp
    does not parse and the difference is `NaN`. */
module EssenceFeed {
  import opened Common

  const MinuteMs: int := 60000
  const HourMs: int := 3600000
  const DayMs: int := 86400000

  const JustNow: string := "Just now"
  const AvatarPrefix: string := "https://api.dicebear.com/7.x/initials/svg?seed="

  /** `formatTimestamp(timestamp)`, given the elapsed time and the locale's
      rendering of the date. `Math.floor` of an integer quotient by a
      positive divisor is Dafny's division. */
  function FormatTimestamp(elapsed: Option<int>, localeDate: string): (r: string)
    ensures elapsed.None? ==> r == localeDate
    ensures elapsed.Some? && elapsed.value < MinuteMs ==> r == JustNow
    ensures elapsed.Some? && elapsed.value >= 7 * DayMs ==> r == localeDate
  {
    match elapsed
    case None => localeDate
    case Some(diffMs) =>
      var mins := diffMs / MinuteMs;
      var hours := diffMs / HourMs;
      var days := diffMs / DayMs;
      if mins < 1 then JustNow
      else if mins < 60 then IntToString(mins) + "m ago"
      else if hours < 24 then IntToString(hours) + "h ago"
      else if days < 7 then IntToString(days) + "d ago"
      else localeDate
  }

  /** The buckets, stated by the interval of elapsed time each label
      covers: n minutes covers [n, n + 1) minutes for n in 1..59, n hours
      [n, n + 1) hours for n in 1..23, n days [n, n + 1) days for n in 1..6.
      A timestamp in the future reads "Just now". */
  lemma FormatTimestampBuckets(d: int, n: int, localeDate: string)
    ensures d < MinuteMs ==> FormatTimestamp(Some(d), localeDate) == JustNow
    ensures 1 <= n < 60 && n * MinuteMs <= d < (n + 1) * MinuteMs ==>
      FormatTimestamp(Some(d), localeDate) == IntToString(n) + "m ago"
    ensures 1 <= n < 24 && n * HourMs <= d < (n + 1) * HourMs ==>
      FormatTimestamp(Some(d), localeDate) == IntToString(n) + "h ago"
    ensures 1 <= n < 7 && n * DayMs <= d < (n + 1) * DayMs ==>
      FormatTimestamp(Some(d), localeDate) == IntToString(n) + "d ago"
  {
    if 1 <= n < 60 && n * MinuteMs <= d < (n + 1) * MinuteMs {
      FloorDiv(d, MinuteMs, n);
    }
    if 1 <= n < 24 && n * HourMs <= d < (n + 1) * HourMs {
      FloorDiv(d, HourMs, n);
      FloorDiv(d, MinuteMs, d / MinuteMs);
    }
    if 1 <= n < 7 && n * DayMs <= d < (n + 1) * DayMs {
      FloorDiv(d, DayMs, n);
      FloorDiv(d, HourMs, d / HourMs);
    }
  }

  /** The quotient of `d` by `m` is the `n` with `n * m <= d < (n + 1) * m`. */
  lemma FloorDiv(d: int, m: int, n: int)
    requires m > 0 && n * m <= d < (n + 1) * m
    ensures d / m == n
  {
    var q := d / m;
    assert q * m <= d < (q + 1) * m;
    assert q + 1 <= n ==> (q + 1) * m <= n * m;
    assert n + 1 <= q ==> (n + 1) * m <= q * m;
  }

  /** The labels switch at the unit boundaries: just under a minute is
      "Just now", a minute is "1m ago", just under an hour "59m ago", an
      hour "1h ago", a day "1d ago", just under a week "6d ago", and a week
      shows the date. */
  lemma FormatTimestampBoundaries(localeDate: string)
    ensures FormatTimestamp(Some(MinuteMs - 1), localeDate) == JustNow
    ensures FormatTimestamp(Some(MinuteMs), localeDate) == "1m ago"
    ensures FormatTimestamp(Some(HourMs - 1), localeDate) == "59m ago"
    ensures FormatTimestamp(Some(HourMs), localeDate) == "1h ago"
    ensures FormatTimestamp(Some(DayMs), localeDate) == "1d ago"
    ensures FormatTimestamp(Some(7 * DayMs - 1), localeDate) == "6d ago"
    ensures FormatTimestamp(Some(7 * DayMs), localeDate) == localeDate
  {
    UnitBoundaries(localeDate);
    HourEdge(localeDate);
    WeekEdge(localeDate);
  }

  lemma UnitBoundaries(localeDate: string)
    ensures FormatTimestamp(Some(MinuteMs), localeDate) == "1m ago"
    ensures FormatTimestamp(Some(HourMs), localeDate) == "1h ago"
    ensures FormatTimestamp(Some(DayMs), localeDate) == "1d ago"
  {
    var one := IntToString(1);
    assert one == "1";
    FormatTimestampBuckets(MinuteMs, 1, localeDate);
    FormatTimestampBuckets(HourMs, 1, localeDate);
    FormatTimestampBuckets(DayMs, 1, localeDate);
  }

  lemma HourEdge(localeDate: string)
    ensures FormatTimestamp(Some(MinuteMs - 1), localeDate) == JustNow
    ensures FormatTimestamp(Some(HourMs - 1), localeDate) == "59m ago"
  {
    var fiftyNine := IntToString(59);
    assert fiftyNine == "59" by {
      assert NatToString(59) == NatToString(5) + [DigitChar(9)];
    }
    FormatTimestampBuckets(HourMs - 1, 59, localeDate);
  }

  lemma WeekEdge(localeDate: string)
    ensures FormatTimestamp(Some(7 * DayMs - 1), localeDate) == "6d ago"
    ensures FormatTimestamp(Some(7 * DayMs), localeDate) == localeDate
  {
    var six := IntToString(6);
    assert six == "6";
    FormatTimestampBuckets(7 * DayMs - 1, 6, localeDate);
  }

  /** A feed post, with the fields the card uses. `mediaUrls` are the
      `url`s of `media_items`, in order. */
  datatype FeedPost = FeedPost(
    id: string,
    shortCode: string,
    caption: string,
    mediaUrls: seq<string>,
    ownerUsername: string,
    likeCount: int,
    commentsCount: int,
    timestamp: string,
    combinedSummary: Option<string>,
    aiVisualAnalysis: Option<string>)

  /** The card `InstagramPost` draws. */
  datatype Card = Card(
    id: string,
    username: string,
    userAvatar: string,
    postImage: string,
    caption: string,
    likes: int,
    comments: int,
    timestamp: string,
    isLiked: bool,
    isSaved: bool,
    aiSummary: Option<string>,
    aiAnalysis: Option<string>,
    shortCode: string)

  /** `transformPost(post)`; `elapsed` and `localeDate` stand for the date
      arithmetic on the post's timestamp. */
  function TransformPost(post: FeedPost, elapsed: string -> Option<int>, localeDate: string -> string): (c: Card)
    ensures c.likes == if post.likeCount == -1 then 0 else post.likeCount
    ensures c.postImage == if post.mediaUrls == [] then "" else post.mediaUrls[0]
    ensures !c.isLiked && !c.isSaved
  {
    Card(
      post.id,
      post.ownerUsername,
      AvatarPrefix + post.ownerUsername,
      if post.mediaUrls == [] || post.mediaUrls[0] == "" then "" else post.mediaUrls[0],
      post.caption,
      if post.likeCount == -1 then 0 else post.likeCount,
      post.commentsCount,
      FormatTimestamp(elapsed(post.timestamp), localeDate(post.timestamp)),
      false,
      false,
      post.combinedSummary,
      post.aiVisualAnalysis,
      post.shortCode)
  }

  /** What the card keeps of the post: identity, author, caption, comment
      count and short code come through unchanged, the avatar is derived
      from the author alone, and the like count is unchanged except that
      the backend's "hidden" marker -1 shows as 0. The two posts that differ
      only in a hidden versus a zero like count give the same card. */
  lemma TransformPostKeeps(post: FeedPost, elapsed: string -> Option<int>, localeDate: string -> string)
    ensures var c := TransformPost(post, elapsed, localeDate);
      c.id == post.id && c.username == post.ownerUsername && c.caption == post.caption &&
      c.comments == post.commentsCount && c.shortCode == post.shortCode &&
      c.aiSummary == post.combinedSummary && c.aiAnalysis == post.aiVisualAnalysis &&
      StartsWith(c.userAvatar, AvatarPrefix) && c.userAvatar[|AvatarPrefix|..] == post.ownerUsername &&
      (c.likes != 0 ==> c.likes == post.likeCount) &&
      (post.likeCount >= -1 ==> c.likes >= 0)
    ensures TransformPost(post.(likeCount := -1), elapsed, localeDate) ==
      TransformPost(post.(likeCount := 0), elapsed, localeDate)
  {
    var c := TransformPost(post, elapsed, localeDate);
    assert c.userAvatar[..|AvatarPrefix|] == AvatarPrefix;
  }
}

=== FILE: http.dfy ===
/** Vocabulary shared by the two interceptor variants: what a response
    looks like to the interceptor, how a failed request is reported, what
    the refresh POST carries, and where an expired session is sent. */
module Http {
  import opened Common

  /** What the transport delivered for one request: an HTTP status, or no
      response at all (timeout, connection failure). */
  datatype Reply = Status(code: int) | NoResponse

  /** Axios resolves exactly the 2xx statuses and rejects the rest. */
  predicate IsSuccess(r: Reply) {
    r.Status? && 200 <= r.code < 300
  }

  /** `error.response?.status === 401` */
  predicate IsUnauthorized(r: Reply) {
    r.Status? && r.code == 401
  }

  /** Why a caller's promise was rejected: the transport's error for this
      request, or an `Error` thrown by the client code with its message. */
  datatype Failure = HttpFailure(reply: Reply) | ClientError(message: string)

  /** One POST to the refresh endpoint, as issued: its JSON body as
      key/value pairs and its Authorization header, if any. */
  datatype RefreshCall = RefreshCall(url: string, body: seq<(string, string)>, authorization: Option<string>)

  const RefreshUrl: string := "/v1/auth/refresh"

  /** Pages that belong to the login flow; no session-expired redirect is
      issued from them. */
  const AuthPages: seq<string> := ["/login", "/register", "/forgot-password"]

  const SessionExpiredUrl: string := "/login?session=expired"

  /** The Authorization header value for an access token. */
  function BearerHeader(token: string): (h: string)
    ensures StartsWith(h, "Bearer ") && h[|"Bearer "|..] == token
  {
    "Bearer " + token
  }

  /** `window.location.href` after a refresh failure: unchanged without a
      window (`path` is `None`) or on one of the auth pages, otherwise the
      session-expired login page. */
  function LocationAfterRefreshFailure(path: Option<string>, location: Option<string>): (r: Option<string>)
    ensures r == location || r == Some(SessionExpiredUrl)
    ensures r != location ==> path.Some? && path.value !in AuthPages
  {
    if path.Some? && path.value !in AuthPages then Some(SessionExpiredUrl) else location
  }
}

=== FILE: instagram_links.dfy ===
/** Recognising Instagram links: the input is cleaned of whitespace and
    given a scheme, the host must mention an Instagram domain, and the path
    is classified by five patterns tried in order (post, reel, TV, story,
    profile). The browser's URL parser is a parameter that yields the host
    name and path of a URL, or nothing when the URL does not parse; the
    regular expressions are modelled by the leftmost-match searches below. */
module InstagramLinks {
  import opened Common
  import JsValues

  datatype ContentType = Post | Reel | Tv | Story | Profile | Unknown

  /** What the URL parser yields for a well-formed URL. */
  datatype UrlParts = UrlParts(hostname: string, pathname: string)

  /** The result of `parseInstagramUrl`. */
  datatype ParsedLink = ParsedLink(kind: ContentType, id: string, username: Option<string>, url: string, isValid: bool)

  // ---------------------------------------------------------------------
  // Preparing the input

  /** The input with every whitespace character removed: trimming and then
      deleting all `\s` runs removes exactly the whitespace characters. */
  function RemoveSpaces(s: string): (r: string)
    ensures |r| <= |s|
    ensures forall j :: 0 <= j < |r| ==> !JsValues.IsSpace(r[j])
    ensures (forall j :: 0 <= j < |s| ==> !JsValues.IsSpace(s[j])) ==> r == s
  {
    if s == [] then []
    else (if JsValues.IsSpace(s[0]) then [] else [s[0]]) + RemoveSpaces(s[1..])
  }

  /** The URL the parser is given, which is also the `url` of the result:
      whitespace removed, and "https://" in front unless it starts with
      "http". */
  function PrepareUrl(url: string): (r: string)
    ensures StartsWith(r, "http")
    ensures forall j :: 0 <= j < |r| ==> !JsValues.IsSpace(r[j])
    ensures StartsWith(RemoveSpaces(url), "http") ==> r == RemoveSpaces(url)
    ensures !StartsWith(RemoveSpaces(url), "http") ==> r == "https://" + RemoveSpaces(url)
  {
    var t := RemoveSpaces(url);
    if StartsWith(t, "http") then t
    else
      var r := "https://" + t;
      assert r[..4] == "http";
      r
  }

  const InstagramDomain: string := "instagram.com"

  /** The domain test: a substring test on the lower-cased host name. */
  predicate IsInstagramHost(hostname: string) {
    Contains(Lower(hostname), InstagramDomain) || Contains(Lower(hostname), "instagr.am")
  }

  // ---------------------------------------------------------------------
  // Pattern matching

  /** The two character classes of the patterns: `[a-zA-Z0-9_-]` for
      content ids and `[a-zA-Z0-9._]` for user names. */
  datatype CharClass = IdChars | NameChars

  predicate InClass(c: char, k: CharClass) {
    ('a' <= c <= 'z') || ('A' <= c <= 'Z') || ('0' <= c <= '9') || c == '_' ||
    (if k == IdChars then c == '-' else c == '.')
  }

  predicate AllInClass(s: string, k: CharClass) {
    forall j :: 0 <= j < |s| ==> InClass(s[j], k)
  }

  /** The greedy `[class]+` run starting at `start` (empty when the first
      character is not in the class). */
  function Run(s: string, start: nat, k: CharClass): (r: string)
    requires start <= |s|
    ensures start + |r| <= |s| && r == s[start..start + |r|]
    ensures AllInClass(r, k)
    ensures start + |r| == |s| || !InClass(s[start + |r|], k)
    ensures start < |s| && InClass(s[start], k) ==> |r| >= 1
    decreases |s| - start
  {
    if start == |s| || !InClass(s[start], k) then []
    else [s[start]] + Run(s, start + 1, k)
  }

  /** A run is determined by where it stops: a class word followed by the
      end or by a character outside the class is exactly the run. */
  lemma {:induction false} RunOfDelimited(s: string, start: nat, w: string, k: CharClass)
    requires start + |w| <= |s| && s[start..start + |w|] == w && AllInClass(w, k)
    requires start + |w| == |s| || !InClass(s[start + |w|], k)
    ensures Run(s, start, k) == w
    decreases |w|
  {
    if w != [] {
      assert s[start] == w[0];
      assert s[start + 1..start + 1 + |w[1..]|] == w[1..];
      RunOfDelimited(s, start + 1, w[1..], k);
      assert w == [w[0]] + w[1..];
    }
  }

  /** The patterns of the classifier, without the anchored profile one:
      `/\/TAG([a-zA-Z0-9_-]+)/` for a list of alternative tags, and the
      story pattern `/\/stories\/([a-zA-Z0-9._]+)\/([a-zA-Z0-9_-]+)/`. */
  datatype Pattern = Tagged(tags: seq<string>) | StoryPath

  const PostPattern: Pattern := Tagged(["/p/"])
  /** `/reels?/`: the optional "s" is tried first. */
  const ReelPattern: Pattern := Tagged(["/reels/", "/reel/"])
  const TvPattern: Pattern := Tagged(["/tv/"])
  const StoriesTag: string := "/stories/"

  /** What a match captures: the content id, and for a story the user name. */
  datatype Capture = Capture(id: string, name: string)

  /** `tag` followed by at least one class character occurs at `i`. */
  predicate TagMatchesAt(s: string, tag: string, k: CharClass, i: int) {
    OccursAt(s, tag, i) && i + |tag| < |s| && InClass(s[i + |tag|], k)
  }

  /** The first of the alternative tags that matches at `i`. */
  function TagAt(s: string, tags: seq<string>, i: int): (r: Option<string>)
    ensures r.Some? ==> r.value in tags && TagMatchesAt(s, r.value, IdChars, i)
    ensures r.None? ==> forall t :: t in tags ==> !TagMatchesAt(s, t, IdChars, i)
  {
    if tags == [] then None
    else if TagMatchesAt(s, tags[0], IdChars, i) then Some(tags[0])
    else TagAt(s, tags[1..], i)
  }

  /** The match of pattern `p` that starts at index `i`, if any. Every
      quantifier in the patterns is greedy and no class contains "/", so a
      match that starts at `i` is unique and backtracking never changes it. */
  function PatternAt(s: string, p: Pattern, i: int): (r: Option<Capture>)
    ensures r.Some? ==> 0 <= i < |s| && r.value.id != []
  {
    match p
    case Tagged(tags) =>
      (match TagAt(s, tags, i)
       case None => None
       case Some(t) => Some(Capture(Run(s, i + |t|, IdChars), "")))
    case StoryPath =>
      if !OccursAt(s, StoriesTag, i) then None
      else
        var name := Run(s, i + |StoriesTag|, NameChars);
        var j := i + |StoriesTag| + |name|;
        if name != [] && j + 1 < |s| && s[j] == '/' && InClass(s[j + 1], IdChars)
        then Some(Capture(Run(s, j + 1, IdChars), name))
        else None
  }

  /** The leftmost match of `p` at or after index `from`, with its start. */
  function FindFrom(s: string, p: Pattern, from: nat): (r: Option<(nat, Capture)>)
    ensures r.Some? ==> from <= r.value.0 && PatternAt(s, p, r.value.0) == Some(r.value.1)
    ensures r.Some? ==> forall j :: from <= j < r.value.0 ==> PatternAt(s, p, j).None?
    ensures r.None? ==> forall j :: from <= j ==> PatternAt(s, p, j).None?
    decreases |s| - from
  {
    if from >= |s| then None
    else if PatternAt(s, p, from).Some? then Some((from, PatternAt(s, p, from).value))
    else FindFrom(s, p, from + 1)
  }

  /** `path.match(pattern)`: the captures of the leftmost match. */
  function Search(s: string, p: Pattern): (r: Option<Capture>)
    ensures r.Some? ==> r.value.id != []
  {
    match FindFrom(s, p, 0)
    case None => None
    case Some((_, c)) => Some(c)
  }

  /** The pattern occurs somewhere in the path: the reference the search is
      measured against. */
  predicate HasMatch(s: string, p: Pattern) {
    exists i | 0 <= i < |s| :: PatternAt(s, p, i).Some?
  }

  /** The search finds a match exactly when one exists, and the one it
      finds starts no later than any other. */
  lemma SearchIsLeftmost(s: string, p: Pattern)
    ensures Search(s, p).Some? <==> HasMatch(s, p)
    ensures Search(s, p).Some? ==>
      exists i | 0 <= i < |s| :: PatternAt(s, p, i) == Search(s, p) &&
        forall j :: 0 <= j < i ==> PatternAt(s, p, j).None?
  {
    var r := FindFrom(s, p, 0);
    if r.Some? {
      assert PatternAt(s, p, r.value.0).Some?;
    }
  }

  /** The path names reserved for content, which are no profile. */
  const ReservedNames: seq<string> := ["p", "reel", "reels", "tv", "stories"]

  /** `path.match(/^\/([a-zA-Z0-9._]+)\/?$/)`: a single segment, with or
      without a trailing slash. */
  function ProfileName(path: string): (r: Option<string>)
    ensures r.Some? ==> r.value != [] && AllInClass(r.value, NameChars)
    ensures r.Some? ==> path == "/" + r.value || path == "/" + r.value + "/"
  {
    if path == [] || path[0] != '/' then None
    else
      var rest := path[1..];
      var name := if rest != [] && rest[|rest| - 1] == '/' then rest[..|rest| - 1] else rest;
      if name != [] && AllInClass(name, NameChars) then
        assert path == "/" + rest;
        Some(name)
      else None
  }

  /** The classification of a path. */
  datatype Classified = Classified(kind: ContentType, id: string, username: Option<string>)

  /** Well-formed classifications: the id and user name are drawn from the
      classes the patterns allow, and only profiles and stories have a user
      name. */
  predicate WellFormed(c: Classified) {
    match c.kind
    case Unknown => c.id == [] && c.username.None?
    case Profile => c.id != [] && AllInClass(c.id, NameChars) && c.username == Some(c.id) &&
      c.id !in ReservedNames
    case Story => c.id != [] && AllInClass(c.id, IdChars) && c.username.Some? &&
      c.username.value != [] && AllInClass(c.username.value, NameChars)
    case _ => c.id != [] && AllInClass(c.id, IdChars) && c.username.None?
  }

  /** The path part of `parseInstagramUrl`, patterns in their order. */
  function ClassifyPath(path: string): (r: Classified)
    ensures WellFormed(r)
  {
    var post := Search(path, PostPattern);
    if post.Some? then
      SearchCaptureClasses(path, PostPattern);
      Classified(Post, post.value.id, None)
    else
      var reel := Search(path, ReelPattern);
      if reel.Some? then
        SearchCaptureClasses(path, ReelPattern);
        Classified(Reel, reel.value.id, None)
      else
        var tv := Search(path, TvPattern);
        if tv.Some? then
          SearchCaptureClasses(path, TvPattern);
          Classified(Tv, tv.value.id, None)
        else
          var story := Search(path, StoryPath);
          if story.Some? then
            SearchCaptureClasses(path, StoryPath);
            Classified(Story, story.value.id, Some(story.value.name))
          else
            var profile := ProfileName(path);
            if profile.Some? && profile.value !in ReservedNames then
              Classified(Profile, profile.value, Some(profile.value))
            else Classified(Unknown, "", None)
  }

  /** The captures of a match come from the pattern's classes. */
  lemma SearchCaptureClasses(s: string, p: Pattern)
    ensures Search(s, p).Some? ==> AllInClass(Search(s, p).value.id, IdChars)
    ensures Search(s, p).Some? && p.StoryPath? ==>
      Search(s, p).value.name != [] && AllInClass(Search(s, p).value.name, NameChars)
  {
  }

  /** `parseInstagramUrl(url)`; `parseUrl` stands for `new URL`. */
  function ParseInstagramUrl(parseUrl: string -> Option<UrlParts>, url: string): (r: ParsedLink)
    ensures r.url == PrepareUrl(url)
    ensures r.isValid <==> r.kind != Unknown
    ensures !r.isValid ==> r.id == "" && r.username.None?
    ensures WellFormed(Classified(r.kind, r.id, r.username))
  {
    var prepared := PrepareUrl(url);
    match parseUrl(prepared)
    case None => ParsedLink(Unknown, "", None, prepared, false)
    case Some(parts) =>
      if !IsInstagramHost(parts.hostname) then ParsedLink(Unknown, "", None, prepared, false)
      else
        var c := ClassifyPath(parts.pathname);
        ParsedLink(c.kind, c.id, c.username, prepared, c.kind != Unknown)
  }

  /** Precedence: each kind is chosen exactly when its pattern matches and
      no earlier pattern does; a profile also needs a name that is not
      reserved. */
  lemma ClassifyPrecedence(path: string)
    ensures ClassifyPath(path).kind == Post <==> HasMatch(path, PostPattern)
    ensures ClassifyPath(path).kind == Reel <==>
      !HasMatch(path, PostPattern) && HasMatch(path, ReelPattern)
    ensures ClassifyPath(path).kind == Tv <==>
      !HasMatch(path, PostPattern) && !HasMatch(path, ReelPattern) && HasMatch(path, TvPattern)
    ensures ClassifyPath(path).kind == Story <==>
      !HasMatch(path, PostPattern) && !HasMatch(path, ReelPattern) && !HasMatch(path, TvPattern) &&
      HasMatch(path, StoryPath)
    ensures ClassifyPath(path).kind == Profile <==>
      !HasMatch(path, PostPattern) && !HasMatch(path, ReelPattern) && !HasMatch(path, TvPattern) &&
      !HasMatch(path, StoryPath) && ProfileName(path).Some? && ProfileName(path).value !in ReservedNames
  {
    SearchIsLeftmost(path, PostPattern);
    SearchIsLeftmost(path, ReelPattern);
    SearchIsLeftmost(path, TvPattern);
    SearchIsLeftmost(path, StoryPath);
  }

  /** Every refusal is the same: kind unknown, empty id, and it happens in
      particular when the URL does not parse or the host is not Instagram's. */
  lemma InvalidIsUnknown(parseUrl: string -> Option<UrlParts>, url: string)
    ensures var r := ParseInstagramUrl(parseUrl, url);
      !r.isValid ==> r.kind == Unknown && r.id == ""
    ensures parseUrl(PrepareUrl(url)).None? ==> !ParseInstagramUrl(parseUrl, url).isValid
    ensures parseUrl(PrepareUrl(url)).Some? && !IsInstagramHost(parseUrl(PrepareUrl(url)).value.hostname) ==>
      !ParseInstagramUrl(parseUrl, url).isValid
  {
  }

  /** The domain test is a substring test, so look-alike hosts pass it. */
  lemma HostCheckAcceptsLookalikes(a: string, b: string)
    ensures IsInstagramHost(a + InstagramDomain + b)
  {
    var h := a + InstagramDomain + b;
    var low := Lower(h);
    var d := InstagramDomain;
    DomainIsLowerCase();
    forall j | 0 <= j < |d| ensures low[|a| + j] == d[j] {
      assert h[|a| + j] == d[j];
    }
    assert low[|a|..|a| + |d|] == d;
    assert OccursAt(low, d, |a|);
  }

  lemma DomainIsLowerCase()
    ensures forall j :: 0 <= j < |InstagramDomain| ==> LowerChar(InstagramDomain[j]) == InstagramDomain[j]
  {
  }

  // ---------------------------------------------------------------------
  // Slash structure of paths

  /** Two slashes `d` apart starting at `i`, the second not the last
      character: what every tagged or story match needs. */
  predicate SlashPair(s: string, i: int, d: nat) {
    0 <= i && i + d < |s| - 1 && s[i] == '/' && s[i + d] == '/'
  }

  /** The tags a pattern begins with. */
  function PatternTags(p: Pattern): (tags: seq<string>)
    ensures forall t :: t in tags ==> |t| >= 3 && t[0] == '/' && t[|t| - 1] == '/'
  {
    match p
    case Tagged(tags) =>
      if p == PostPattern || p == ReelPattern || p == TvPattern then tags else []
    case StoryPath => [StoriesTag]
  }

  /** A match of one of the classifier's patterns starts with one of its
      tags, and so with a slash pair as wide as the tag. */
  lemma MatchAnatomy(s: string, p: Pattern, i: int)
    requires p in {PostPattern, ReelPattern, TvPattern, StoryPath}
    ensures PatternAt(s, p, i).Some? ==>
      exists t :: t in PatternTags(p) && OccursAt(s, t, i) && SlashPair(s, i, |t| - 1)
  {
    if PatternAt(s, p, i).Some? {
      var t := if p.Tagged? then TagAt(s, p.tags, i).value else StoriesTag;
      assert t in PatternTags(p);
      assert OccursAt(s, t, i) && i + |t| < |s|;
      TagSlashes(s, t, i);
    }
  }

  /** A tag that begins and ends with a slash, occurring at `i` and not
      ending the string, gives a slash pair as wide as the tag. */
  lemma TagSlashes(s: string, t: string, i: int)
    requires |t| >= 3 && t[0] == '/' && t[|t| - 1] == '/'
    requires OccursAt(s, t, i) && i + |t| < |s|
    ensures SlashPair(s, i, |t| - 1)
  {
    assert s[i..i + |t|][0] == s[i];
    assert s[i..i + |t|][|t| - 1] == s[i + |t| - 1];
  }

  // ---------------------------------------------------------------------
  // Canonical links

  const CanonicalHost: string := "www." + InstagramDomain
  const CanonicalOrigin: string := "https://" + CanonicalHost

  /** The path of the standard form `normalizeInstagramUrl` writes. */
  function CanonicalPath(c: Classified): (path: string)
    requires WellFormed(c) && c.kind != Unknown
  {
    match c.kind
    case Post => "/p/" + c.id + "/"
    case Reel => "/reel/" + c.id + "/"
    case Tv => "/tv/" + c.id + "/"
    case Story => "/stories/" + c.username.value + "/" + c.id + "/"
    case Profile => "/" + c.id + "/"
  }

  /** The user names that, inside a story path, read as an earlier pattern's
      tag. */
  const ShadowingNames: seq<string> := ["p", "reel", "reels", "tv"]

  predicate Reclassifiable(c: Classified) {
    WellFormed(c) && c.kind != Unknown &&
    (c.kind == Story ==> c.username.value !in ShadowingNames)
  }

  lemma NoSlashInClass(w: string, k: CharClass)
    requires AllInClass(w, k)
    ensures forall j :: 0 <= j < |w| ==> w[j] != '/'
  {
  }

  /** In `prefix + w + "/"`, for a prefix whose only slashes are its first
      and last characters and a class word `w`, the slashes before the last
      character are the prefix's. */
  lemma TaggedPathSlashes(prefix: string, w: string, k: CharClass)
    requires |prefix| >= 1 && prefix[0] == '/' && prefix[|prefix| - 1] == '/'
    requires forall m :: 0 < m < |prefix| - 1 ==> prefix[m] != '/'
    requires AllInClass(w, k)
    ensures forall j :: 0 <= j < |prefix| + |w| ==>
      ((prefix + w + "/")[j] == '/' <==> j == 0 || j == |prefix| - 1)
  {
    var s := prefix + w + "/";
    NoSlashInClass(w, k);
    forall j | 0 <= j < |prefix| + |w| ensures (s[j] == '/' <==> j == 0 || j == |prefix| - 1) {
      if j < |prefix| { assert s[j] == prefix[j]; } else { assert s[j] == w[j - |prefix|]; }
    }
  }

  /** No pattern whose tags differ in width from the prefix matches a
      path made of one tag-like prefix and one word. */
  lemma NoMatchInTaggedPath(s: string, prefix: string, w: string, k: CharClass, p: Pattern)
    requires p in {PostPattern, ReelPattern, TvPattern, StoryPath}
    requires |prefix| >= 1 && prefix[0] == '/' && prefix[|prefix| - 1] == '/'
    requires forall m :: 0 < m < |prefix| - 1 ==> prefix[m] != '/'
    requires forall t :: t in PatternTags(p) ==> |t| != |prefix|
    requires AllInClass(w, k)
    requires s == prefix + w + "/"
    ensures Search(s, p).None?
  {
    TaggedPathSlashes(prefix, w, k);
    forall i | 0 <= i < |s| ensures PatternAt(s, p, i).None? {
      MatchAnatomy(s, p, i);
    }
  }

  /** The slashes of a story path before its last character. */
  lemma StorySlashes(u: string, id: string)
    requires AllInClass(u, NameChars) && AllInClass(id, IdChars)
    ensures var s := StoriesTag + u + "/" + id + "/";
      forall j :: 0 <= j < |s| - 1 ==> (s[j] == '/' <==> j == 0 || j == 8 || j == 9 + |u|)
  {
    var s := StoriesTag + u + "/" + id + "/";
    NoSlashInClass(u, NameChars);
    NoSlashInClass(id, IdChars);
    forall j | 0 <= j < |s| - 1 ensures (s[j] == '/' <==> j == 0 || j == 8 || j == 9 + |u|) {
      if j < 9 { assert s[j] == StoriesTag[j]; }
      else if j < 9 + |u| { assert s[j] == u[j - 9]; }
      else if j > 9 + |u| { assert s[j] == id[j - 10 - |u|]; }
    }
  }

  /** The segment of a story path between its second and third slash. */
  lemma StorySegment(u: string, id: string)
    ensures var s := StoriesTag + u + "/" + id + "/";
      |s| == 11 + |u| + |id| && s[8..10 + |u|] == "/" + u + "/"
  {
    var s := StoriesTag + u + "/" + id + "/";
    var g := "/" + u + "/";
    forall m | 0 <= m < |u| + 2 ensures s[8 + m] == g[m] {
      if m == 0 {
      } else if m <= |u| {
        assert s[8 + m] == u[m - 1];
      } else {
        assert s[8 + m] == '/';
      }
    }
  }

  /** The words of the earlier patterns' tags. */
  lemma ShadowingTag(t: string, u: string)
    requires t == "/p/" || t == "/reels/" || t == "/reel/" || t == "/tv/"
    requires t == "/" + u + "/"
    ensures u in ShadowingNames
  {
    assert u == t[1..|t| - 1];
    if t == "/p/" {
      assert t[1..|t| - 1] == "p";
    } else if t == "/reels/" {
      assert t[1..|t| - 1] == "reels";
    } else if t == "/reel/" {
      assert t[1..|t| - 1] == "reel";
    } else {
      assert t[1..|t| - 1] == "tv";
    }
  }

  /** The tags of the patterns tried before the story pattern. */
  lemma EarlierTags(p: Pattern, t: string)
    requires p in {PostPattern, ReelPattern, TvPattern}
    requires t in PatternTags(p)
    ensures t == "/p/" || t == "/reels/" || t == "/reel/" || t == "/tv/"
  {
    assert PatternTags(p) == p.tags;
  }

  /** Inside a story path an earlier pattern can match only where the user
      name spells one of its tags' words. */
  lemma StoryEarlierMatchAt(u: string, id: string, p: Pattern, i: int)
    requires AllInClass(u, NameChars) && AllInClass(id, IdChars)
    requires p in {PostPattern, ReelPattern, TvPattern}
    ensures PatternAt(StoriesTag + u + "/" + id + "/", p, i).Some? ==> u in ShadowingNames
  {
    var s := StoriesTag + u + "/" + id + "/";
    MatchAnatomy(s, p, i);
    if PatternAt(s, p, i).Some? {
      var t :| t in PatternTags(p) && OccursAt(s, t, i) && SlashPair(s, i, |t| - 1);
      EarlierTags(p, t);
      StoryTagIsUserName(u, id, t, i);
      ShadowingTag(t, u);
    }
  }

  /** A tag of at most seven characters that sits on a slash pair of a
      story path spells its user name between slashes. */
  lemma StoryTagIsUserName(u: string, id: string, t: string, i: int)
    requires AllInClass(u, NameChars) && AllInClass(id, IdChars)
    requires 3 <= |t| <= 7
    requires OccursAt(StoriesTag + u + "/" + id + "/", t, i)
    requires SlashPair(StoriesTag + u + "/" + id + "/", i, |t| - 1)
    ensures t == "/" + u + "/"
  {
    var s := StoriesTag + u + "/" + id + "/";
    StorySlashes(u, id);
    assert i == 8 && |t| == |u| + 2;
    StorySegment(u, id);
  }

  /** In a story path no earlier pattern matches, unless the user name is
      itself one of their tags' words. */
  lemma StoryPathNoEarlierMatch(u: string, id: string)
    requires AllInClass(u, NameChars) && u !in ShadowingNames
    requires AllInClass(id, IdChars)
    ensures var s := StoriesTag + u + "/" + id + "/";
      Search(s, PostPattern).None? && Search(s, ReelPattern).None? && Search(s, TvPattern).None?
  {
    var s := StoriesTag + u + "/" + id + "/";
    forall p, i | p in {PostPattern, ReelPattern, TvPattern} && 0 <= i < |s|
      ensures PatternAt(s, p, i).None?
    {
      StoryEarlierMatchAt(u, id, p, i);
    }
  }

  lemma CanonicalPostReclassifies(id: string)
    requires id != [] && AllInClass(id, IdChars)
    ensures ClassifyPath("/p/" + id + "/") == Classified(Post, id, None)
  {
    var s := "/p/" + id + "/";
    RunOfDelimited(s, 3, id, IdChars);
    assert s[..3] == "/p/";
    assert PatternAt(s, PostPattern, 0) == Some(Capture(id, ""));
  }

  lemma CanonicalReelReclassifies(id: string)
    requires id != [] && AllInClass(id, IdChars)
    ensures ClassifyPath("/reel/" + id + "/") == Classified(Reel, id, None)
  {
    var s := "/reel/" + id + "/";
    NoMatchInTaggedPath(s, "/reel/", id, IdChars, PostPattern);
    RunOfDelimited(s, 6, id, IdChars);
    assert s[..6] == "/reel/";
    assert !OccursAt(s, "/reels/", 0) by { assert s[..7][5] == '/'; }
    assert TagMatchesAt(s, "/reel/", IdChars, 0) by { assert s[6] == id[0]; }
    assert TagAt(s, ReelPattern.tags, 0) == Some("/reel/") by {
      assert ReelPattern.tags[1..] == ["/reel/"];
    }
    assert PatternAt(s, ReelPattern, 0) == Some(Capture(id, ""));
  }

  lemma CanonicalTvReclassifies(id: string)
    requires id != [] && AllInClass(id, IdChars)
    ensures ClassifyPath("/tv/" + id + "/") == Classified(Tv, id, None)
  {
    var s := "/tv/" + id + "/";
    NoMatchInTaggedPath(s, "/tv/", id, IdChars, PostPattern);
    NoMatchInTaggedPath(s, "/tv/", id, IdChars, ReelPattern);
    RunOfDelimited(s, 4, id, IdChars);
    assert s[..4] == "/tv/";
    assert PatternAt(s, TvPattern, 0) == Some(Capture(id, ""));
  }

  lemma CanonicalStoryReclassifies(u: string, id: string)
    requires u != [] && AllInClass(u, NameChars) && u !in ShadowingNames
    requires id != [] && AllInClass(id, IdChars)
    ensures ClassifyPath(StoriesTag + u + "/" + id + "/") == Classified(Story, id, Some(u))
  {
    var s := StoriesTag + u + "/" + id + "/";
    StoryPathNoEarlierMatch(u, id);
    StoryMatchAtStart(u, id);
  }

  /** A story path matches the story pattern at its start. */
  lemma StoryMatchAtStart(u: string, id: string)
    requires u != [] && AllInClass(u, NameChars)
    requires id != [] && AllInClass(id, IdChars)
    ensures PatternAt(StoriesTag + u + "/" + id + "/", StoryPath, 0) == Some(Capture(id, u))
  {
    var s := StoriesTag + u + "/" + id + "/";
    assert s[..9] == StoriesTag;
    assert s[9..9 + |u|] == u;
    assert s[9 + |u|] == '/';
    RunOfDelimited(s, 9, u, NameChars);
    assert s[10 + |u|..10 + |u| + |id|] == id;
    RunOfDelimited(s, 10 + |u|, id, IdChars);
  }

  lemma CanonicalProfileReclassifies(u: string)
    requires u != [] && AllInClass(u, NameChars) && u !in ReservedNames
    ensures ClassifyPath("/" + u + "/") == Classified(Profile, u, Some(u))
  {
    var s := "/" + u + "/";
    assert Search(s, PostPattern).None? by { NoMatchInTaggedPath(s, "/", u, NameChars, PostPattern); }
    assert Search(s, ReelPattern).None? by { NoMatchInTaggedPath(s, "/", u, NameChars, ReelPattern); }
    assert Search(s, TvPattern).None? by { NoMatchInTaggedPath(s, "/", u, NameChars, TvPattern); }
    assert Search(s, StoryPath).None? by { NoMatchInTaggedPath(s, "/", u, NameChars, StoryPath); }
    assert ProfileName(s) == Some(u) by {
      assert s[1..] == u + "/";
      assert s[1..][..|s| - 2] == u;
    }
  }

  /** The standard form reclassifies as what it was written from. */
  lemma CanonicalPathReclassifies(c: Classified)
    requires Reclassifiable(c)
    ensures ClassifyPath(CanonicalPath(c)) == c
  {
    match c.kind {
      case Post => CanonicalPostReclassifies(c.id);
      case Reel => CanonicalReelReclassifies(c.id);
      case Tv => CanonicalTvReclassifies(c.id);
      case Story => CanonicalStoryReclassifies(c.username.value, c.id);
      case Profile => CanonicalProfileReclassifies(c.id);
    }
  }

  /** A story whose user name is "p" is read as a post: the post pattern is
      tried first and also matches inside a story path. */
  lemma StoryOfUserPReadsAsPost(id: string)
    requires id != [] && AllInClass(id, IdChars)
    ensures ClassifyPath("/stories/p/" + id + "/").kind == Post
  {
    var s := "/stories/p/" + id + "/";
    assert OccursAt(s, "/p/", 8) by { assert s[8..11] == "/p/"; }
    assert PatternAt(s, PostPattern, 8).Some?;
    SearchIsLeftmost(s, PostPattern);
  }

  /** A story the classifier returns never has a shadowing user name: with
      such a name the slash that ends "/stories" starts an earlier
      pattern's match, which wins. So every classification of a path is
      one its standard form reads back as. */
  lemma StoryNeverShadowed(path: string)
    ensures ClassifyPath(path).kind == Story ==> ClassifyPath(path).username.value !in ShadowingNames
  {
    if ClassifyPath(path).kind == Story {
      SearchIsLeftmost(path, PostPattern);
      SearchIsLeftmost(path, ReelPattern);
      SearchIsLeftmost(path, TvPattern);
      SearchIsLeftmost(path, StoryPath);
      var i :| 0 <= i < |path| && PatternAt(path, StoryPath, i) == Search(path, StoryPath) &&
        forall j :: 0 <= j < i ==> PatternAt(path, StoryPath, j).None?;
      StoryNameShadows(path, i);
    }
  }

  /** A story match whose user name is a shadowing name contains a match
      of an earlier pattern, starting at the slash before the name. */
  lemma StoryNameShadows(path: string, i: int)
    requires PatternAt(path, StoryPath, i).Some?
    ensures PatternAt(path, StoryPath, i).value.name in ShadowingNames ==>
      HasMatch(path, PostPattern) || HasMatch(path, ReelPattern) || HasMatch(path, TvPattern)
  {
    var name := PatternAt(path, StoryPath, i).value.name;
    if name in ShadowingNames {
      var t := "/" + name + "/";
      StoryNameTag(path, i);
      assert TagMatchesAt(path, t, IdChars, i + 8);
      ShadowedTagMatches(path, name, i + 8);
    }
  }

  /** The user name of a story match sits between slashes, right after
      "/stories", and is followed by an id character. */
  lemma StoryNameTag(path: string, i: int)
    requires PatternAt(path, StoryPath, i).Some?
    ensures var name := PatternAt(path, StoryPath, i).value.name;
      TagMatchesAt(path, "/" + name + "/", IdChars, i + 8)
  {
    var name := PatternAt(path, StoryPath, i).value.name;
    var t := "/" + name + "/";
    var j := i + 9 + |name|;
    assert path[i..i + 9] == StoriesTag;
    assert path[i + 8] == '/' by { assert path[i..i + 9][8] == StoriesTag[8]; }
    assert path[i + 9..j] == name;
    forall m | 0 <= m < |t| ensures path[i + 8 + m] == t[m] {
      if 1 <= m <= |name| {
        assert path[i + 9..j][m - 1] == path[i + 8 + m];
      }
    }
    assert path[i + 8..i + 8 + |t|] == t;
  }

  /** The tag spelt by a shadowing name, followed by an id character, is a
      match of the pattern that owns it. */
  lemma ShadowedTagMatches(path: string, name: string, i: int)
    requires name in ShadowingNames
    requires TagMatchesAt(path, "/" + name + "/", IdChars, i)
    ensures HasMatch(path, PostPattern) || HasMatch(path, ReelPattern) || HasMatch(path, TvPattern)
  {
    var t := "/" + name + "/";
    if name == "p" {
      assert t == "/p/";
      assert TagAt(path, PostPattern.tags, i).Some?;
      assert PatternAt(path, PostPattern, i).Some?;
    } else if name == "reel" || name == "reels" {
      if name == "reel" {
        assert t == "/reel/" == ReelPattern.tags[1];
      } else {
        assert t == "/reels/" == ReelPattern.tags[0];
      }
      assert TagAt(path, ReelPattern.tags, i).Some?;
      assert PatternAt(path, ReelPattern, i).Some?;
    } else {
      assert name == "tv" && t == "/tv/";
      assert TagAt(path, TvPattern.tags, i).Some?;
      assert PatternAt(path, TvPattern, i).Some?;
    }
  }

  // ---------------------------------------------------------------------
  // Operations on links

  /** `normalizeInstagramUrl(url)` */
  function NormalizeInstagramUrl(parseUrl: string -> Option<UrlParts>, url: string): (r: string)
    ensures !ParseInstagramUrl(parseUrl, url).isValid ==> r == url
  {
    var p := ParseInstagramUrl(parseUrl, url);
    if !p.isValid then url
    else CanonicalOrigin + CanonicalPath(Classified(p.kind, p.id, p.username))
  }

  /** `isInstagramUrl(url)`: the host test alone, on the text as given
      (no white space removal, no "https://" prefix); a text the URL
      parser rejects is not a link. */
  function IsInstagramUrl(parseUrl: string -> Option<UrlParts>, url: string): (r: bool)
    ensures r ==> parseUrl(url).Some?
    ensures PrepareUrl(url) == url && ParseInstagramUrl(parseUrl, url).isValid ==> r
  {
    match parseUrl(url)
    case None => false
    case Some(parts) => IsInstagramHost(parts.hostname)
  }

  /** On a text that needs no preparation, a valid parse is exactly a host
      test that passes on a path of a known kind; the host test alone
      accepts any path. */
  lemma IsInstagramUrlVsParse(parseUrl: string -> Option<UrlParts>, url: string)
    requires PrepareUrl(url) == url
    ensures ParseInstagramUrl(parseUrl, url).isValid <==>
      IsInstagramUrl(parseUrl, url) && ClassifyPath(parseUrl(url).value.pathname).kind != Unknown
  {
  }

  /** `extractInstagramId(url)` */
  function ExtractInstagramId(parseUrl: string -> Option<UrlParts>, url: string): (r: Option<string>)
    ensures r.Some? <==> ParseInstagramUrl(parseUrl, url).isValid
    ensures r.Some? ==> r.value == ParseInstagramUrl(parseUrl, url).id && r.value != []
  {
    var p := ParseInstagramUrl(parseUrl, url);
    if p.isValid then Some(p.id) else None
  }

  /** `validateInstagramUrls(urls)`: the valid parses, in order. */
  function ValidateInstagramUrls(parseUrl: string -> Option<UrlParts>, urls: seq<string>): (r: seq<ParsedLink>)
    ensures |r| <= |urls|
    ensures forall j :: 0 <= j < |r| ==> r[j].isValid
  {
    if urls == [] then []
    else Kept(parseUrl, urls[0]) + ValidateInstagramUrls(parseUrl, urls[1..])
  }

  /** The parse of one URL when it is valid, and nothing otherwise. */
  function Kept(parseUrl: string -> Option<UrlParts>, u: string): seq<ParsedLink> {
    var p := ParseInstagramUrl(parseUrl, u);
    if p.isValid then [p] else []
  }

  /** Validation distributes over concatenation, so together with the
      one-element case it keeps exactly the valid parses in their order. */
  lemma {:induction false} ValidateAppend(parseUrl: string -> Option<UrlParts>, a: seq<string>, b: seq<string>)
    ensures ValidateInstagramUrls(parseUrl, a + b) ==
      ValidateInstagramUrls(parseUrl, a) + ValidateInstagramUrls(parseUrl, b)
  {
    if a != [] {
      assert (a + b)[0] == a[0];
      assert (a + b)[1..] == a[1..] + b;
      ValidateAppend(parseUrl, a[1..], b);
    } else {
      assert a + b == b;
    }
  }

  lemma ValidateSingle(parseUrl: string -> Option<UrlParts>, u: string)
    ensures ValidateInstagramUrls(parseUrl, [u]) ==
      (if ParseInstagramUrl(parseUrl, u).isValid then [ParseInstagramUrl(parseUrl, u)] else [])
  {
    assert [u][1..] == [];
  }

  /** `getContentTypeLabel(type)` */
  function ContentTypeLabel(t: ContentType): (r: string)
    ensures StartsWith(r, "Instagram ")
  {
    var text := (match t
      case Post => "Instagram Post"
      case Reel => "Instagram Reel"
      case Tv => "Instagram TV"
      case Story => "Instagram Story"
      case Profile => "Instagram Profile"
      case Unknown => "Instagram Content");
    assert text[..10] == "Instagram ";
    text
  }

  /** The six labels are distinct, so the label tells the type. */
  lemma LabelsDistinct(a: ContentType, b: ContentType)
    requires a != b
    ensures ContentTypeLabel(a) != ContentTypeLabel(b)
  {
  }

  /** A URL with no whitespace that starts with "http" is used as is. */
  lemma PrepareKeepsCleanUrl(url: string)
    requires forall j :: 0 <= j < |url| ==> !JsValues.IsSpace(url[j])
    requires StartsWith(url, "http")
    ensures PrepareUrl(url) == url
  {
  }

  /** The standard form of a link parses back to the same link, provided
      the URL parser reads it as its host and path. */
  lemma ParseCanonical(parseUrl: string -> Option<UrlParts>, c: Classified)
    requires Reclassifiable(c)
    requires parseUrl(CanonicalOrigin + CanonicalPath(c)) == Some(UrlParts(CanonicalHost, CanonicalPath(c)))
    ensures var n := CanonicalOrigin + CanonicalPath(c);
      ParseInstagramUrl(parseUrl, n) == ParsedLink(c.kind, c.id, c.username, n, true)
  {
    CanonicalIsPrepared(c);
    CanonicalPathReclassifies(c);
    CanonicalHostIsInstagram(CanonicalHost);
  }

  /** The standard form needs no preparing. */
  lemma CanonicalIsPrepared(c: Classified)
    requires WellFormed(c) && c.kind != Unknown
    ensures PrepareUrl(CanonicalOrigin + CanonicalPath(c)) == CanonicalOrigin + CanonicalPath(c)
  {
    var n := CanonicalOrigin + CanonicalPath(c);
    CanonicalHasNoSpaces(c);
    assert n[..4] == "http";
    PrepareKeepsCleanUrl(n);
  }

  /** Normalising twice is normalising once, and the standard form parses
      as the original link, provided the URL parser reads the standard form
      back as its host and path. */
  lemma NormalizeIdempotent(parseUrl: string -> Option<UrlParts>, url: string)
    requires ParseInstagramUrl(parseUrl, url).isValid
    requires var p := ParseInstagramUrl(parseUrl, url);
      var c := Classified(p.kind, p.id, p.username);
      parseUrl(CanonicalOrigin + CanonicalPath(c)) == Some(UrlParts(CanonicalHost, CanonicalPath(c)))
    ensures var p := ParseInstagramUrl(parseUrl, url);
      var q := ParseInstagramUrl(parseUrl, NormalizeInstagramUrl(parseUrl, url));
      q.isValid && q.kind == p.kind && q.id == p.id && q.username == p.username
    ensures var n := NormalizeInstagramUrl(parseUrl, url);
      NormalizeInstagramUrl(parseUrl, n) == n
  {
    var p := ParseInstagramUrl(parseUrl, url);
    var c := Classified(p.kind, p.id, p.username);
    var parts := parseUrl(PrepareUrl(url));
    assert parts.Some? && IsInstagramHost(parts.value.hostname);
    assert c == ClassifyPath(parts.value.pathname);
    StoryNeverShadowed(parts.value.pathname);
    ParseCanonical(parseUrl, c);
  }

  lemma CanonicalHostIsInstagram(host: string)
    requires host == CanonicalHost
    ensures IsInstagramHost(host)
  {
    HostCheckAcceptsLookalikes("www.", "");
    assert host == "www." + InstagramDomain + "";
  }


  lemma CanonicalHasNoSpaces(c: Classified)
    requires WellFormed(c) && c.kind != Unknown
    ensures forall j :: 0 <= j < |CanonicalOrigin + CanonicalPath(c)| ==>
      !JsValues.IsSpace((CanonicalOrigin + CanonicalPath(c))[j])
  {
    var path := CanonicalPath(c);
    assert NoSpaces(CanonicalOrigin);
    ClassWordNoSpaces(c.id, if c.kind == Profile then NameChars else IdChars);
    if c.kind == Story {
      ClassWordNoSpaces(c.username.value, NameChars);
      NoSpacesAppend(StoriesTag, c.username.value);
      NoSpacesAppend(StoriesTag + c.username.value, "/");
      NoSpacesAppend(StoriesTag + c.username.value + "/", c.id);
      NoSpacesAppend(StoriesTag + c.username.value + "/" + c.id, "/");
    } else {
      var tag := match c.kind
        case Post => "/p/"
        case Reel => "/reel/"
        case Tv => "/tv/"
        case _ => "/";
      NoSpacesAppend(tag, c.id);
      NoSpacesAppend(tag + c.id, "/");
      assert path == tag + c.id + "/";
    }
    NoSpacesAppend(CanonicalOrigin, path);
  }

  predicate NoSpaces(s: string) {
    forall j :: 0 <= j < |s| ==> !JsValues.IsSpace(s[j])
  }

  lemma ClassWordNoSpaces(w: string, k: CharClass)
    requires AllInClass(w, k)
    ensures NoSpaces(w)
  {
  }

  lemma NoSpacesAppend(a: string, b: string)
    requires NoSpaces(a) && NoSpaces(b)
    ensures NoSpaces(a + b)
  {
    forall j | 0 <= j < |a + b| ensures !JsValues.IsSpace((a + b)[j]) {
      if j < |a| { assert (a + b)[j] == a[j]; } else { assert (a + b)[j] == b[j - |a|]; }
    }
  }
}

=== FILE: js_value.dfy ===
/** JavaScript values as the front end's utilities see them: the dynamic
    shapes that `sanitizeData`, `String(value)` and the filter record deal
    with. Numbers are integers (the modelled code never produces a fraction);
    `NaN` is kept apart because `parseInt` can produce it. */
module JsValues {
  import opened Common

  datatype JsValue =
    | Undefined
    | Null
    | Bool(b: bool)
    | Num(n: int)
    | NaN
    | Str(s: string)
    | Arr(items: seq<JsValue>)
    | Obj(fields: seq<Field>)

  /** One own enumerable property, in `Object.entries` order. */
  datatype Field = Field(key: string, value: JsValue)

  /** JavaScript truthiness. */
  predicate Truthy(v: JsValue) {
    match v
    case Undefined => false
    case Null => false
    case Bool(b) => b
    case Num(n) => n != 0
    case NaN => false
    case Str(s) => s != ""
    case Arr(_) => true
    case Obj(_) => true
  }

  /** `typeof v === 'object'`, which includes `null` and arrays. */
  predicate IsObjectType(v: JsValue) {
    v.Null? || v.Arr? || v.Obj?
  }

  /** `String(v)` */
  function ToJsString(v: JsValue): string
    decreases v
  {
    match v
    case Undefined => "undefined"
    case Null => "null"
    case Bool(b) => if b then "true" else "false"
    case Num(n) => IntToString(n)
    case NaN => "NaN"
    case Str(s) => s
    case Arr(items) => JoinItems(items)
    case Obj(_) => "[object Object]"
  }

  /** `Array.prototype.join(",")`, where null and undefined print as "". */
  function JoinItems(items: seq<JsValue>): string
    decreases items
  {
    if items == [] then ""
    else
      var head := if items[0].Null? || items[0].Undefined? then "" else ToJsString(items[0]);
      if |items| == 1 then head else head + "," + JoinItems(items[1..])
  }

  /** The property `key` of an object (`obj?.key`); `undefined` when absent
      or when `v` is not an object. The first matching entry wins, as keys
      of a JavaScript object are unique. */
  function Get(v: JsValue, key: string): (r: JsValue)
    ensures !v.Obj? ==> r == Undefined
  {
    if v.Obj? then Lookup(v.fields, key) else Undefined
  }

  function Lookup(fields: seq<Field>, key: string): (r: JsValue)
    ensures (forall i :: 0 <= i < |fields| ==> fields[i].key != key) ==> r == Undefined
    ensures forall i :: (0 <= i < |fields| && fields[i].key == key &&
              (forall j :: 0 <= j < i ==> fields[j].key != key)) ==> r == fields[i].value
  {
    if fields == [] then Undefined
    else if fields[0].key == key then fields[0].value
    else Lookup(fields[1..], key)
  }

  /** JavaScript white space and line terminators: the class `\s` of
      regular expressions, and what `trim` and `parseInt` skip. */
  predicate IsSpace(c: char) {
    || c == ' ' || c == '\t' || c == '\n' || c == '\r' || c == '\U{000B}' || c == '\U{000C}'
    || c == '\U{00A0}' || c == '\U{1680}' || ('\U{2000}' <= c <= '\U{200A}')
    || c == '\U{2028}' || c == '\U{2029}' || c == '\U{202F}' || c == '\U{205F}'
    || c == '\U{3000}' || c == '\U{FEFF}'
  }

  predicate IsDigit(c: char) {
    '0' <= c <= '9'
  }

  /** Length of the longest prefix of `s` made of decimal digits. */
  function DigitRun(s: string): (k: nat)
    ensures k <= |s|
    ensures forall i :: 0 <= i < k ==> IsDigit(s[i])
    ensures k < |s| ==> !IsDigit(s[k])
  {
    if s == [] || !IsDigit(s[0]) then 0 else 1 + DigitRun(s[1..])
  }

  /** `parseInt(s)` for decimal input: leading white space is skipped, one
      sign is accepted, and the longest run of digits is read; with no
      digit the result is `NaN`. */
  function ParseInt(s: string): (r: JsValue)
    ensures r.Num? || r.NaN?
    ensures s == [] ==> r == NaN
    ensures s != [] && IsDigit(s[0]) ==> r.Num? && r.n >= 0
    ensures s != [] && !IsSpace(s[0]) && !IsDigit(s[0]) && s[0] != '-' && s[0] != '+' ==> r == NaN
    decreases |s|
  {
    if s != [] && IsSpace(s[0]) then ParseInt(s[1..])
    else
      var negative := s != [] && s[0] == '-';
      var rest := if s != [] && (s[0] == '-' || s[0] == '+') then s[1..] else s;
      var k := DigitRun(rest);
      if k == 0 then NaN
      else
        var magnitude: int := DecimalValue(rest[..k]);
        Num(if negative then -magnitude else magnitude)
  }

  /** `parseInt` reads back what `String` writes for every integer. */
  lemma ParseIntOfIntToString(n: int)
    ensures ParseInt(IntToString(n)) == Num(n)
  {
    var s := IntToString(n);
    var digits := NatToString(if n < 0 then -n else n);
    assert s != [] && !IsSpace(s[0]) by {
      if n >= 0 { assert '0' <= s[0] <= '9'; }
    }
    var rest := if s[0] == '-' || s[0] == '+' then s[1..] else s;
    assert rest == digits by {
      if n < 0 { assert s == "-" + digits; } else { assert s == digits; }
    }
    DigitRunAll(digits);
    assert digits[..|digits|] == digits;
    NatToStringRoundTrip(if n < 0 then -n else n);
  }

  lemma DigitRunAll(s: string)
    requires forall i :: 0 <= i < |s| ==> IsDigit(s[i])
    ensures DigitRun(s) == |s|
  {
    if s != [] {
      DigitRunAll(s[1..]);
    }
  }
}

=== FILE: oauth_state.dfy ===
/** CSRF protection for the OAuth redirect: a random state string is
    generated from 32 random bytes, stored in session storage with the time
    it was made, and consumed by the callback, which accepts it only within
    ten minutes and only if it matches what the provider sent back (when
    the provider sends anything). The random bytes and the clock are
    parameters. */
module OAuthState {
  import opened Common

  newtype Byte = x: int | 0 <= x < 256

  const StateKey: string := "oauth_state"
  const StateExpiryMs: int := 10 * 60 * 1000
  const StateBytes: nat := 32

  // ---------------------------------------------------------------------
  // Generation

  /** `byte.toString(16)`: lower-case hexadecimal without leading zeros. */
  function ToHex(b: Byte): (s: string)
    ensures 1 <= |s| <= 2
  {
    if b < 16 then [HexDigit(b as nat)] else [HexDigit(b as nat / 16), HexDigit(b as nat % 16)]
  }

  /** `s.padStart(2, "0")` for a string of at most two characters. */
  function PadStart2(s: string): (r: string)
    requires |s| <= 2
    ensures |r| == 2
  {
    if |s| < 2 then seq(2 - |s|, _ => '0') + s else s
  }

  /** The two characters a byte contributes to the state. */
  function ByteHex(b: Byte): (s: string)
    ensures |s| == 2 && IsHexDigit(s[0]) && IsHexDigit(s[1])
    ensures HexValue(s[0]) * 16 + HexValue(s[1]) == b as int
  {
    var s := PadStart2(ToHex(b));
    assert s == [HexDigit(b as nat / 16), HexDigit(b as nat % 16)] by {
      if b < 16 { assert HexDigit(0) == '0'; }
    }
    HexDigitInverse(b as nat / 16);
    HexDigitInverse(b as nat % 16);
    s
  }

  /** The hexadecimal encoding of a byte sequence, two characters per byte. */
  function HexEncode(bytes: seq<Byte>): (s: string)
    ensures |s| == 2 * |bytes|
    ensures forall i :: 0 <= i < |s| ==> IsHexDigit(s[i])
  {
    if bytes == [] then [] else ByteHex(bytes[0]) + HexEncode(bytes[1..])
  }

  /** Reads a string of hexadecimal digit pairs back into bytes: the
      reference the encoding is checked against. */
  function HexDecode(s: string): (bytes: seq<Byte>)
    requires |s| % 2 == 0
    requires forall i :: 0 <= i < |s| ==> IsHexDigit(s[i])
  {
    if s == [] then []
    else [(HexValue(s[0]) * 16 + HexValue(s[1])) as Byte] + HexDecode(s[2..])
  }

  /** `generateOAuthState()` for the bytes the random source produced. */
  function GenerateOAuthState(random: seq<Byte>): (s: string)
    requires |random| == StateBytes
    ensures |s| == 64
    ensures forall i :: 0 <= i < |s| ==> IsHexDigit(s[i])
  {
    HexEncode(random)
  }

  /** Decoding gives back the random bytes: no two byte sequences share a
      state, so the state keeps all 256 bits of randomness. */
  lemma {:induction false} HexRoundTrip(bytes: seq<Byte>)
    ensures HexDecode(HexEncode(bytes)) == bytes
  {
    if bytes != [] {
      var s := HexEncode(bytes);
      var h := ByteHex(bytes[0]);
      assert s == h + HexEncode(bytes[1..]);
      assert s[2..] == HexEncode(bytes[1..]);
      HexRoundTrip(bytes[1..]);
    }
  }

  lemma GenerateOAuthStateInjective(a: seq<Byte>, b: seq<Byte>)
    requires |a| == StateBytes && |b| == StateBytes
    requires GenerateOAuthState(a) == GenerateOAuthState(b)
    ensures a == b
  {
    HexRoundTrip(a);
    HexRoundTrip(b);
  }

  // ---------------------------------------------------------------------
  // Storage and validation

  /** What session storage holds under the state key, as the validator
      reads it. `Unreadable` is text on which the validator throws: empty
      text, text that is not JSON, and JSON `null`, whose properties cannot
      be read. Any other JSON value is an `Entry`: `state` is its "state"
      property when that is a string (any other value differs from every
      received string), and `timestamp` is its "timestamp" property
      converted to a number, `None` when that gives `NaN` (a missing
      property, an object, a non-numeric string). `storeOAuthState` writes
      an entry with both. */
  datatype Stored =
    | Entry(state: Option<string>, timestamp: Option<int>)
    | Unreadable(raw: string)

  /** `storeOAuthState(state)` at instant `now`: the new contents of the slot. */
  function StoreOAuthState(state: string, now: int): (slot: Option<Stored>)
    ensures slot == Some(Entry(Some(state), Some(now)))
  {
    Some(Entry(Some(state), Some(now)))
  }

  /** `Date.now() - timestamp > STATE_EXPIRY_MS`: a `NaN` difference
      compares false, so an entry without a numeric timestamp never
      expires. */
  predicate IsExpired(timestamp: Option<int>, now: int) {
    timestamp.Some? && now - timestamp.value > StateExpiryMs
  }

  /** `validateAndConsumeOAuthState(received)` at instant `now`: the verdict
      and the slot afterwards. `received` is `None` for both `null` and
      `undefined`. */
  function ValidateAndConsume(slot: Option<Stored>, received: Option<string>, now: int): (r: (bool, Option<Stored>))
    ensures r.1.None?
    ensures r.0 ==> slot.Some? && slot.value.Entry?
  {
    var verdict :=
      match slot
      case None => false
      case Some(Unreadable(_)) => false
      case Some(Entry(state, timestamp)) =>
        if IsExpired(timestamp, now) then false
        else if received.Some? && Some(received.value) != state then false
        else true;
    (verdict, None)
  }

  /** `clearOAuthState()` */
  function ClearOAuthState(slot: Option<Stored>): (r: Option<Stored>)
    ensures r.None?
  {
    None
  }

  /** The callback accepts exactly a readable entry that is at most ten
      minutes old or has no numeric timestamp, and whose state is the one
      received, if one was received. */
  lemma ValidateIff(slot: Option<Stored>, received: Option<string>, now: int)
    ensures ValidateAndConsume(slot, received, now).0 <==>
      slot.Some? && slot.value.Entry? &&
      (slot.value.timestamp.None? || now - slot.value.timestamp.value <= 600000) &&
      (received.None? || slot.value.state == received)
  {
  }

  /** An entry without a numeric timestamp never expires: `{}` in the slot
      is accepted at any instant when no state is received, and so is
      `{"state": s}` when `s` is received. */
  lemma TimestamplessEntryNeverExpires(state: Option<string>, received: Option<string>, now: int)
    requires received.None? || received == state
    ensures ValidateAndConsume(Some(Entry(state, None)), received, now).0
    ensures ValidateAndConsume(Some(Entry(None, None)), None, now).0
  {
  }

  /** Storing a state and validating it (or nothing) within ten minutes
      succeeds; exactly ten minutes still counts, one millisecond more does
      not. */
  lemma StoreThenValidate(state: string, t0: int, t1: int)
    requires 0 <= t1 - t0 <= 600000
    ensures ValidateAndConsume(StoreOAuthState(state, t0), Some(state), t1).0
    ensures ValidateAndConsume(StoreOAuthState(state, t0), None, t1).0
    ensures !ValidateAndConsume(StoreOAuthState(state, t0), Some(state), t0 + 600001).0
  {
  }

  /** A state is good for one callback: after any validation the slot is
      empty, so a replay of the same callback fails. */
  lemma ConsumeOnce(slot: Option<Stored>, received: Option<string>, now: int, later: int)
    ensures var (_, after) := ValidateAndConsume(slot, received, now);
      !ValidateAndConsume(after, received, later).0
  {
  }

  /** A received state that differs from the stored one is refused, however
      fresh. */
  lemma MismatchRefused(state: string, other: string, t0: int, t1: int)
    requires other != state
    ensures !ValidateAndConsume(StoreOAuthState(state, t0), Some(other), t1).0
  {
  }
}

=== FILE: posts_api.dfy ===
/** The post-scraping and essence-feed calls, which never reject: a failed
    request is turned into a `success: false` response whose error says
    what the backend said, or that the network failed. The request outcome
    is a parameter. */
module PostsApi {
  import opened Common

  const ScrapePath: string := "/v1/posts/scrape"
  const FeedPath: string := "/v1/posts/essence-feed"
  const FeedSort: string := "&sortBy=created_at&sortOrder=desc"

  const ApiErrorCode: string := "API_ERROR"
  const NetworkErrorCode: string := "NETWORK_ERROR"
  const NetworkErrorMessage: string := "Network error. Please check your connection and try again."
  const ScrapeFailedMessage: string := "Failed to scrape Instagram post"
  const FeedFailedMessage: string := "Failed to fetch essence feed"

  const DefaultPage: int := 1
  const DefaultLimit: int := 10

  /** The `error` object of a backend error body. */
  datatype BackendError = BackendError(code: Option<string>, message: Option<string>)

  /** A backend error body, `error.response.data`. */
  datatype ErrorBody = ErrorBody(error: Option<BackendError>, message: Option<string>)

  /** A rejected request: with a response, whose body is `None` when it is
      absent or falsy, or without one. */
  datatype RequestError = WithResponse(status: int, data: Option<ErrorBody>) | WithoutResponse

  /** The `error` field of a `success: false` response. */
  datatype ErrorInfo = ErrorInfo(code: string, message: string, statusCode: int)

  /** The mapping both calls apply to a rejected request; `fallback` is the
      call's own default message. */
  function NormalizeError(e: RequestError, fallback: string): (r: ErrorInfo)
    ensures !(e.WithResponse? && e.data.Some?) ==> r == ErrorInfo(NetworkErrorCode, NetworkErrorMessage, 0)
    ensures e.WithResponse? && e.data.Some? ==> r.statusCode == e.status
    ensures r.code != "" && (fallback != "" ==> r.message != "")
  {
    if e.WithResponse? && e.data.Some? then
      var body := e.data.value;
      var code := if body.error.Some? then body.error.value.code else None;
      var message := if body.error.Some? then body.error.value.message else None;
      ErrorInfo(OrDefault(code, ApiErrorCode), OrDefault(OrElse(message, body.message), fallback), e.status)
    else ErrorInfo(NetworkErrorCode, NetworkErrorMessage, 0)
  }

  /** What `scrapeInstagramPost` resolves with: the backend's body verbatim,
      or a local `success: false` response. */
  datatype ScrapeResponse<T> = ScrapeBody(body: T) | ScrapeFailure(error: ErrorInfo)

  /** `scrapeInstagramPost(url)`, given how its POST went. */
  function ScrapeInstagramPost<T>(outcome: Result<T, RequestError>): (r: ScrapeResponse<T>)
    ensures outcome.Ok? <==> r.ScrapeBody?
    ensures outcome.Ok? ==> r.body == outcome.value
  {
    match outcome
    case Ok(body) => ScrapeBody(body)
    case Err(e) => ScrapeFailure(NormalizeError(e, ScrapeFailedMessage))
  }

  /** What `getEssenceFeed` resolves with: the backend's body verbatim, or
      a local `success: false` response with a list of posts. */
  datatype FeedResponse<T, P> = FeedBody(body: T) | FeedFailure(data: seq<P>, error: ErrorInfo)

  /** The path `getEssenceFeed(page, limit)` requests; an omitted argument
      takes its default. */
  function EssenceFeedUrl(page: Option<int>, limit: Option<int>): (url: string)
    ensures StartsWith(url, FeedPath + "?page=")
  {
    var url := FeedPath + "?page=" + IntToString(page.GetOr(DefaultPage)) +
      "&limit=" + IntToString(limit.GetOr(DefaultLimit)) + FeedSort;
    assert url[..|FeedPath + "?page="|] == FeedPath + "?page=";
    url
  }

  /** `getEssenceFeed(page, limit)`, given how its GET went. */
  function GetEssenceFeed<T, P>(outcome: Result<T, RequestError>): (r: FeedResponse<T, P>)
    ensures outcome.Ok? <==> r.FeedBody?
    ensures outcome.Ok? ==> r.body == outcome.value
    ensures r.FeedFailure? ==> r.data == []
  {
    match outcome
    case Ok(body) => FeedBody(body)
    case Err(e) => FeedFailure([], NormalizeError(e, FeedFailedMessage))
  }

  // ---------------------------------------------------------------------
  // Properties

  /** With a backend body the error code is the backend's code unless it is
      empty, the message is the first non-empty one of the backend error's
      message and the body's message, and the status code is the HTTP
      status; without one, the network error with status code 0. */
  lemma NormalizeErrorChain(e: RequestError, fallback: string)
    ensures e.WithResponse? && e.data.Some? ==>
      var body := e.data.value;
      var err := body.error.GetOr(BackendError(None, None));
      NormalizeError(e, fallback) ==
        ErrorInfo(FirstPresent([err.code], ApiErrorCode),
                  FirstPresent([err.message, body.message], fallback),
                  e.status)
    ensures e.WithoutResponse? || e.data.None? ==>
      NormalizeError(e, fallback) == ErrorInfo(NetworkErrorCode, NetworkErrorMessage, 0)
  {
    if e.WithResponse? && e.data.Some? {
      var body := e.data.value;
      var err := body.error.GetOr(BackendError(None, None));
      var c := [err.message, body.message];
      assert c[1..][1..] == [];
      assert FirstPresent(c[1..], fallback) == OrDefault(body.message, fallback);
      assert [err.code][1..] == [];
    }
  }

  /** A response without a body counts as a network failure even though the
      server answered: its status is lost. */
  lemma BodilessResponseIsNetworkError(status: int, fallback: string)
    ensures NormalizeError(WithResponse(status, None), fallback).statusCode == 0
    ensures NormalizeError(WithResponse(status, None), fallback).code == NetworkErrorCode
  {
  }

  /** Both calls resolve on every failure, with the same mapping apart from
      the default message, and the feed's failure carries no posts. */
  lemma FailuresResolve<T, P>(e: RequestError)
    ensures ScrapeInstagramPost<T>(Err(e)) == ScrapeFailure(NormalizeError(e, ScrapeFailedMessage))
    ensures GetEssenceFeed<T, P>(Err(e)) == FeedFailure([], NormalizeError(e, FeedFailedMessage))
    ensures NormalizeError(e, ScrapeFailedMessage).code == NormalizeError(e, FeedFailedMessage).code
    ensures NormalizeError(e, ScrapeFailedMessage).statusCode == NormalizeError(e, FeedFailedMessage).statusCode
  {
  }

  /** The defaults are page 1 and ten posts, newest first. */
  lemma FeedDefaults()
    ensures EssenceFeedUrl(None, None) == EssenceFeedUrl(Some(1), Some(10))
    ensures EssenceFeedUrl(None, None) == FeedPath + "?page=" + "1" + "&limit=" + "10" + FeedSort
  {
    assert IntToString(1) == "1";
    assert IntToString(10) == "10" by {
      assert NatToString(10) == NatToString(1) + [DigitChar(0)];
    }
  }

  /** The URL carries the page and limit asked for, 1 and 10 when absent:
      two calls request the same URL exactly when they ask for the same
      page and limit once the defaults are applied. */
  lemma EssenceFeedUrlCarriesParams(page1: Option<int>, limit1: Option<int>, page2: Option<int>, limit2: Option<int>)
    ensures EssenceFeedUrl(page1, limit1) == EssenceFeedUrl(page2, limit2) <==>
      page1.GetOr(DefaultPage) == page2.GetOr(DefaultPage) && limit1.GetOr(DefaultLimit) == limit2.GetOr(DefaultLimit)
  {
    if EssenceFeedUrl(page1, limit1) == EssenceFeedUrl(page2, limit2) {
      var p1, p2 := page1.GetOr(DefaultPage), page2.GetOr(DefaultPage);
      var l1, l2 := limit1.GetOr(DefaultLimit), limit2.GetOr(DefaultLimit);
      IntToStringChars(p1);
      IntToStringChars(p2);
      SplitFeedUrl(IntToString(p1), IntToString(l1), IntToString(p2), IntToString(l2));
      IntToStringInjective(p1, p2);
      IntToStringInjective(l1, l2);
    }
  }

  /** A page number holds no '&', so the feed URL splits back into its
      page and limit texts. */
  lemma SplitFeedUrl(a1: string, b1: string, a2: string, b2: string)
    requires forall i :: 0 <= i < |a1| ==> a1[i] == '-' || '0' <= a1[i] <= '9'
    requires forall i :: 0 <= i < |a2| ==> a2[i] == '-' || '0' <= a2[i] <= '9'
    requires FeedPath + "?page=" + a1 + "&limit=" + b1 + FeedSort == FeedPath + "?page=" + a2 + "&limit=" + b2 + FeedSort
    ensures a1 == a2 && b1 == b2
  {
    var prefix := FeedPath + "?page=";
    var r1, r2 := "&limit=" + (b1 + FeedSort), "&limit=" + (b2 + FeedSort);
    assert prefix + a1 + "&limit=" + b1 + FeedSort == prefix + (a1 + r1);
    assert prefix + a2 + "&limit=" + b2 + FeedSort == prefix + (a2 + r2);
    PrefixCancel(prefix, a1 + r1, a2 + r2);
    SplitAtAmp(a1, r1, a2, r2);
    PrefixCancel("&limit=", b1 + FeedSort, b2 + FeedSort);
    SuffixCancel(b1, b2, FeedSort);
  }

  lemma PrefixCancel(z: string, x: string, y: string)
    requires z + x == z + y
    ensures x == y
  {
    assert x == (z + x)[|z|..];
    assert y == (z + y)[|z|..];
  }

  lemma SuffixCancel(x: string, y: string, z: string)
    requires x + z == y + z
    ensures x == y
  {
    assert x == (x + z)[..|x|];
    assert y == (y + z)[..|y|];
  }

  /** Two texts without '&', each followed by a text starting with '&'. */
  lemma SplitAtAmp(a1: string, r1: string, a2: string, r2: string)
    requires forall i :: 0 <= i < |a1| ==> a1[i] != '&'
    requires forall i :: 0 <= i < |a2| ==> a2[i] != '&'
    requires r1 != [] && r1[0] == '&' && r2 != [] && r2[0] == '&'
    requires a1 + r1 == a2 + r2
    ensures a1 == a2 && r1 == r2
  {
    var u := a1 + r1;
    assert u[|a1|] == '&' && forall i :: 0 <= i < |a1| ==> u[i] == a1[i];
    assert u[|a2|] == '&' && forall i :: 0 <= i < |a2| ==> u[i] == a2[i];
    assert |a1| == |a2|;
    assert a1 == u[..|a1|] && a2 == (a2 + r2)[..|a2|];
    assert r1 == u[|a1|..] && r2 == (a2 + r2)[|a2|..];
  }
}

=== FILE: posts_feed.dfy ===
/** The posts page: the filter record it queries with, the handlers that
    change it, and the row of page-number buttons under the list. */
module PostsFeed {
  import opened Common
  import opened JsValues
  import PostsFilters
  import PostsQuery

  /** The record the page starts from and returns to on reset. */
  const InitialFilters: seq<Field> := [
    Field("page", Num(1)),
    Field("limit", Num(10)),
    Field("sortBy", Str("created_at")),
    Field("sortOrder", Str("desc"))
  ]

  /** `handleFiltersChange(newFilters)`: the sidebar's record, back on the
      first page. */
  function HandleFiltersChange(newFilters: seq<Field>): (r: seq<Field>)
    ensures Lookup(r, PostsFilters.PageKey) == Num(1)
    ensures forall k :: k != PostsFilters.PageKey ==> Lookup(r, k) == Lookup(newFilters, k)
  {
    PostsFilters.WithKey(newFilters, PostsFilters.PageKey, Num(1))
  }

  /** `handleResetFilters()` */
  function HandleResetFilters(): (r: seq<Field>)
    ensures PostsFilters.DistinctKeys(r)
    ensures Lookup(r, PostsFilters.PageKey) == Num(1)
  {
    InitialFilters
  }

  /** `handlePageChange(newPage)`: the same record on another page. */
  function HandlePageChange(filters: seq<Field>, newPage: int): (r: seq<Field>)
    ensures Lookup(r, PostsFilters.PageKey) == Num(newPage)
    ensures forall k :: k != PostsFilters.PageKey ==> Lookup(r, k) == Lookup(filters, k)
  {
    PostsFilters.WithKey(filters, PostsFilters.PageKey, Num(newPage))
  }

  // ---------------------------------------------------------------------
  // Handler properties

  /** Changing the filters or the page keeps the record's keys distinct,
      adds no key but the page, and leaves the badge count alone: the page
      never counts. */
  lemma HandlersKeepRecordShape(filters: seq<Field>, newPage: int)
    requires PostsFilters.DistinctKeys(filters)
    ensures PostsFilters.DistinctKeys(HandleFiltersChange(filters))
    ensures PostsFilters.DistinctKeys(HandlePageChange(filters, newPage))
    ensures PostsFilters.ActiveFilterCount(HandleFiltersChange(filters)) == PostsFilters.ActiveFilterCount(filters)
    ensures PostsFilters.ActiveFilterCount(HandlePageChange(filters, newPage)) == PostsFilters.ActiveFilterCount(filters)
    ensures forall k :: PostsFilters.HasKey(HandlePageChange(filters, newPage), k) <==>
      PostsFilters.HasKey(filters, k) || k == PostsFilters.PageKey
  {
    PostsFilters.WithKeyDistinct(filters, PostsFilters.PageKey, Num(1));
    PostsFilters.WithKeyDistinct(filters, PostsFilters.PageKey, Num(newPage));
    PostsFilters.CountAfterWithKey(filters, PostsFilters.PageKey, Num(1));
    PostsFilters.CountAfterWithKey(filters, PostsFilters.PageKey, Num(newPage));
    forall k ensures PostsFilters.HasKey(HandlePageChange(filters, newPage), k) <==>
      PostsFilters.HasKey(filters, k) || k == PostsFilters.PageKey
    {
      PostsFilters.WithKeyKeys(filters, PostsFilters.PageKey, Num(newPage), k);
    }
  }

  /** Going to a page and then to another is going straight to the second;
      going back to the page the record was on gives the record back. */
  lemma {:induction false} PageChangeOverwrites(filters: seq<Field>, p: int, q: int)
    ensures HandlePageChange(HandlePageChange(filters, p), q) == HandlePageChange(filters, q)
    ensures Lookup(filters, PostsFilters.PageKey) == Num(p) && PostsFilters.DistinctKeys(filters) ==>
      HandlePageChange(filters, p) == filters
  {
    WithKeyTwice(filters, PostsFilters.PageKey, Num(p), Num(q));
    if Lookup(filters, PostsFilters.PageKey) == Num(p) && PostsFilters.DistinctKeys(filters) {
      WithKeyCurrent(filters, PostsFilters.PageKey);
    }
  }

  lemma {:induction false} WithKeyTwice(fields: seq<Field>, key: string, v: JsValue, w: JsValue)
    ensures PostsFilters.WithKey(PostsFilters.WithKey(fields, key, v), key, w) == PostsFilters.WithKey(fields, key, w)
  {
    if fields != [] && fields[0].key != key {
      var once := PostsFilters.WithKey(fields, key, v);
      assert once == [fields[0]] + PostsFilters.WithKey(fields[1..], key, v);
      assert once[1..] == PostsFilters.WithKey(fields[1..], key, v);
      WithKeyTwice(fields[1..], key, v, w);
    } else if fields != [] {
      var once := PostsFilters.WithKey(fields, key, v);
      assert once[1..] == fields[1..];
    } else {
      assert [Field(key, v)][1..] == [];
    }
  }

  /** Writing the value a key already has, in a record with distinct keys,
      changes nothing. */
  lemma {:induction false} WithKeyCurrent(fields: seq<Field>, key: string)
    requires PostsFilters.DistinctKeys(fields)
    requires PostsFilters.HasKey(fields, key)
    ensures PostsFilters.WithKey(fields, key, Lookup(fields, key)) == fields
  {
    PostsFilters.HasKeyCons(fields, key);
    if fields[0].key != key {
      PostsFilters.DistinctTail(fields);
      WithKeyCurrent(fields[1..], key);
      assert fields == [fields[0]] + fields[1..];
    } else {
      assert fields == [fields[0]] + fields[1..];
    }
  }

  /** Reset returns exactly the starting record, whatever came before; it
      asks for the first page of ten, newest first, and shows two active
      filters in the badge (the sort field and the sort order). */
  lemma ResetRestoresInitial()
    ensures HandleResetFilters() == InitialFilters
    ensures PostsQuery.QueryParams(HandleResetFilters()) ==
      [("page", "1"), ("limit", "10"), ("sortBy", "created_at"), ("sortOrder", "desc")]
    ensures PostsFilters.ActiveFilterCount(HandleResetFilters()) == 2
  {
    ResetQueryParams();
    ResetBadge();
  }

  lemma ResetQueryParams()
    ensures PostsQuery.QueryParams(InitialFilters) ==
      [("page", "1"), ("limit", "10"), ("sortBy", "created_at"), ("sortOrder", "desc")]
  {
    var f := InitialFilters;
    QueryParamsOfFour(f);
    InitialParams();
  }

  /** A four-entry record's parameters are its entries' parameters in order. */
  lemma QueryParamsOfFour(f: seq<Field>)
    requires |f| == 4
    ensures PostsQuery.QueryParams(f) ==
      PostsQuery.Param(f[0]) + PostsQuery.Param(f[1]) + PostsQuery.Param(f[2]) + PostsQuery.Param(f[3])
  {
    var t1 := f[1..];
    var t2 := t1[1..];
    var t3 := t2[1..];
    assert t3[1..] == [];
    assert PostsQuery.QueryParams(t3) == PostsQuery.Param(f[3]);
    assert PostsQuery.QueryParams(t2) == PostsQuery.Param(f[2]) + PostsQuery.Param(f[3]);
    assert PostsQuery.QueryParams(t1) == PostsQuery.Param(f[1]) + (PostsQuery.Param(f[2]) + PostsQuery.Param(f[3]));
  }

  lemma InitialParams()
    ensures PostsQuery.Param(InitialFilters[0]) == [("page", "1")]
    ensures PostsQuery.Param(InitialFilters[1]) == [("limit", "10")]
    ensures PostsQuery.Param(InitialFilters[2]) == [("sortBy", "created_at")]
    ensures PostsQuery.Param(InitialFilters[3]) == [("sortOrder", "desc")]
  {
    assert IntToString(10) == "10" by {
      assert NatToString(10) == NatToString(1) + [DigitChar(0)];
    }
  }

  lemma ResetBadge()
    ensures PostsFilters.ActiveFilterCount(InitialFilters) == 2
  {
    var f := InitialFilters;
    assert f == [f[0]] + ([f[1]] + ([f[2]] + [f[3]]));
    PostsFilters.ActiveFilterCountAppend([f[0]], [f[1]] + ([f[2]] + [f[3]]));
    PostsFilters.ActiveFilterCountAppend([f[1]], [f[2]] + [f[3]]);
    PostsFilters.ActiveFilterCountAppend([f[2]], [f[3]]);
    assert [f[0]][1..] == [] && [f[1]][1..] == [] && [f[2]][1..] == [] && [f[3]][1..] == [];
  }

  // ---------------------------------------------------------------------
  // Page-number buttons

  /** The buttons of positions `i` up to `n - 1` as the page writes them:
      position `i` shows `current - 2 + i`, or `i + 1` when that is below
      1, and nothing when it is past the last page. */
  function WindowFrom(current: int, total: int, i: nat, n: nat): (r: seq<int>)
    requires n <= total
    ensures |r| <= n - i || i > n
    ensures forall k :: 0 <= k < |r| ==> 1 <= r[k] <= total
    decreases n - i
  {
    if i >= n then []
    else
      var p := current - 2 + i;
      var p := if p < 1 then i + 1 else p;
      (if p > total then [] else [p]) + WindowFrom(current, total, i + 1, n)
  }

  /** The page numbers on the buttons, in order, as written; none are drawn
      unless there is more than one page. */
  function PageWindowAsWritten(current: int, total: int): (r: seq<int>)
    ensures total <= 1 ==> r == []
    ensures |r| <= 5 && |r| <= if total < 0 then 0 else total
    ensures forall k :: 0 <= k < |r| ==> 1 <= r[k] <= total
  {
    if total <= 1 then [] else WindowFrom(current, total, 0, if total < 5 then total else 5)
  }

  /** Away from both ends the buttons are the current page and two on
      either side, as intended. */
  lemma PageWindowAsWrittenMiddle(current: int, total: int)
    requires 3 <= current && current + 2 <= total
    ensures PageWindowAsWritten(current, total) ==
      [current - 2, current - 1, current, current + 1, current + 2]
  {
    var w := WindowFrom(current, total, 0, 5);
    assert WindowFrom(current, total, 5, 5) == [];
    assert WindowFrom(current, total, 4, 5) == [current + 2];
    assert WindowFrom(current, total, 3, 5) == [current + 1, current + 2];
    assert WindowFrom(current, total, 2, 5) == [current, current + 1, current + 2];
    assert WindowFrom(current, total, 1, 5) == [current - 1, current, current + 1, current + 2];
  }

  /** Near the first page the numbers repeat and the current page can be
      missing: page 2 of 2 shows "1 1", and page 1 of 10 shows "1 2 1 2 3". */
  lemma PageWindowAsWrittenRepeats()
    ensures PageWindowAsWritten(2, 2) == [1, 1]
    ensures 2 !in PageWindowAsWritten(2, 2)
    ensures PageWindowAsWritten(1, 10) == [1, 2, 1, 2, 3]
  {
    assert WindowFrom(2, 2, 1, 2) == [1];
    assert WindowFrom(1, 10, 4, 5) == [3];
    assert WindowFrom(1, 10, 3, 5) == [2, 3];
    assert WindowFrom(1, 10, 2, 5) == [1, 2, 3];
    assert WindowFrom(1, 10, 1, 5) == [2, 1, 2, 3];
  }

  /** The window the buttons are meant to show: up to five consecutive
      pages around the current one, slid inwards at either end. */
  function PageWindowIntended(current: int, total: int): (r: seq<int>)
    ensures total <= 1 ==> r == []
    ensures total > 1 ==> |r| == Min(5, total)
  {
    if total <= 1 then []
    else
      var width := if total < 5 then total else 5;
      var start := Max(1, Min(current - 2, total - width + 1));
      seq(width, i => start + i)
  }

  function Min(a: int, b: int): int { if a < b then a else b }
  function Max(a: int, b: int): int { if a < b then b else a }

  /** The intended window has min(5, total) buttons, in increasing order
      without repeats, all real pages, the current one among them; away from
      the ends it is the current page and two on either side, where it
      agrees with the page as written. */
  lemma PageWindowIntendedProperties(current: int, total: int)
    requires total > 1
    ensures var r := PageWindowIntended(current, total);
      |r| == (if total < 5 then total else 5) &&
      (forall k :: 0 <= k < |r| - 1 ==> r[k] + 1 == r[k + 1]) &&
      (forall k :: 0 <= k < |r| ==> 1 <= r[k] <= total) &&
      (1 <= current <= total ==> current in r)
    ensures 3 <= current && current + 2 <= total ==>
      PageWindowIntended(current, total) == PageWindowAsWritten(current, total)
  {
    PageWindowIntendedShape(current, total);
    if 3 <= current && current + 2 <= total {
      PageWindowIntendedMiddle(current, total);
    }
  }

  lemma PageWindowIntendedShape(current: int, total: int)
    requires total > 1
    ensures var r := PageWindowIntended(current, total);
      |r| == (if total < 5 then total else 5) &&
      (forall k :: 0 <= k < |r| - 1 ==> r[k] + 1 == r[k + 1]) &&
      (forall k :: 0 <= k < |r| ==> 1 <= r[k] <= total) &&
      (1 <= current <= total ==> current in r)
  {
    var r := PageWindowIntended(current, total);
    var width := if total < 5 then total else 5;
    var start := Max(1, Min(current - 2, total - width + 1));
    if 1 <= current <= total {
      assert r[current - start] == current;
    }
  }

  lemma PageWindowIntendedMiddle(current: int, total: int)
    requires 3 <= current && current + 2 <= total
    ensures PageWindowIntended(current, total) == PageWindowAsWritten(current, total)
  {
    PageWindowAsWrittenMiddle(current, total);
    var r := PageWindowIntended(current, total);
    assert |r| == 5 && r[0] == current - 2;
  }
}

=== FILE: posts_filters.dfy ===
/** The filter sidebar of the posts page: a filter record is a list of
    entries in insertion order, as JavaScript objects keep their keys; an
    input sets one entry, an emptied input sets it to `undefined`, and the
    badge counts the entries that are set, apart from the page and the page
    size. */
module PostsFilters {
  import opened Common
  import opened JsValues
  import PostsQuery

  const PageKey: string := "page"
  const LimitKey: string := "limit"

  predicate DistinctKeys(fields: seq<Field>) {
    forall i, j :: 0 <= i < j < |fields| ==> fields[i].key != fields[j].key
  }

  predicate HasKey(fields: seq<Field>, key: string) {
    exists i | 0 <= i < |fields| :: fields[i].key == key
  }

  /** `{...fields, [key]: v}`: an existing key keeps its place and gets the
      new value, a new key goes last. */
  function WithKey(fields: seq<Field>, key: string, v: JsValue): (r: seq<Field>)
    ensures Lookup(r, key) == v
    ensures forall k :: k != key ==> Lookup(r, k) == Lookup(fields, k)
  {
    if fields == [] then [Field(key, v)]
    else if fields[0].key == key then [Field(key, v)] + fields[1..]
    else
      var r := [fields[0]] + WithKey(fields[1..], key, v);
      assert r[1..] == WithKey(fields[1..], key, v);
      r
  }

  lemma HasKeyCons(fields: seq<Field>, k: string)
    requires fields != []
    ensures HasKey(fields, k) <==> fields[0].key == k || HasKey(fields[1..], k)
  {
    if HasKey(fields, k) && fields[0].key != k {
      var i :| 0 <= i < |fields| && fields[i].key == k;
      assert fields[1..][i - 1].key == k;
    }
    if HasKey(fields[1..], k) {
      var i :| 0 <= i < |fields[1..]| && fields[1..][i].key == k;
      assert fields[i + 1].key == k;
    }
  }

  /** The keys after `WithKey` are the old keys and `key`. */
  lemma {:induction false} WithKeyKeys(fields: seq<Field>, key: string, v: JsValue, k: string)
    ensures HasKey(WithKey(fields, key, v), k) <==> HasKey(fields, k) || k == key
  {
    var r := WithKey(fields, key, v);
    HasKeyCons(r, k);
    if fields == [] {
      assert r[1..] == [];
    } else {
      HasKeyCons(fields, k);
      if fields[0].key != key {
        WithKeyKeys(fields[1..], key, v, k);
        assert r[1..] == WithKey(fields[1..], key, v);
      } else {
        assert r[1..] == fields[1..];
      }
    }
  }

  /** A key already present keeps its place; a new key goes last. */
  lemma WithKeyPlacement(fields: seq<Field>, key: string, v: JsValue)
    ensures HasKey(fields, key) ==> |WithKey(fields, key, v)| == |fields|
    ensures !HasKey(fields, key) ==> WithKey(fields, key, v) == fields + [Field(key, v)]
  {
    if HasKey(fields, key) {
      WithKeyInPlace(fields, key, v);
    } else {
      WithKeyAppends(fields, key, v);
    }
  }

  lemma {:induction false} WithKeyInPlace(fields: seq<Field>, key: string, v: JsValue)
    requires HasKey(fields, key)
    ensures |WithKey(fields, key, v)| == |fields|
  {
    HasKeyCons(fields, key);
    if fields[0].key != key {
      WithKeyInPlace(fields[1..], key, v);
    }
  }

  lemma {:induction false} WithKeyAppends(fields: seq<Field>, key: string, v: JsValue)
    requires !HasKey(fields, key)
    ensures WithKey(fields, key, v) == fields + [Field(key, v)]
  {
    if fields != [] {
      HasKeyCons(fields, key);
      WithKeyAppends(fields[1..], key, v);
      assert WithKey(fields, key, v) == [fields[0]] + (fields[1..] + [Field(key, v)]);
      assert fields == [fields[0]] + fields[1..];
    }
  }

  lemma DistinctTail(fields: seq<Field>)
    requires fields != [] && DistinctKeys(fields)
    ensures DistinctKeys(fields[1..]) && !HasKey(fields[1..], fields[0].key)
  {
    forall i | 0 <= i < |fields[1..]| ensures fields[1..][i].key != fields[0].key {
      assert fields[1..][i] == fields[i + 1];
    }
  }

  lemma DistinctCons(f: Field, tail: seq<Field>)
    requires DistinctKeys(tail) && !HasKey(tail, f.key)
    ensures DistinctKeys([f] + tail)
  {
    var r := [f] + tail;
    forall i, j | 0 <= i < j < |r| ensures r[i].key != r[j].key {
      assert r[j] == tail[j - 1];
      if i > 0 {
        assert r[i] == tail[i - 1];
      }
    }
  }

  /** Distinct keys stay distinct. */
  lemma {:induction false} WithKeyDistinct(fields: seq<Field>, key: string, v: JsValue)
    requires DistinctKeys(fields)
    ensures DistinctKeys(WithKey(fields, key, v))
  {
    if fields != [] {
      DistinctTail(fields);
      var tail := fields[1..];
      if fields[0].key == key {
        assert !HasKey(tail, key);
        DistinctCons(Field(key, v), tail);
      } else {
        WithKeyDistinct(tail, key, v);
        WithKeyKeys(tail, key, v, fields[0].key);
        DistinctCons(fields[0], WithKey(tail, key, v));
      }
    }
  }

  /** In a record with distinct keys, looking up an entry's key finds it. */
  lemma {:induction false} LookupDistinct(fields: seq<Field>, j: int)
    requires DistinctKeys(fields) && 0 <= j < |fields|
    ensures Lookup(fields, fields[j].key) == fields[j].value
  {
    if j > 0 {
      assert DistinctKeys(fields[1..]);
      LookupDistinct(fields[1..], j - 1);
      assert fields[1..][j - 1] == fields[j];
    }
  }

  /** `updateFilter(key, value)`: the empty string stands for "no filter". */
  function UpdateFilter(filters: seq<Field>, key: string, value: JsValue): (r: seq<Field>)
    ensures Lookup(r, key) == (if value == Str("") then Undefined else value)
    ensures forall k :: k != key ==> Lookup(r, k) == Lookup(filters, k)
  {
    WithKey(filters, key, if value == Str("") then Undefined else value)
  }

  /** Whether an entry shows in the badge count. */
  predicate Counted(f: Field) {
    f.key != PageKey && f.key != LimitKey && !f.value.Undefined?
  }

  /** `activeFilterCount` */
  function ActiveFilterCount(fields: seq<Field>): (n: nat)
    ensures n <= |fields|
  {
    if fields == [] then 0
    else (if Counted(fields[0]) then 1 else 0) + ActiveFilterCount(fields[1..])
  }

  /** The count over a concatenation is the sum of the counts. */
  lemma {:induction false} ActiveFilterCountAppend(a: seq<Field>, b: seq<Field>)
    ensures ActiveFilterCount(a + b) == ActiveFilterCount(a) + ActiveFilterCount(b)
  {
    if a == [] {
      assert a + b == b;
    } else {
      assert (a + b)[0] == a[0];
      assert (a + b)[1..] == a[1..] + b;
      ActiveFilterCountAppend(a[1..], b);
    }
  }

  /** Setting one filter moves the count by exactly that entry: it loses
      the old value's contribution and gains the new one's; the page and
      the page size never count. */
  lemma {:induction false} CountAfterWithKey(fields: seq<Field>, key: string, v: JsValue)
    requires DistinctKeys(fields)
    ensures var before := if key != PageKey && key != LimitKey && !Lookup(fields, key).Undefined? then 1 else 0;
      var after := if key != PageKey && key != LimitKey && !v.Undefined? then 1 else 0;
      ActiveFilterCount(WithKey(fields, key, v)) == ActiveFilterCount(fields) - before + after
  {
    if fields == [] {
      assert ActiveFilterCount([Field(key, v)]) == (if Counted(Field(key, v)) then 1 else 0) by {
        assert [Field(key, v)][1..] == [];
      }
    } else if fields[0].key == key {
      var r := [Field(key, v)] + fields[1..];
      assert r[1..] == fields[1..];
    } else {
      assert DistinctKeys(fields[1..]);
      CountAfterWithKey(fields[1..], key, v);
      var r := [fields[0]] + WithKey(fields[1..], key, v);
      assert r[1..] == WithKey(fields[1..], key, v);
    }
  }

  /** What a numeric input hands to `updateFilter`: nothing when empty,
      else `parseInt` of its text. */
  function NumericInput(text: string): (v: JsValue)
    ensures v.Undefined? || v.Num? || v.NaN?
    ensures v.Undefined? <==> text == ""
  {
    if text == "" then Undefined else ParseInt(text)
  }

  /** A number typed into an engagement input is stored as that number;
      emptying the input clears the filter, drops it from the count and
      from the request. */
  lemma NumericInputRoundTrip(filters: seq<Field>, key: string, n: int)
    ensures Lookup(UpdateFilter(filters, key, NumericInput(IntToString(n))), key) == Num(n)
    ensures Lookup(UpdateFilter(filters, key, NumericInput("")), key) == Undefined
  {
    ParseIntOfIntToString(n);
  }

  /** An entry that `updateFilter` cleared is not sent with the request. */
  lemma ClearedFilterNotSent(filters: seq<Field>, key: string)
    requires DistinctKeys(filters)
    ensures var r := UpdateFilter(filters, key, Str(""));
      forall p :: p in PostsQuery.QueryParams(r) ==> p.0 != key
  {
    var r := UpdateFilter(filters, key, Str(""));
    WithKeyDistinct(filters, key, Undefined);
    PostsQuery.QueryParamsMembership(r);
    forall p | p in PostsQuery.QueryParams(r) ensures p.0 != key {
      var j :| 0 <= j < |r| && !PostsQuery.Unset(r[j].value) && p == (r[j].key, ToJsString(r[j].value));
      LookupDistinct(r, j);
    }
  }
}

=== FILE: posts_query.dfy ===
/** The query string of the posts listing: every entry of the query record
    whose value is set becomes a parameter, in the record's order, with the
    value converted by `String`. Percent-encoding is a parameter, as
    `URLSearchParams` does it. */
module PostsQuery {
  import opened JsValues

  const PostsPath: string := "/v1/posts?"

  /** The values `getPosts` skips: `undefined`, `null` and the empty string. */
  predicate Unset(v: JsValue) {
    v.Undefined? || v.Null? || v == Str("")
  }

  /** The parameters `getPosts` appends, for the query's entries in
      `Object.entries` order. */
  function QueryParams(entries: seq<Field>): (r: seq<(string, string)>)
    ensures |r| <= |entries|
  {
    if entries == [] then [] else Param(entries[0]) + QueryParams(entries[1..])
  }

  /** The parameter one entry contributes, if any. */
  function Param(e: Field): seq<(string, string)> {
    if Unset(e.value) then [] else [(e.key, ToJsString(e.value))]
  }

  /** `key=value` pairs joined by "&", each part passed through `encode`. */
  function Serialize(params: seq<(string, string)>, encode: string -> string): (s: string)
    ensures params == [] ==> s == ""
  {
    if params == [] then ""
    else
      var first := encode(params[0].0) + "=" + encode(params[0].1);
      if |params| == 1 then first else first + "&" + Serialize(params[1..], encode)
  }

  /** The path `getPosts` requests. */
  function PostsUrl(entries: seq<Field>, encode: string -> string): (url: string)
    ensures |url| >= |PostsPath| && url[..|PostsPath|] == PostsPath
  {
    PostsPath + Serialize(QueryParams(entries), encode)
  }

  /** Filtering distributes over the record's entries ... */
  lemma {:induction false} QueryParamsAppend(a: seq<Field>, b: seq<Field>)
    ensures QueryParams(a + b) == QueryParams(a) + QueryParams(b)
  {
    if a == [] {
      assert a + b == b;
    } else {
      assert (a + b)[0] == a[0];
      assert (a + b)[1..] == a[1..] + b;
      QueryParamsAppend(a[1..], b);
      assert QueryParams(a + b) == Param(a[0]) + (QueryParams(a[1..]) + QueryParams(b));
    }
  }

  /** ... and one entry is kept exactly when it is set, with its value as
      `String` renders it: so the parameters are the set entries, in order. */
  lemma QueryParamsSingle(f: Field)
    ensures QueryParams([f]) == if Unset(f.value) then [] else [(f.key, ToJsString(f.value))]
  {
    assert [f][1..] == [];
  }

  /** Every parameter comes from a set entry of the same key, and every set
      entry yields a parameter. */
  lemma {:induction false} QueryParamsMembership(entries: seq<Field>)
    ensures forall p :: p in QueryParams(entries) ==>
      exists j | 0 <= j < |entries| ::
        (!Unset(entries[j].value) && p == (entries[j].key, ToJsString(entries[j].value)))
    ensures forall j :: 0 <= j < |entries| && !Unset(entries[j].value) ==>
      (entries[j].key, ToJsString(entries[j].value)) in QueryParams(entries)
  {
    if entries != [] {
      var rest := entries[1..];
      QueryParamsMembership(rest);
      var r := QueryParams(entries);
      var head := Param(entries[0]);
      assert r == head + QueryParams(rest);
      forall p | p in r
        ensures exists j | 0 <= j < |entries| ::
          (!Unset(entries[j].value) && p == (entries[j].key, ToJsString(entries[j].value)))
      {
        if p in head {
          assert !Unset(entries[0].value) && p == (entries[0].key, ToJsString(entries[0].value));
        } else {
          var k :| 0 <= k < |rest| && !Unset(rest[k].value) && p == (rest[k].key, ToJsString(rest[k].value));
          assert entries[k + 1] == rest[k];
        }
      }
      forall j | 0 <= j < |entries| && !Unset(entries[j].value)
        ensures (entries[j].key, ToJsString(entries[j].value)) in r
      {
        if j > 0 {
          assert entries[j] == rest[j - 1];
        }
      }
    }
  }

  /** Zero and the string "false" are values, not absences. */
  lemma FalsyValuesAreSent(k1: string, k2: string)
    ensures QueryParams([Field(k1, Num(0)), Field(k2, Str("false"))]) == [(k1, "0"), (k2, "false")]
  {
    QueryParamsAppend([Field(k1, Num(0))], [Field(k2, Str("false"))]);
    QueryParamsSingle(Field(k1, Num(0)));
    QueryParamsSingle(Field(k2, Str("false")));
    assert [Field(k1, Num(0))] + [Field(k2, Str("false"))] == [Field(k1, Num(0)), Field(k2, Str("false"))];
  }

  /** A query with nothing set requests the bare listing path. */
  lemma {:induction false} EmptyQueryUrl(entries: seq<Field>, encode: string -> string)
    requires forall j :: 0 <= j < |entries| ==> Unset(entries[j].value)
    ensures QueryParams(entries) == []
    ensures PostsUrl(entries, encode) == PostsPath
  {
    if entries != [] {
      assert Unset(entries[0].value);
      EmptyQueryUrl(entries[1..], encode);
    }
  }
}

=== FILE: route_guards.dfy ===
/** The two page guards: a protected page shows its content only to a
    signed-in user (with a verified email unless the page waives that) and
    sends everyone else away; a guest page (sign-in, sign-up) shows its
    content only to visitors and sends signed-in users to the feed. Each
    guard's render and its redirect effect are decided from the same state,
    which is what is modelled; the router and the percent-encoding of the
    return path are parameters. */
module RouteGuards {
  import opened Common
  import opened ApiTransform

  const LoginReturnPrefix: string := "/login?returnUrl="
  const VerifyPendingPath: string := "/verify-email-pending"
  const GuestHomePath: string := "/spectrity/essence"

  /** What a guard does for one state: the page it navigates to, if any,
      and what it draws. */
  datatype View = Spinner | Nothing | Content
  datatype Decision = Decision(redirect: Option<string>, view: View)

  /** `ProtectedRoute`; `requireVerified` is `None` when the prop is not
      given, and it then defaults to true. */
  function ProtectedRoute(user: Option<User>, loading: bool, requireVerified: Option<bool>,
                          pathname: string, encode: string -> string): (d: Decision)
    ensures loading <==> d.view == Spinner
    ensures loading ==> d.redirect.None?
    ensures d.view == Content <==> d.redirect.None? && !loading
  {
    var mustBeVerified := requireVerified.GetOr(true);
    if loading then Decision(None, Spinner)
    else if user.None? then Decision(Some(LoginReturnPrefix + encode(pathname)), Nothing)
    else if mustBeVerified && !user.value.isEmailVerified then Decision(Some(VerifyPendingPath), Nothing)
    else Decision(None, Content)
  }

  /** `GuestRoute` */
  function GuestRoute(user: Option<User>, loading: bool): (d: Decision)
    ensures loading <==> d.view == Spinner
    ensures d.view == Content <==> d.redirect.None? && !loading
  {
    if loading then Decision(None, Spinner)
    else if user.Some? then Decision(Some(GuestHomePath), Nothing)
    else Decision(None, Content)
  }

  // ---------------------------------------------------------------------
  // Properties

  /** A protected page shows its content exactly when loading is over and
      there is a user who is verified or need not be; a visitor is sent to
      sign in with the page to come back to; an unverified user of a page
      that needs verification is sent to the verification notice. Leaving
      out the prop means verification is required. */
  lemma ProtectedRouteDecides(user: Option<User>, loading: bool, requireVerified: Option<bool>,
                              pathname: string, encode: string -> string)
    ensures var d := ProtectedRoute(user, loading, requireVerified, pathname, encode);
      (d.view == Content <==>
        !loading && user.Some? && (user.value.isEmailVerified || requireVerified == Some(false))) &&
      (!loading && user.None? ==>
        d.redirect.Some? && StartsWith(d.redirect.value, LoginReturnPrefix) &&
        d.redirect.value[|LoginReturnPrefix|..] == encode(pathname)) &&
      (!loading && user.Some? && !user.value.isEmailVerified && requireVerified != Some(false) <==>
        d.redirect == Some(VerifyPendingPath))
    ensures ProtectedRoute(user, loading, None, pathname, encode) ==
      ProtectedRoute(user, loading, Some(true), pathname, encode)
  {
    var d := ProtectedRoute(user, loading, requireVerified, pathname, encode);
    if !loading && user.None? {
      assert d.redirect.value[..|LoginReturnPrefix|] == LoginReturnPrefix;
      assert d.redirect.value[1] == 'l' != VerifyPendingPath[1];
    }
  }

  /** A guest page shows its content exactly when loading is over and no
      one is signed in; a signed-in user is sent to the feed. */
  lemma GuestRouteDecides(user: Option<User>, loading: bool)
    ensures GuestRoute(user, loading).view == Content <==> !loading && user.None?
    ensures GuestRoute(user, loading).redirect.Some? <==> !loading && user.Some?
    ensures GuestRoute(user, loading).redirect.Some? ==> GuestRoute(user, loading).redirect.value == GuestHomePath
  {
  }

  /** The guards split the settled states between them: when verification
      is waived, every settled state shows exactly one of the two kinds of
      page, and each guard redirects exactly when the other shows content. */
  lemma GuardsComplementary(user: Option<User>, loading: bool, pathname: string, encode: string -> string)
    requires !loading
    ensures var p := ProtectedRoute(user, loading, Some(false), pathname, encode);
      var g := GuestRoute(user, loading);
      (p.view == Content <==> g.view != Content) &&
      (p.redirect.Some? <==> g.view == Content) &&
      (g.redirect.Some? <==> p.view == Content)
  {
  }
}

=== FILE: secure_logger.dfy ===
/** The redaction done before anything is logged: keys that look like
    credentials have their values replaced, nested structure is walked to a
    bounded depth, errors are cut down to five descriptive fields, and a
    token is described by its length and first four characters only. */
module SecureLogger {
  import opened Common
  import opened JsValues

  /** The lower-case fragments that mark a key as sensitive. */
  const SensitiveFields: seq<string> := [
    "token", "accesstoken", "refreshtoken", "access_token", "refresh_token", "password",
    "secret", "authorization", "cookie", "session", "apikey", "api_key"]

  const RedactedText: string := "***REDACTED***"
  const MaxDepthText: string := "[Max Depth Reached]"
  const MaxDepth: nat := 5

  /** `isSensitiveKey(key)`: the lower-cased key contains a listed fragment. */
  predicate IsSensitiveKey(key: string) {
    exists i | 0 <= i < |SensitiveFields| :: Contains(Lower(key), SensitiveFields[i])
  }

  /** What a sensitive key's value becomes: the marker when truthy (a
      non-empty string is truthy), `null` otherwise. */
  function RedactValue(v: JsValue): (r: JsValue)
    ensures r == Str(RedactedText) || r == Null
    ensures r == Null <==> !Truthy(v)
  {
    if v.Str? && |v.s| > 0 then Str(RedactedText)
    else if Truthy(v) then Str(RedactedText) else Null
  }

  /** `sanitizeData(data, depth)` */
  function Sanitize(v: JsValue, depth: nat): (r: JsValue)
    ensures depth > MaxDepth ==> r == Str(MaxDepthText)
    ensures depth <= MaxDepth && !v.Arr? && !v.Obj? ==> r == v
    ensures depth <= MaxDepth && v.Arr? ==> r.Arr? && |r.items| == |v.items|
    ensures depth <= MaxDepth && v.Obj? ==> r.Obj? && |r.fields| == |v.fields|
    decreases v
  {
    if depth > MaxDepth then Str(MaxDepthText)
    else
      match v
      case Null => v
      case Undefined => v
      case Arr(items) => Arr(SanitizeItems(items, depth + 1))
      case Obj(fields) => Obj(SanitizeFields(fields, depth))
      case _ => v
  }

  /** `data.map(item => sanitizeData(item, depth))` */
  function SanitizeItems(items: seq<JsValue>, depth: nat): (r: seq<JsValue>)
    ensures |r| == |items|
    ensures forall i :: 0 <= i < |items| ==> r[i] == Sanitize(items[i], depth)
    decreases items
  {
    if items == [] then [] else [Sanitize(items[0], depth)] + SanitizeItems(items[1..], depth)
  }

  /** The value a field of an object at `depth` is given. */
  function SanitizeField(f: Field, depth: nat): (r: Field)
    ensures r.key == f.key
    decreases f, 0
  {
    if IsSensitiveKey(f.key) then Field(f.key, RedactValue(f.value))
    else if IsObjectType(f.value) then Field(f.key, Sanitize(f.value, depth + 1))
    else f
  }

  /** The entries of an object at `depth`, in order. */
  function SanitizeFields(fields: seq<Field>, depth: nat): (r: seq<Field>)
    ensures |r| == |fields|
    ensures forall i :: 0 <= i < |fields| ==> r[i] == SanitizeField(fields[i], depth)
    decreases fields
  {
    if fields == [] then [] else [SanitizeField(fields[0], depth)] + SanitizeFields(fields[1..], depth)
  }

  // ---------------------------------------------------------------------
  // Redaction

  /** No sensitive key anywhere in `v` holds anything but the marker or
      `null`. */
  predicate Clean(v: JsValue)
    decreases v
  {
    match v
    case Arr(items) => forall i :: 0 <= i < |items| ==> Clean(items[i])
    case Obj(fields) => forall i :: 0 <= i < |fields| ==> CleanField(fields[i])
    case _ => true
  }

  predicate CleanField(f: Field)
    decreases f, 0
  {
    (IsSensitiveKey(f.key) ==> f.value == Str(RedactedText) || f.value == Null) && Clean(f.value)
  }

  /** Nothing under a sensitive key survives sanitising, at any depth. */
  lemma {:induction false} SanitizeIsClean(v: JsValue, depth: nat)
    ensures Clean(Sanitize(v, depth))
    decreases v, 1
  {
    if depth <= MaxDepth {
      match v
      case Arr(items) => ItemsAreClean(v, depth);
      case Obj(fields) => FieldsAreClean(v, depth);
      case _ =>
    }
  }

  lemma {:induction false} ItemsAreClean(v: JsValue, depth: nat)
    requires v.Arr? && depth <= MaxDepth
    ensures Clean(Arr(SanitizeItems(v.items, depth + 1)))
    decreases v, 0
  {
    var d := depth + 1;
    forall i | 0 <= i < |v.items| ensures Clean(SanitizeItems(v.items, d)[i]) {
      SanitizeIsClean(v.items[i], d);
    }
  }

  lemma {:induction false} FieldsAreClean(v: JsValue, depth: nat)
    requires v.Obj? && depth <= MaxDepth
    ensures Clean(Obj(SanitizeFields(v.fields, depth)))
    decreases v, 0
  {
    forall i | 0 <= i < |v.fields| ensures CleanField(SanitizeFields(v.fields, depth)[i]) {
      SanitizeFieldIsClean(v.fields[i], depth);
    }
  }

  lemma {:induction false} SanitizeFieldIsClean(f: Field, depth: nat)
    ensures CleanField(SanitizeField(f, depth))
    decreases f, 0
  {
    if !IsSensitiveKey(f.key) {
      SanitizeIsClean(f.value, depth + 1);
    }
  }

  /** Matching ignores ASCII case and finds a fragment anywhere in the key:
      any key with "Token" inside it, as in the camelCase `refreshToken`,
      is sensitive. */
  lemma SensitiveKeyExamples(prefix: string, suffix: string)
    ensures IsSensitiveKey(prefix + "Token" + suffix)
  {
    var key := prefix + "Token" + suffix;
    var lowered := Lower(key);
    var n := |prefix|;
    forall j | 0 <= j < 5 ensures lowered[n + j] == SensitiveFields[0][j] {
      assert key[n + j] == "Token"[j];
    }
    assert lowered[n..n + 5] == SensitiveFields[0];
    assert OccursAt(lowered, SensitiveFields[0], n);
  }

  /** A key with no listed fragment is not sensitive. */
  lemma EmailIsNotSensitive()
    ensures !IsSensitiveKey("email")
  {
    var email := Lower("email");
    assert email == "email";
    forall i | 0 <= i < |SensitiveFields| ensures !Contains(email, SensitiveFields[i]) {
      if |SensitiveFields[i]| <= |email| {
        assert i == 0;
        assert email[0] != SensitiveFields[0][0];
      }
    }
  }

  /** Within the depth limit, each entry of an object keeps its key and
      position; a sensitive key's value is redacted, another key's
      primitive value is kept as it is, and another key's nested value is
      sanitised one level deeper. */
  lemma SanitizeObjectEntry(fields: seq<Field>, depth: nat, i: nat)
    requires depth <= MaxDepth && i < |fields|
    ensures var out := Sanitize(Obj(fields), depth).fields[i];
      var k := fields[i].key;
      var v := fields[i].value;
      out.key == k &&
      (IsSensitiveKey(k) ==> out.value == RedactValue(v)) &&
      (!IsSensitiveKey(k) && !IsObjectType(v) ==> out.value == v) &&
      (!IsSensitiveKey(k) && IsObjectType(v) ==> out.value == Sanitize(v, depth + 1))
  {
  }

  /** A concrete case: a refresh token next to an e-mail address in a
      login payload; the token is replaced and the address kept. */
  lemma RefreshTokenIsRedacted(email: string, token: string)
    requires token != ""
    ensures Sanitize(Obj([Field("email", Str(email)), Field("refreshToken", Str(token))]), 0) ==
      Obj([Field("email", Str(email)), Field("refreshToken", Str(RedactedText))])
  {
    var fields := [Field("email", Str(email)), Field("refreshToken", Str(token))];
    var out := Sanitize(Obj(fields), 0).fields;
    assert out[0] == fields[0] by { EmailIsNotSensitive(); SanitizeObjectEntry(fields, 0, 0); }
    assert out[1] == Field("refreshToken", Str(RedactedText)) by {
      SensitiveKeyExamples("refresh", "");
      assert "refresh" + "Token" + "" == "refreshToken";
      SanitizeObjectEntry(fields, 0, 1);
    }
    assert out == [Field("email", Str(email)), Field("refreshToken", Str(RedactedText))];
  }

  // ---------------------------------------------------------------------
  // Depth bound

  /** `v` nests arrays and objects at most `h` levels deep. */
  predicate HeightAtMost(v: JsValue, h: nat)
    decreases v
  {
    match v
    case Arr(items) => h >= 1 && forall i :: 0 <= i < |items| ==> HeightAtMost(items[i], h - 1)
    case Obj(fields) => h >= 1 && forall i :: 0 <= i < |fields| ==> FieldHeightAtMost(fields[i], h - 1)
    case _ => true
  }

  predicate FieldHeightAtMost(f: Field, h: nat)
    decreases f, 0
  {
    HeightAtMost(f.value, h)
  }

  /** The output of sanitising at `depth` nests at most `6 - depth` levels:
      the depth cut-off bounds the walk whatever the input. */
  lemma {:induction false} SanitizeHeight(v: JsValue, depth: nat)
    requires depth <= MaxDepth + 1
    ensures HeightAtMost(Sanitize(v, depth), MaxDepth + 1 - depth)
    decreases v, 1
  {
    if depth <= MaxDepth {
      match v
      case Arr(items) => ItemsHeight(v, depth);
      case Obj(fields) => FieldsHeight(v, depth);
      case _ =>
    }
  }

  lemma {:induction false} ItemsHeight(v: JsValue, depth: nat)
    requires v.Arr? && depth <= MaxDepth
    ensures HeightAtMost(Arr(SanitizeItems(v.items, depth + 1)), MaxDepth + 1 - depth)
    decreases v, 0
  {
    var d := depth + 1;
    forall i | 0 <= i < |v.items| ensures HeightAtMost(SanitizeItems(v.items, d)[i], MaxDepth - depth) {
      SanitizeHeight(v.items[i], d);
    }
  }

  lemma {:induction false} FieldsHeight(v: JsValue, depth: nat)
    requires v.Obj? && depth <= MaxDepth
    ensures HeightAtMost(Obj(SanitizeFields(v.fields, depth)), MaxDepth + 1 - depth)
    decreases v, 0
  {
    forall i | 0 <= i < |v.fields| ensures FieldHeightAtMost(SanitizeFields(v.fields, depth)[i], MaxDepth - depth) {
      SanitizeFieldHeight(v.fields[i], depth);
    }
  }

  lemma {:induction false} SanitizeFieldHeight(f: Field, depth: nat)
    requires depth <= MaxDepth
    ensures FieldHeightAtMost(SanitizeField(f, depth), MaxDepth - depth)
    decreases f, 0
  {
    if !IsSensitiveKey(f.key) {
      if IsObjectType(f.value) {
        SanitizeHeight(f.value, depth + 1);
      } else {
        assert !f.value.Arr? && !f.value.Obj?;
      }
    }
  }

  // ---------------------------------------------------------------------
  // Idempotence

  /** Sanitising twice is sanitising once. */
  lemma {:induction false} SanitizeIdempotent(v: JsValue, depth: nat)
    ensures Sanitize(Sanitize(v, depth), depth) == Sanitize(v, depth)
    decreases v
  {
    if depth <= MaxDepth {
      match v
      case Arr(items) =>
        var once := SanitizeItems(items, depth + 1);
        forall i | 0 <= i < |items| ensures SanitizeItems(once, depth + 1)[i] == once[i] {
          SanitizeIdempotent(items[i], depth + 1);
        }
      case Obj(fields) =>
        var once := SanitizeFields(fields, depth);
        forall i | 0 <= i < |fields| ensures SanitizeFields(once, depth)[i] == once[i] {
          SanitizeFieldIdempotent(fields[i], depth);
        }
      case _ =>
    }
  }

  lemma {:induction false} SanitizeFieldIdempotent(f: Field, depth: nat)
    ensures SanitizeField(SanitizeField(f, depth), depth) == SanitizeField(f, depth)
    decreases f, 0
  {
    if !IsSensitiveKey(f.key) && IsObjectType(f.value) {
      SanitizeIdempotent(f.value, depth + 1);
      var s := Sanitize(f.value, depth + 1);
      assert IsObjectType(s) || s == Str(MaxDepthText);
    }
  }

  // ---------------------------------------------------------------------
  // Errors and tokens

  /** The five properties of an error that may be logged. */
  const SafeErrorKeys: seq<string> := ["message", "code", "status", "statusText", "name"]

  /** `safeError` in `secureLog.error`: each safe property read off the
      error (`undefined` when absent, or when the error is not an object). */
  function SafeError(error: JsValue): (r: JsValue)
    ensures r.Obj? && |r.fields| == |SafeErrorKeys|
    ensures forall i :: 0 <= i < |SafeErrorKeys| ==> r.fields[i].key == SafeErrorKeys[i]
  {
    Obj(seq(|SafeErrorKeys|, i requires 0 <= i < |SafeErrorKeys| => Field(SafeErrorKeys[i], Get(error, SafeErrorKeys[i]))))
  }

  /** The logged error shows each safe property as the error has it, and
      no other property at all. */
  lemma SafeErrorShowsOnlySafeKeys(error: JsValue, key: string)
    ensures key in SafeErrorKeys ==> Get(SafeError(error), key) == Get(error, key)
    ensures key !in SafeErrorKeys ==> Get(SafeError(error), key) == Undefined
  {
    var r := SafeError(error);
    if key in SafeErrorKeys {
      var i :| 0 <= i < |SafeErrorKeys| && SafeErrorKeys[i] == key;
      assert forall j :: 0 <= j < i ==> r.fields[j].key != key;
    }
  }

  /** The status `checkToken` logs: nothing for a missing or empty token,
      otherwise its length, its first four characters, and whether it
      looks like a JWT. */
  datatype TokenStatus = Missing | Found(length: nat, prefix: string, isJwt: bool)

  function CheckToken(token: Option<string>): (r: TokenStatus)
    ensures r.Missing? <==> !Present(token)
    ensures r.Found? ==> r.length == |token.value| && |r.prefix| <= 4 && StartsWith(token.value, r.prefix)
    ensures r.Found? ==> (r.isJwt <==> StartsWith(token.value, "eyJ"))
  {
    if !Present(token) then Missing
    else
      var t := token.value;
      Found(|t|, t[..if |t| < 4 then |t| else 4], StartsWith(t, "eyJ"))
  }

  /** The prefix is exactly four characters for a token that long, so two
      tokens with the same status differ only past the fourth character. */
  lemma CheckTokenRevealsFourChars(a: string, b: string)
    requires |a| >= 4 && |b| >= 4 && |a| == |b| && a[..4] == b[..4]
    ensures CheckToken(Some(a)) == CheckToken(Some(b))
  {
    assert StartsWith(a, "eyJ") <==> StartsWith(b, "eyJ") by {
      assert a[..3] == a[..4][..3] && b[..3] == b[..4][..3];
    }
  }
}

=== FILE: token_storage.dfy ===
/** The client-held credential store: an in-memory cache of the access
    token over the browser's key/value storage, which holds the access
    token under "at", the refresh token under "rt" and a cached user
    profile under "user". In development, tokens configured in the
    environment take precedence over everything. */
module TokenStorage {
  import opened Common

  const AccessKey: string := "at"
  const RefreshKey: string := "rt"
  const UserKey: string := "user"

  /** The development tokens from the environment (empty when unset) and
      whether the build runs in development mode. */
  datatype DevEnv = DevEnv(accessToken: string, refreshToken: string, development: bool)

  /** `shouldUseDevTokens()` */
  predicate UsesDevTokens(env: DevEnv) {
    env.accessToken != "" && env.refreshToken != "" && env.development
  }

  /** `memory` is the module's `inMemoryAccessToken`; `local` is the
      browser's storage, absent when there is no window. */
  datatype Store = Store(memory: Option<string>, local: Option<map<string, string>>, env: DevEnv)

  /** `localStorage.getItem(key)` */
  function Item(local: map<string, string>, key: string): Option<string> {
    if key in local then Some(local[key]) else None
  }

  /** `getAccessToken()`: the token, if any, and the store after it (the
      stored value is cached in memory when memory was empty). */
  function GetAccessToken(s: Store): (r: (Option<string>, Store))
    ensures r.0.Some? ==> r.0.value != ""
    ensures r.1.local == s.local && r.1.env == s.env
    ensures r.1 != s ==> r.0.Some? && r.1.memory == r.0
  {
    if UsesDevTokens(s.env) then (Some(s.env.accessToken), s)
    else if Present(s.memory) then (s.memory, s)
    else if s.local.Some? && Present(Item(s.local.value, AccessKey)) then
      var stored := Item(s.local.value, AccessKey);
      (stored, s.(memory := stored))
    else (None, s)
  }

  /** `setAccessToken(token)` */
  function SetAccessToken(s: Store, token: string): (r: Store)
    ensures r.memory == Some(token) && r.env == s.env
    ensures s.local.None? ==> r.local.None?
    ensures s.local.Some? ==> r.local == Some(s.local.value[AccessKey := token])
    ensures !UsesDevTokens(s.env) && token != "" ==> GetAccessToken(r).0 == Some(token)
  {
    s.(memory := Some(token),
       local := if s.local.Some? then Some(s.local.value[AccessKey := token]) else None)
  }

  /** `getRefreshToken()` */
  function GetRefreshToken(s: Store): (r: Option<string>)
    ensures UsesDevTokens(s.env) ==> r == Some(s.env.refreshToken)
    ensures !UsesDevTokens(s.env) && s.local.None? ==> r.None?
    ensures !UsesDevTokens(s.env) && s.local.Some? ==> r == Item(s.local.value, RefreshKey)
  {
    if UsesDevTokens(s.env) then Some(s.env.refreshToken)
    else if s.local.None? then None
    else Item(s.local.value, RefreshKey)
  }

  /** `setRefreshToken(token)` */
  function SetRefreshToken(s: Store, token: string): (r: Store)
    ensures r.memory == s.memory && r.env == s.env
    ensures s.local.Some? ==> r.local == Some(s.local.value[RefreshKey := token])
    ensures s.local.None? ==> r == s
    ensures !UsesDevTokens(s.env) && s.local.Some? ==> GetRefreshToken(r) == Some(token)
  {
    if s.local.None? then s else s.(local := Some(s.local.value[RefreshKey := token]))
  }

  /** `setTokens(accessToken, refreshToken)` */
  function SetTokens(s: Store, accessToken: string, refreshToken: string): (r: Store)
    ensures r.memory == Some(accessToken) && r.env == s.env
    ensures s.local.None? ==> r.local.None?
    ensures s.local.Some? ==>
      r.local == Some(s.local.value[AccessKey := accessToken][RefreshKey := refreshToken])
    ensures !UsesDevTokens(s.env) && accessToken != "" ==> GetAccessToken(r).0 == Some(accessToken)
    ensures !UsesDevTokens(s.env) && s.local.Some? ==> GetRefreshToken(r) == Some(refreshToken)
  {
    s.(memory := Some(accessToken),
       local := if s.local.Some? then Some(s.local.value[AccessKey := accessToken][RefreshKey := refreshToken]) else None)
  }

  /** `clearTokens()` */
  function ClearTokens(s: Store): (r: Store)
    ensures r.memory.None? && r.env == s.env
    ensures s.local.None? <==> r.local.None?
    ensures s.local.Some? ==> r.local.value.Keys == s.local.value.Keys - {AccessKey, RefreshKey, UserKey}
    ensures s.local.Some? ==> forall k :: k in r.local.value ==> r.local.value[k] == s.local.value[k]
    ensures !UsesDevTokens(s.env) ==> GetAccessToken(r).0.None? && !HasTokens(r)
  {
    s.(memory := None,
       local := if s.local.Some? then Some(s.local.value - {AccessKey, RefreshKey, UserKey}) else None)
  }

  /** `hasTokens()`: whether `getRefreshToken` would yield a usable token. */
  function HasTokens(s: Store): (b: bool)
    ensures b <==> Present(GetRefreshToken(s))
  {
    if UsesDevTokens(s.env) then true
    else if s.local.None? then false
    else Present(Item(s.local.value, RefreshKey))
  }

  // ---------------------------------------------------------------------
  // Properties

  /** Memory wins over storage; storage is consulted only when memory is
      empty, and what it yields is cached. */
  lemma GetAccessTokenFallback(s: Store)
    requires !UsesDevTokens(s.env)
    ensures Present(s.memory) ==> GetAccessToken(s) == (s.memory, s)
    ensures !Present(s.memory) && s.local.Some? && Present(Item(s.local.value, AccessKey)) ==>
      GetAccessToken(s).0 == Item(s.local.value, AccessKey) &&
      GetAccessToken(s).1.memory == Item(s.local.value, AccessKey)
    ensures !Present(s.memory) && (s.local.None? || !Present(Item(s.local.value, AccessKey))) ==>
      GetAccessToken(s) == (None, s)
  {
  }

  /** Reading twice is reading once: the cache filled by the first read
      serves the second, and nothing changes further. */
  lemma GetAccessTokenStable(s: Store)
    ensures var (t, s1) := GetAccessToken(s); GetAccessToken(s1) == (t, s1)
  {
  }

  /** After `setTokens(a, r)` in a browser, the getters return `a` and `r`
      and "at" and "rt" hold them; no other key changes. */
  lemma SetTokensRoundTrip(s: Store, a: string, r: string)
    requires !UsesDevTokens(s.env) && s.local.Some? && a != ""
    ensures GetAccessToken(SetTokens(s, a, r)).0 == Some(a)
    ensures GetRefreshToken(SetTokens(s, a, r)) == Some(r)
    ensures var local := SetTokens(s, a, r).local.value;
      Item(local, AccessKey) == Some(a) && Item(local, RefreshKey) == Some(r) &&
      forall k :: k != AccessKey && k != RefreshKey ==> Item(local, k) == Item(s.local.value, k)
  {
  }

  /** `setAccessToken` touches memory and "at" only: the refresh token and
      every other key are as before. */
  lemma SetAccessTokenFrame(s: Store, t: string)
    ensures GetRefreshToken(SetAccessToken(s, t)) == GetRefreshToken(s)
    ensures HasTokens(SetAccessToken(s, t)) == HasTokens(s)
    ensures s.local.Some? ==> forall k :: k != AccessKey ==>
      Item(SetAccessToken(s, t).local.value, k) == Item(s.local.value, k)
  {
  }

  /** `clearTokens` leaves no credential behind, removes exactly "at", "rt"
      and "user", and clearing again changes nothing. */
  lemma ClearTokensProperties(s: Store)
    ensures ClearTokens(ClearTokens(s)) == ClearTokens(s)
    ensures !UsesDevTokens(s.env) ==>
      GetAccessToken(ClearTokens(s)).0.None? && !HasTokens(ClearTokens(s)) &&
      (s.local.Some? ==> GetRefreshToken(ClearTokens(s)).None?)
    ensures s.local.Some? ==> forall k :: (Item(ClearTokens(s).local.value, k) ==
      (if k in {AccessKey, RefreshKey, UserKey} then None else Item(s.local.value, k)))
  {
    if s.local.Some? {
      var keys := {AccessKey, RefreshKey, UserKey};
      assert s.local.value - keys - keys == s.local.value - keys;
    }
  }

  /** Outside development, `hasTokens` holds exactly when "rt" is stored
      and non-empty, i.e. when `getRefreshToken` yields a usable token. */
  lemma HasTokensIffRefreshToken(s: Store)
    requires !UsesDevTokens(s.env)
    ensures HasTokens(s) <==> s.local.Some? && RefreshKey in s.local.value && s.local.value[RefreshKey] != ""
    ensures HasTokens(s) <==> Present(GetRefreshToken(s))
  {
  }

  /** Without a window (server-side rendering) there is no refresh token,
      no session, and setting the refresh token does nothing. */
  lemma NoWindowBehaviour(s: Store, t: string)
    requires s.local.None? && !UsesDevTokens(s.env)
    ensures GetRefreshToken(s).None?
    ensures !HasTokens(s)
    ensures SetRefreshToken(s, t) == s
    ensures GetAccessToken(s).0 == (if Present(s.memory) then s.memory else None)
  {
  }

  /** In development with both dev tokens configured, the getters ignore
      memory and storage and `hasTokens` always holds. */
  lemma DevTokensOverride(s: Store)
    requires UsesDevTokens(s.env)
    ensures GetAccessToken(s) == (Some(s.env.accessToken), s)
    ensures GetRefreshToken(s) == Some(s.env.refreshToken)
    ensures HasTokens(s)
  {
  }
}

=== FILE: validators.dfy ===
/** Form-level checks: password strength, the safety of a post-login
    return path, and the message shown for an error of unknown shape. */
module Validators {
  import opened Common

  const TooShortMessage: string := "Password must be at least 8 characters long"
  const NoUppercaseMessage: string := "Password must contain at least one uppercase letter"
  const NoDigitMessage: string := "Password must contain at least one number"
  const NoSpecialMessage: string := "Password must contain at least one special character"
  const MinPasswordLength: nat := 8

  /** The characters the special-character class accepts. */
  const SpecialChars: string := "!@#$%^&*(),.?\":{}|<>"

  predicate IsUpper(c: char) { 'A' <= c <= 'Z' }
  predicate IsDigit(c: char) { '0' <= c <= '9' }
  predicate IsSpecial(c: char) { c in SpecialChars }

  predicate HasUpper(p: string) { exists i | 0 <= i < |p| :: IsUpper(p[i]) }
  predicate HasDigit(p: string) { exists i | 0 <= i < |p| :: IsDigit(p[i]) }
  predicate HasSpecial(p: string) { exists i | 0 <= i < |p| :: IsSpecial(p[i]) }

  /** `validatePassword(p)`: `None` when acceptable, else the message of the
      first failing check, in the order length, uppercase, digit, special. */
  function ValidatePassword(p: string): (r: Option<string>)
    ensures r.Some? ==> r.value in [TooShortMessage, NoUppercaseMessage, NoDigitMessage, NoSpecialMessage]
  {
    if |p| < MinPasswordLength then Some(TooShortMessage)
    else if !HasUpper(p) then Some(NoUppercaseMessage)
    else if !HasDigit(p) then Some(NoDigitMessage)
    else if !HasSpecial(p) then Some(NoSpecialMessage)
    else None
  }

  /** A password is accepted exactly when it meets all four requirements. */
  lemma PasswordAcceptedIff(p: string)
    ensures ValidatePassword(p).None? <==>
      |p| >= 8 && HasUpper(p) && HasDigit(p) && HasSpecial(p)
  {
  }

  /** Each message names a requirement that fails, and every earlier
      requirement holds. */
  lemma PasswordFirstFailure(p: string)
    ensures ValidatePassword(p) == Some(TooShortMessage) <==> |p| < 8
    ensures ValidatePassword(p) == Some(NoUppercaseMessage) <==> |p| >= 8 && !HasUpper(p)
    ensures ValidatePassword(p) == Some(NoDigitMessage) <==> |p| >= 8 && HasUpper(p) && !HasDigit(p)
    ensures ValidatePassword(p) == Some(NoSpecialMessage) <==>
      |p| >= 8 && HasUpper(p) && HasDigit(p) && !HasSpecial(p)
  {
  }

  /** Two examples: a letters-and-digits password is refused for lack of a
      special character, and adding one makes it acceptable. */
  lemma PasswordExamples()
    ensures ValidatePassword("Password1") == Some(NoSpecialMessage)
    ensures ValidatePassword("Password1!").None?
  {
    LettersAndDigitRefused();
    WithSpecialAccepted();
  }

  lemma LettersAndDigitRefused()
    ensures ValidatePassword("Password1") == Some(NoSpecialMessage)
  {
    var p := "Password1";
    assert IsUpper(p[0]) && IsDigit(p[8]);
    forall i | 0 <= i < |p| ensures !IsSpecial(p[i]) {
      assert 'a' <= p[i] <= 'z' || p[i] == 'P' || p[i] == '1';
    }
  }

  lemma WithSpecialAccepted()
    ensures ValidatePassword("Password1!").None?
  {
    var q := "Password1!";
    assert IsUpper(q[0]) && IsDigit(q[8]) && IsSpecial(q[9]);
  }

  // ---------------------------------------------------------------------
  // Return paths

  /** `isValidReturnUrl(url)`, with the four tests in the code's order. */
  function IsValidReturnUrl(url: Option<string>): (r: bool)
    ensures r ==> Present(url) && StartsWith(url.value, "/")
  {
    if !Present(url) then false
    else if !StartsWith(url.value, "/") then false
    else if StartsWith(url.value, "//") then false
    else if StartsWith(Lower(url.value), "javascript:") then false
    else if StartsWith(Lower(url.value), "data:") then false
    else true
  }

  /** A return path is accepted exactly when it starts with one slash and
      not two: the scheme tests can never decide anything, because a path
      starting with "/" cannot start with a letter. */
  lemma ReturnUrlIff(url: Option<string>)
    ensures IsValidReturnUrl(url) <==>
      Present(url) && StartsWith(url.value, "/") && !StartsWith(url.value, "//")
  {
    if Present(url) && StartsWith(url.value, "/") {
      var low := Lower(url.value);
      assert low[0] == '/';
      assert !StartsWith(low, "javascript:") by { assert "javascript:"[0] == 'j'; }
      assert !StartsWith(low, "data:") by { assert "data:"[0] == 'd'; }
    }
  }

  // ---------------------------------------------------------------------
  // Error messages

  /** The parts of a thrown value that `getErrorMessage` looks at. An
      Axios error carries `response.data.message` and
      `response.data.error.message` (absent when any step of the path is
      missing) and its own `message`. */
  datatype Thrown =
    | AxiosError(responseMessage: Option<string>, errorMessage: Option<string>, message: Option<string>)
    | StandardError(text: string)
    | StringValue(s: string)
    | OtherValue

  const AxiosFallbackMessage: string := "An error occurred"
  const UnexpectedMessage: string := "An unexpected error occurred"

  /** `getErrorMessage(error)` */
  function GetErrorMessage(e: Thrown): (r: string)
    ensures e.AxiosError? ==> r != ""
  {
    match e
    case AxiosError(rm, em, m) => OrDefault(OrElse(OrElse(rm, em), m), AxiosFallbackMessage)
    case StandardError(m) => m
    case StringValue(s) => s
    case OtherValue => UnexpectedMessage
  }

  /** For an Axios error the message is the first non-empty one of the
      response message, the nested error message and the error's own
      message, else the generic fallback; the other kinds map as listed. */
  lemma ErrorMessageChain(e: Thrown)
    ensures e.AxiosError? ==>
      GetErrorMessage(e) == FirstPresent([e.responseMessage, e.errorMessage, e.message], AxiosFallbackMessage)
    ensures e.StandardError? ==> GetErrorMessage(e) == e.text
    ensures e.StringValue? ==> GetErrorMessage(e) == e.s
    ensures e.OtherValue? ==> GetErrorMessage(e) == UnexpectedMessage
  {
    if e.AxiosError? {
      var c := [e.responseMessage, e.errorMessage, e.message];
      var d := AxiosFallbackMessage;
      assert c[1..][1..][1..] == [];
      assert FirstPresent(c[1..][1..], d) == OrDefault(e.message, d);
      assert FirstPresent(c[1..], d) == OrDefault(OrElse(e.errorMessage, e.message), d);
    }
  }
}
